=== FILE: README.md ===
# Smart Reply extension — a Dafny model of its core

This project models, in Dafny, the logic of a browser extension that drafts
e-mail replies in a web mail client with an AI chat-completion service:

- the background worker (`src/background.js`): it resolves the suggestion
  count, truncates the mail context, assembles the two prompts and the chat
  request, turns the provider's reply into a list of suggestions
  (`parseSuggestions`) and turns an error body into a message
  (`deriveErrorMessage`);
- the settings popup (`src/popup.js`): it clamps the count, normalises stored
  style categories, migrates the legacy audience/scene format into
  categories, and adds, renames, removes and edits categories in place;
- the content script (`src/content-script.js`):
  - HTML escaping and the text-to-HTML conversion used on insertion;
  - whitespace normalisation, sentence splitting and natural line breaks;
  - the blank-line separators placed around an inserted suggestion;
  - instruction presets and their selection;
  - the last-writer-wins request ids of the three request kinds;
  - caret/selection persistence as child-index paths over the DOM.

Files and modules:

- `wrappers.dfy` (module `Wrappers`): `Option`
- `text.dfy` (module `Text`): `trim` and friends over an abstract whitespace class, joining and splitting
- `json.dfy` (module `Json`): a small JSON value type, truthiness, `String(v)`, field access
- `background.dfy` (module `Background`): the worker
- `popup.dfy` (module `Popup`): the popup; `StyleEditor` is a class over the category list
- `formatting.dfy` (module `Formatting`): `escapeHtml`, `convertTextToHtml`
- `whitespace.dfy` (module `Whitespace`): `normalizeWhitespacePreservingParagraphs`
- `sentences.dfy` (module `Sentences`): `splitSentences`, `applyNaturalLineBreaks`
- `insertion.dfy` (module `Insertion`): `prepareFormattedSuggestion`
- `guidance.dfy` (module `Guidance`): `normalizeGuidancePreset`, `guidanceState` as a class
- `requests.dfy` (module `Requests`): the request-id counters and in-progress flags as a class
- `nodepath.dfy` (module `NodePaths`): `buildNodePath`, `traversePath`, range (de)serialisation

How the model is built:

- Pure code is written as functions with lemmas about them.
- Code that loops or updates state is written as methods, each proved
  against a specification function. This covers the `splitSentences` loop,
  the nested migration loops, the `buildNodePath` and `traversePath` loops,
  the category list, the preset state and the request counters.
- The outside world enters as parameters:
  - `JSON.parse` is a function parameter returning `Option<Json>`;
  - the network is a function from the chat request to its outcome;
  - random ids are given ids;
  - the prompt and confirm answers and the storage contents are arguments;
  - the text before and after the caret is a pair of strings.

Behaviour worth knowing when reading the model:
- The context cap is 5000 characters (`src/background.js:55`).
- The line fallback of `parseSuggestions` removes one marker character and
  the whitespace after it. `"1. First."` becomes `". First."`, as lemma
  `Background.NumberedLineKeepsDot` states.
- The worker reads only `context` and `language` from the message payload.
- The popup's count clamp sends 0 to 1, while the worker's sends it to 3
  (`Popup.ClampCountAgreesWithWorker`).

## Model

| member | source | states |
|---|---|---|
| Background.ResolveCount | src/background.js:52 | the count is always in [1,5]; an absent, non-numeric or zero value gives 3, values in range are kept, larger ones give 5, negative ones 1 |
| Background.TruncateContext | src/background.js:54-55 | empty exactly when the context is blank; the trimmed context is kept when it has at most 5000 characters, otherwise the result is its first 5000 characters followed by "...", exactly 5003 long |
| Background.SystemPrompt | src/background.js:58-63 | the system prompt opens with the language sentence and contains the JSON-only sentence and the sentence asking for `count` options |
| Background.UserPrompt | src/background.js:65-67 | with context, the count follows the fixed opening and the prompt ends with a blank line and the context; without, the count follows the no-context opening and the prompt ends with the acknowledgment sentence |
| Background.BuildChatRequest | src/background.js:44-86 | a missing API key, and only that, is the "not configured" error, raised before any request exists; otherwise bearer authorisation, endpoint and model defaulted when empty, both prompts, temperature 0.4 and 512 tokens |
| Background.InterpretResponse | src/background.js:88-101 | a network failure is passed on; a non-OK status gives the status error with the derived message; an OK reply gives the parsed suggestions, or the "no valid suggestions" error when there are none; a success is never empty and holds only trimmed, non-empty entries |
| Background.GenerateSuggestions | src/background.js:43-102 | with no API key the result is the missing-key error and the network function is never applied; otherwise it is the interpretation of the response to the built request |
| Background.HandleMessage | src/background.js:24-41 | only the generate message type gets a reply; it is the suggestions reply or the error reply of `GenerateSuggestions` on the payload's context ("" by default) and language ("en" by default); a suggestions reply is non-empty and echoes that language; a missing key gives the error reply with its message |
| Background.DeriveErrorMessage | src/background.js:112-128 | "" for an empty body; the nested `error.message`, then the top-level `message`, when the body parses and has one; otherwise exactly the first 200 characters of the body (all of it when shorter) |
| Background.DeriveErrorMessagePlainText | src/background.js:124-127 | a body that is not JSON gives exactly its first 200 characters |
| Background.DeriveErrorMessagePrefersNested | src/background.js:118-123 | when both messages are present the nested `error.message` wins |
| Background.TrimmedEntries | src/background.js:139-140 | one trimmed text per array entry, strings as they are and other values by `String(entry \|\| '')` |
| Background.CleanEntries | src/background.js:138-141 | the trimmed entries in order, without the empty ones, with one result for every non-empty entry (the count together with the order leaves no other choice, by Text.FilterNonEmptyUnique) |
| Background.CleanEntriesOfStrings | src/background.js:138-141 | an array of non-empty trimmed strings comes back unchanged |
| Background.SplitNewlineRuns | src/background.js:152 | `split(/\n+/)`: at least one piece, none containing a newline (where it cuts, on every text, is fixed by SplitNewlineRunsSingle) |
| Background.SplitNewlineRunsSingle | src/background.js:152 | on every text, the pieces joined by single newlines give the text with each run of newlines reduced to one newline; since no piece holds a newline, this fixes every piece |
| Background.SplitNewlineRunsContent | src/background.js:152 | the pieces concatenated are the text without its newlines |
| Background.SplitNewlineRunsCount | src/background.js:152 | there are at most one more pieces than newlines |
| Background.SplitNewlineRunsJoin | src/background.js:152 | on text without two newlines in a row, the pieces joined by single newlines give the text back |
| Background.SplitTwoLines | src/background.js:152 | two newline-free lines joined by one newline split back into those two lines |
| Background.StripListMarker | src/background.js:153 | a line not starting with a marker character is unchanged; otherwise exactly one marker character and the whitespace after it are removed, and nothing else |
| Background.CleanLine | src/background.js:153 | the cleaned line is trimmed and gains no newline |
| Background.CleanLines | src/background.js:153 | each line cleaned in place; all results trimmed, newline-free when the lines were |
| Background.CleanMarkedLine | src/background.js:153 | a marker character followed by trimmed text gives that text |
| Background.NumberedLineKeepsDot | src/background.js:153 | a digit followed by a dot loses only the digit |
| Background.FallbackLines | src/background.js:151-154 | the cleaned lines in order without the empty ones, one result for every non-empty cleaned line, each trimmed and newline-free |
| Background.ParseSuggestions | src/background.js:130-155 | an absent or empty reply gives []; no entry is ever empty or padded with whitespace (what an array reply gives is fixed by ParseSuggestionsArrayOrder, what any other reply gives by ParseSuggestionsFallback) |
| Background.ParseSuggestionsRoundTrip | src/background.js:135-142 | a JSON array of non-empty trimmed strings gives back exactly those strings |
| Background.ParseSuggestionsObjectRoundTrip | src/background.js:144-149 | an object whose `suggestions` array holds such strings gives back exactly those strings |
| Background.ParseSuggestionsArrayOrder | src/background.js:137-142 | a JSON array reply gives exactly CleanEntries of the array: its trimmed entries in order, exactly the empty ones dropped |
| Background.ParseSuggestionsFallback | src/background.js:151-154 | a reply that is neither a JSON array nor an object with a `suggestions` array gives exactly FallbackLines of the trimmed reply: its lines split on newline runs, markers stripped, trimmed, empty ones dropped, in order |
| Background.ParseSuggestionsFallbackBound | src/background.js:151-154 | a reply that is neither a JSON array nor an object with a `suggestions` array gives at most one suggestion per newline plus one, none containing a newline |
| Popup.ClampCount | src/popup.js:98-104 | the count is always in [1,5]; a non-number gives 3, values in range are kept, smaller ones give 1 and larger ones 5 |
| Popup.ClampCountAgreesWithWorker | src/popup.js:98-104 | the popup and the worker resolve every value alike except 0, which the popup sends to 1 and the worker to 3 |
| Popup.NormalizeCategory | src/popup.js:298-313 | a category exists exactly when the stored name is a string with content; the name is trimmed, the content loses trailing whitespace (or is ""), the flag is kept only when it is a boolean, and the id is the stored one when truthy, else the fresh one |
| Popup.NormalizeCategories | src/popup.js:281-282 | the normalisations that succeed, in stored order, one category for each (a subsequence of the mapped entries as long as the number of successes); every name trimmed and non-empty |
| Popup.NormalizeCategoriesKeepsValid | src/popup.js:281-283 | every stored entry that normalises is in the result |
| Popup.DefaultCategories | src/popup.js:365-376 | one named category, used for one-click replies |
| Popup.ExampleTexts | src/popup.js:336-351 | at most one text per example, none of them empty |
| Popup.ExampleTextParts | src/popup.js:337-349 | at most three trimmed non-empty parts; the example's text is empty exactly when it has none |
| Popup.SceneName | src/popup.js:320-324 | the scene's name is trimmed |
| Popup.SceneNamePrecedence | src/popup.js:320-324 | a scene name with content wins; otherwise the audience name trimmed, or "" |
| Popup.AllScenesNamesTrimmed | src/popup.js:318-324 | every scene entry read from the audiences has a trimmed name |
| Popup.IndexOfKey | src/popup.js:328 | the first category whose name (or id) is the value, or the length when there is none |
| Popup.MigrateMergesByName | src/popup.js:325-358 | a nameless scene changes nothing; a known name gets the scene's examples appended after a separator, or as its whole content when that was empty, with the category's id, name and flag and all other categories kept; a new name is appended as a new category with the joined examples |
| Popup.MigrateCoversScenes | src/popup.js:318-360 | every named scene ends up as a category of that name |
| Popup.ApplySceneKeepsNames | src/popup.js:325-358 | one scene step keeps names distinct, trimmed and non-empty, and never sets the one-click flag |
| Popup.MigrateNames | src/popup.js:315-363 | the migration yields distinct good names, no one-click flag, at most one category per scene |
| Popup.MergeScene | src/popup.js:320-358 | the body of the inner `forEach` does one migration step |
| Popup.MergeAudience | src/popup.js:319-359 | the inner loop over an audience's scenes folds them into the categories in order |
| Popup.ConvertLegacyStyleExamples | src/popup.js:315-363 | the nested loops give the migration of all scenes in order, with distinct good names |
| Popup.NormalizeStyleExamples | src/popup.js:278-296 | never empty and always well named; a stored category list is cut to its first 12 valid entries; the default is used for a non-object, for a category array that yields nothing, and for an object holding neither array; a legacy `audiences` array gives its migration, or the default when that is empty |
| Popup.NormalizeStyleExamplesKeepsOrder | src/popup.js:280-287 | a non-empty normalised list gives exactly its first 12 entries, or all of them when there are at most 12 |
| Popup.StyleEditor.constructor | src/popup.js:20-22 | the editor starts with the default categories |
| Popup.StyleEditor.Load | src/popup.js:41 | loading replaces the categories by the normalised stored value |
| Popup.StyleEditor.FindCategory | src/popup.js:225-227 | found exactly when some category has the id, and then it is the first such category |
| Popup.StyleEditor.AddCategory | src/popup.js:69-87 | below the cap of 12 and with a name that has content, a category with the trimmed name, empty content and no flag is appended; otherwise nothing changes; the cap and good names are kept |
| Popup.StyleEditor.RenameCategory | src/popup.js:197-209 | a known id and a name with content rename that category only, to the trimmed name; otherwise nothing changes |
| Popup.StyleEditor.RemoveCategory | src/popup.js:211-223 | a known id and a confirmation remove exactly that category, keeping the others in order; otherwise nothing changes |
| Popup.RemoveKeepsOthers | src/popup.js:220 | the splice keeps every other category in order and loses exactly the removed one |
| Popup.StyleEditor.EditContent | src/popup.js:172-175 | typing replaces that category's content and nothing else |
| Popup.StyleEditor.SetLightning | src/popup.js:183-186 | the checkbox sets that category's flag and nothing else |
| Text.Trim | src/background.js:135 | `trim()`: the result has no whitespace at either end and is the input with only whitespace removed around it |
| Text.TrimEnd | src/popup.js:303 | `replace(/\s+$/u, '')`: a prefix of the input with only whitespace removed, ending in non-whitespace |
| Text.TrimEmptyIffBlank | src/content-script.js:88-89 | trimming gives "" exactly when the text has no non-whitespace character |
| Text.TrimKeepsContent | src/content-script.js:629 | trimming keeps every non-whitespace character in order |
| Text.SplitOnChar | src/content-script.js:826 | `split('\n')`: at least one piece, none holding the separator |
| Text.JoinSplitOnChar | src/content-script.js:826 | joining the pieces with the separator gives the text back |
| Text.FilterNonEmpty | src/background.js:141 | `filter(Boolean)`: a subsequence of the input with no empty entry and exactly as many entries as the input has non-empty ones |
| Text.FilterNonEmptyUnique | src/background.js:141 | any order-keeping selection of all the non-empty entries equals the filter's result |
| Text.KeepSome | src/content-script.js:1500-1502 | `filter(Boolean)` after the map: the present values as a subsequence of the entries, one for every present entry |
| Text.KeepSomeUnique | src/content-script.js:1500-1502 | any order-keeping selection of all the present values equals KeepSome's result |
| Text.NatToString | src/background.js:61 | decimal digits, at least one |
| Formatting.EscapeHtmlChar | src/content-script.js:837-844 | the five special characters become entities, every other character stays |
| Formatting.EscapeHtml | src/content-script.js:836-845 | no `<`, `>`, `"` or `'` is left; text without special characters is unchanged |
| Formatting.EscapeHtmlRoundTrip | src/content-script.js:836-845 | decoding the entities gives the original text back |
| Formatting.SplitParagraphs | src/content-script.js:825 | `split(/\n{2,}/)`: at least one paragraph |
| Formatting.SplitParagraphsNoBlankLine | src/content-script.js:825 | no paragraph holds two consecutive newlines |
| Formatting.SplitParagraphsRoundTrip | src/content-script.js:825 | text without three consecutive newlines is the paragraphs joined by a blank line |
| Formatting.NormalizedParagraphsRoundTrip | src/content-script.js:825 | normalised text always splits into paragraphs that a blank line joins back into it |
| Formatting.EscapeLines | src/content-script.js:829 | each line escaped, one for one |
| Formatting.ParagraphsHtml | src/content-script.js:828-833 | a non-empty paragraph list produces output starting with `<div>` |
| Formatting.ConvertTextToHtml | src/content-script.js:820-834 | "" exactly for ""; otherwise one `<div>` per paragraph (its content is fixed by ConvertTextToHtmlRoundTrip) |
| Formatting.ConvertTextToHtmlRoundTrip | src/content-script.js:820-834 | reading the HTML back (`<br>` as a newline, `</div><div>` as a blank line, entities decoded) gives the paragraphs joined by a blank line |
| Formatting.ConvertTextToHtmlRestores | src/content-script.js:820-834 | text without three newlines in a row, such as normalised text, is read back exactly |
| Formatting.EscapeJoin | src/content-script.js:829-830 | escaping each line and joining with plain text equals escaping the joined text |
| Formatting.ConvertSingleParagraph | src/content-script.js:824-833 | text without a blank line is one `<div>` of its escaped lines joined by `<br>` |
| Formatting.ParagraphLinesRoundTrip | src/content-script.js:826 | a paragraph's lines hold no newline and join back into the paragraph |
| Whitespace.UnifyLineEnds | src/content-script.js:710 | no carriage return is left and no character other than a newline is introduced |
| Whitespace.ReplaceWideSpaces | src/content-script.js:711 | same length; no no-break or zero-width space is left; only spaces are introduced |
| Whitespace.CollapseBlanks | src/content-script.js:712 | no tab is left; only spaces are introduced; a leading blank becomes one space |
| Whitespace.CollapseNoBlankRun | src/content-script.js:712 | no two blanks are neighbours afterwards |
| Whitespace.TightenLineBreaks | src/content-script.js:713 | no character is introduced; a line break reached over spaces comes first |
| Whitespace.TightenNoSpaceBesideNewline | src/content-script.js:713 | no space stands next to a line break afterwards |
| Whitespace.TightenKeepsNoBlankRun | src/content-script.js:712-713 | the step keeps neighbouring blanks apart |
| Whitespace.CapLineBreaks | src/content-script.js:714 | never longer, no character introduced, first two characters kept |
| Whitespace.CapNoTripleNewline | src/content-script.js:714 | no three consecutive line breaks are left |
| Whitespace.CapKeepsSpacing | src/content-script.js:714 | the step keeps the blank and line-break spacing already reached |
| Whitespace.Squeeze | src/content-script.js:709-714 | after the five replacements: no CR, tab, no-break or zero-width space; no blank run; no space beside a line break; no triple line break |
| Whitespace.TrimKeepsSpacing | src/content-script.js:715 | the final trim keeps all three spacing properties |
| Whitespace.Normalize | src/content-script.js:708-716 | all of the above, and trimmed (that it keeps paragraphs and word spaces is stated by NormalizeGap, NormalizeFixesNormal and NormalizeKeepsSeparator) |
| Whitespace.UnifyKeepsContent | src/content-script.js:710 | non-whitespace characters are kept in order |
| Whitespace.WideKeepsContent | src/content-script.js:711 | non-whitespace characters other than zero-width spaces are kept in order |
| Whitespace.CollapseKeepsContent | src/content-script.js:712 | non-whitespace characters are kept in order |
| Whitespace.TightenKeepsContent | src/content-script.js:713 | non-whitespace characters are kept in order |
| Whitespace.CapKeepsContent | src/content-script.js:714 | non-whitespace characters are kept in order |
| Whitespace.NormalizeKeepsContent | src/content-script.js:708-716 | normalising keeps exactly the visible characters: the non-whitespace ones other than zero-width spaces, in order |
| Whitespace.TrimKeepsVisible | src/content-script.js:629 | trimming keeps those visible characters too |
| Whitespace.NormalizeFixesNormal | src/content-script.js:708-716 | text that is already normal comes back unchanged, so no line break or single space between words is removed from it |
| Whitespace.NormalizeIdempotent | src/content-script.js:708-716 | normalising twice is normalising once |
| Whitespace.JoinKeepsNormal | src/content-script.js:708-716 | normal pieces joined by a blank line, a line break or a space are normal |
| Whitespace.NormalizeKeepsSeparator | src/content-script.js:708-716 | a blank line, line break or single space between two normalised paragraphs survives normalisation |
| Whitespace.NormalizeGap | src/content-script.js:708-716 | on text that is not normal: any run of spaces, tabs and line breaks between two normalised paragraphs becomes one space when it holds no line break, one line break when it holds one, and a blank line when it holds two or more |
| Sentences.Segments | src/content-script.js:678-699 | the buffers the loop pushes, always at least one |
| Sentences.TrimAll | src/content-script.js:685 | each piece trimmed, one for one |
| Sentences.Sentences | src/content-script.js:675-706 | every sentence is non-empty and trimmed |
| Sentences.CutAfter | src/content-script.js:682-698 | the loop body's tests cut exactly after a full-width stop not followed by punctuation or whitespace, after `.`, `!` or `?` at the end or before a capital or whitespace, and after every line break |
| Sentences.PushTrimmed | src/content-script.js:685 | pushing a trimmed buffer extends the trimmed segments by one |
| Sentences.FlushTrimmed | src/content-script.js:701-705 | the final flush and filter give the non-empty trimmed segments |
| Sentences.SplitSentences | src/content-script.js:675-706 | the loop returns exactly the sentences of the text |
| Sentences.SegmentsAreTheCuts | src/content-script.js:678-699 | the segments are cut exactly at the break points |
| Sentences.CutAtBreaksUnique | src/content-script.js:678-699 | there is only one such segmentation |
| Sentences.SentencesKeepContent | src/content-script.js:675-706 | the sentences together hold every non-whitespace character of the text, in order |
| Sentences.SentencesEmptyIffBlank | src/content-script.js:701-705 | there are no sentences exactly when the text is blank |
| Sentences.SentencesOneLine | src/content-script.js:695-698 | no sentence contains a line break |
| Sentences.SplitJoinLines | src/content-script.js:672 | newline-free pieces joined by line breaks split back into the same pieces |
| Sentences.NaturalLineBreaks | src/content-script.js:662-673 | blank text is returned as it is; otherwise the lines of the result are exactly the sentences; non-whitespace content is kept |
| Sentences.ApplyNaturalLineBreaks | src/content-script.js:662-673 | the method computes the natural line breaks of its text |
| Insertion.LeadingSeparator | src/content-script.js:633-642 | only line breaks, at most two, none when the text before is blank |
| Insertion.LeadingSeparatorBlankLine | src/content-script.js:633-642 | text before with content is followed by a blank line once the separator is added |
| Insertion.LeadingSeparatorShortest | src/content-script.js:633-642 | no shorter run of line breaks achieves that |
| Insertion.TrailingSeparator | src/content-script.js:648-657 | only line breaks, at most two, none when the text after is blank |
| Insertion.TrailingSeparatorBlankLine | src/content-script.js:648-657 | the separator followed by text after with content starts with a blank line |
| Insertion.TrailingSeparatorShortest | src/content-script.js:648-657 | no shorter run of line breaks achieves that |
| Insertion.FormattedSuggestion | src/content-script.js:633-657 | the content is the leading separator, then the body unchanged, then at most one added line break, then the trailing separator |
| Insertion.FormattedEndsWithLineBreak | src/content-script.js:644-657 | the content always ends with a line break |
| Insertion.FormattedKeepsBody | src/content-script.js:633-657 | the separators add only whitespace |
| Insertion.SuggestionBodyKeepsText | src/content-script.js:629-631 | trimming, normalising and line-breaking keep every visible character of the suggestion in order |
| Insertion.FormattedKeepsText | src/content-script.js:629-657 | the inserted content holds exactly the suggestion's visible characters, in order |
| Insertion.PrepareBody | src/content-script.js:629-631 | the body is the trimmed, normalised, line-broken suggestion |
| Insertion.Arrange | src/content-script.js:633-657 | the branches build the formatted suggestion |
| Insertion.PrepareFormattedSuggestion | src/content-script.js:624-660 | the content is the formatted suggestion of the prepared body |
| Guidance.TrimmedText | src/content-script.js:88-89 | present exactly for a string with content, and then its trimmed, non-empty form |
| Guidance.NormalizeGuidancePreset | src/content-script.js:84-100 | a preset exists exactly when id and name are strings with content; both are trimmed, the content is trimmed or "", the flag is the truthiness of `useInLightning` |
| Guidance.NormalizePresets | src/content-script.js:1497-1502 | the presets that normalise, in stored order, one for each such entry; every one with a trimmed non-empty id and name |
| Guidance.NormalizePresetsMembers | src/content-script.js:1500-1502 | a preset is loaded exactly when some stored entry normalises to it |
| Guidance.StoredSelection | src/content-script.js:1510-1513 | the selected ids are exactly those of presets whose flag is set |
| Guidance.SyncFlags | src/content-script.js:1545-1547 | rendering sets every flag to whether the preset's id is selected and changes no id, name or content |
| Guidance.SyncFlagsOfSynced | src/content-script.js:1545-1547 | rendering presets that already agree with the selection changes nothing |
| Guidance.LoadedPresetsSynced | src/content-script.js:1508-1515 | presets with distinct ids agree with the selection read from them, so the render after loading changes no flag |
| Guidance.WithoutId | src/content-script.js:1581 | the presets without the deleted id, in order, every other preset kept as often as it occurs |
| Guidance.WithoutIdKeepsSynced | src/content-script.js:1581-1582 | deleting a preset and its id keeps the other flags in agreement with the selection |
| Guidance.ToggleKeepsSynced | src/content-script.js:1554-1561 | a checkbox change keeps all flags in agreement with the selection when ids are distinct |
| Guidance.AddedPresetSelected | src/content-script.js:114-117 | an added preset is shown selected after the render |
| Guidance.GuidanceState.constructor | src/content-script.js:48-51 | no presets and nothing selected |
| Guidance.GuidanceState.Render | src/content-script.js:1545-1547 | the presets are re-flagged from the selection, which is unchanged |
| Guidance.GuidanceState.Load | src/content-script.js:1483-1516 | without storage nothing changes; otherwise the normalised entries (none when the read fails), the selection read from their flags, then rendered |
| Guidance.GuidanceState.Add | src/content-script.js:102-123 | a missing or blank name changes nothing; otherwise a preset with the trimmed name, no content and a new id is appended and its id selected, rendered when the dialog is open |
| Guidance.GuidanceState.Toggle | src/content-script.js:1554-1561 | the preset's id joins or leaves the selection and its flag follows; nothing else changes |
| Guidance.GuidanceState.Delete | src/content-script.js:1576-1585 | without confirmation nothing changes; otherwise every preset with the id and the id itself go, then the rest is rendered |
| Guidance.GuidanceState.EditContent | src/content-script.js:1596-1599 | typing replaces that preset's content and nothing else |
| Guidance.GuidanceState.SelectChecked | src/content-script.js:1312-1313 | the selection becomes the ticked ids; the presets are untouched |
| Requests.Claim | src/content-script.js:1317 | the new id is current and every id handed out before is not |
| Requests.MarkBusy | src/content-script.js:1321 | the kind is marked running; the id is kept |
| Requests.Stop | src/content-script.js:60 | the kind is marked idle; the id is kept |
| Requests.Cancel | src/content-script.js:326-334 | closing the proofread dialog marks it idle and makes every earlier id stale |
| Requests.Release | src/content-script.js:1413-1416 | the `finally` keeps the id; unguarded, or guarded and current, it clears the flag; guarded and stale, it changes nothing |
| Requests.RunActive | src/content-script.js:1317 | ids never decrease, and stay the same exactly when no new request or cancel happens |
| Requests.ResponseAppliedIffNotSuperseded | src/content-script.js:1327 | a response is applied exactly when no newer request and no cancel came after its request |
| Requests.HideDiscardsProofread | src/content-script.js:331-334 | a proofread running when its dialog is closed never has its result applied |
| Requests.StaleGenerateClearsBusy | src/content-script.js:1317-1336 | two generation clicks that both pass the busy check before either marks itself busy, then the stale first response, leave the second request current but with its in-progress flag already cleared |
| Requests.RequestState.constructor | src/content-script.js:33-40 | all ids 0, nothing running, no proofread session |
| Requests.RequestState.GenerateClicked | src/content-script.js:1303-1317 | refused while a generation runs or without the dialog; otherwise a new current id; nothing else changes |
| Requests.RequestState.GenerateSent | src/content-script.js:1321 | generation is marked running |
| Requests.RequestState.GenerateSettled | src/content-script.js:1324-1336 | the response is shown exactly when its id is current; the flag is cleared either way |
| Requests.RequestState.HideModal | src/content-script.js:53-63 | closing the reply dialog clears the flag and keeps the id |
| Requests.RequestState.StartProofread | src/content-script.js:1163-1184 | refused without a session, while one runs, or with no text; otherwise the result is cleared, the kind marked running, and a new current id taken |
| Requests.RequestState.OpenProofread | src/content-script.js:1091-1127 | without text or a compose window nothing changes; otherwise the session is replaced by a fresh one, and a proofread with a new current id starts only when none is running (a running one keeps its id, so its result lands in the new session) |
| Requests.RequestState.ProofreadSettled | src/content-script.js:1186-1210 | a stale response does nothing; a failed or blank one is an error; otherwise the trimmed result is stored while the session is open; only the current request clears the flag |
| Requests.RequestState.HideProofread | src/content-script.js:326-334 | the session ends and every proofread in flight becomes stale |
| Requests.RequestState.ApplyProofread | src/content-script.js:1213-1270 | without a result nothing changes; with one the dialog is closed and any running proofread made stale, and the result is inserted exactly when the compose window and its range are still there |
| Requests.RequestState.TriggerLightning | src/content-script.js:1340-1380 | refused while one runs or with no compose window; without a placeholder the new id is spent and the flag cleared; otherwise a new current id |
| Requests.RequestState.LightningSettled | src/content-script.js:1389-1417 | the trimmed suggestion is inserted exactly when the id is current and the suggestion has content; only the current request clears the flag |
| NodePaths.IndexOf | src/content-script.js:551 | the first index holding the node, -1 exactly when it is absent |
| NodePaths.IsNodeWithin | src/content-script.js:504-512 | true exactly when the node is the root or lies below it |
| NodePaths.Child | src/content-script.js:564-567 | a child exactly when the index is in range |
| NodePaths.BuildNodePath | src/content-script.js:543-559 | the loop builds the root-to-node index path, or null when the node is null or not below the root |
| NodePaths.TraversePath | src/content-script.js:561-570 | the loop follows the path, or gives null at the first index out of range |
| NodePaths.PathIffWithin | src/content-script.js:543-559 | a path exists exactly for nodes within the root |
| NodePaths.PathRoundTrip | src/content-script.js:543-570 | following the recorded path from the root leads back to the node |
| NodePaths.NodeLength | src/content-script.js:572-580 | a text node's length is its text length; any other node's is its number of children |
| NodePaths.SerializeRange | src/content-script.js:514-526 | stored exactly when both ends lie within the root, as their paths and unchanged offsets |
| NodePaths.DeserializeRange | src/content-script.js:528-541 | restored exactly when something is stored and both paths lead somewhere; each offset is kept when it fits its node and clamped to the node's length otherwise |
| NodePaths.RangeRoundTrip | src/content-script.js:514-541 | a range within the root is found again from its stored paths |

## Left out

- DOM rendering, `execCommand`, `Selection`/`Range` objects, event wiring and `MutationObserver`:
  - the DOM is an abstract tree of numbered nodes;
  - a range is two (node, offset) pairs;
  - the text around the caret is two strings.
- `fetch`, `chrome.storage`, `chrome.runtime` messaging and the promises around them. Their results are parameters.
- `JSON.parse` and `JSON.stringify` internals. Parsing is an abstract function; `Json.SerializeStrings` is used only to state round trips.
- The debounce and persist timers in both scripts: timing only, so the persistence they trigger is not modelled.
- `crypto.randomUUID` and the preset id generator: ids are given as inputs.
- Floating point:
  - Background.ResolveCount and Popup.ClampCount: `Math.round` and `Number()` of arbitrary strings are not modelled; a value is a whole number or not a number.
  - The temperature is a Dafny `real`.
- Unicode `\s` is a fixed set of whitespace characters. Lengths count characters, not UTF-16 units.
- Background.ParseSuggestions: a reply whose `content` is a non-string value is not modelled. The model takes a string or nothing.
- Background.HandleMessage: the `userPrompt` and `instructionPresetIds` fields of the payload are ignored, as the worker ignores them.
- The proofread and one-click reply workers are not part of this model. Their message types have no handler in `src/background.js`.
- Preset folding into prompts is not part of this model.
- Requests.RequestState: the UI text each outcome shows is not modelled, and neither is the preset flush awaited before sending. Generation is split into the click and the send steps, so the await between them can interleave.
- Guidance.GuidanceState.Delete: the render after the delete is modelled as happening at once, not after the asynchronous persist.
- Guidance.GuidanceState.Render: only the preset flags are modelled; an absent preset container is not.
- Guidance.GuidanceState.Toggle and EditContent: a preset is addressed by its position, because the handlers close over the preset object itself.
- Popup.StyleEditor: storage writes and status messages are left out.
- Popup.ConvertLegacyStyleExamples: the TypeErrors that `convertLegacyStyleExamples` throws on malformed legacy data are not modelled. These are a null audience, scene or example; a truthy `scenes` that is not an array; and a truthy greeting, body or closing that is not a string. The legacy datatypes cannot represent these inputs.
- `normalizeWhitespacePreservingParagraphs`: each global regular-expression replacement is written as a left-to-right pass over the characters, and each pass has the same result as its replacement.
- NodePaths: node identity is a number; the `depth` map gives walking up the parents a termination measure that the DOM guarantees by being finite and acyclic.

=== FILE: background.dfy ===
/**
 * The background worker's suggestion pipeline (src/background.js): it resolves
 * the stored settings, assembles the two prompts, sends one chat-completion
 * request and turns the reply into a list of suggestions, or the HTTP error
 * body into a message.  Storage and the network are parameters.
 */
module Background {
  import opened Wrappers
  import opened Text
  import opened Json

  const DefaultEndpoint: string := "https://api.openai.com/v1/chat/completions"
  const DefaultModel: string := "gpt-3.5-turbo"
  const DefaultSuggestionCount: nat := 3
  const MaxContextLength: nat := 5000
  const ContextEllipsis: string := "..."
  const MaxErrorSnippet: nat := 200
  const Temperature: real := 0.4
  const MaxTokens: nat := 512
  const GenerateMessageType: string := "SMART_REPLY_GENERATE"

  // ---------------------------------------------------------------------------
  // Settings and prompts
  // ---------------------------------------------------------------------------

  /**
   * `Math.max(1, Math.min(Number(suggestionCount) || 3, 5))`.  The stored
   * value is given as the integer `Number()` makes of it; None stands for NaN.
   */
  function ResolveCount(stored: Option<int>): (count: nat)
    ensures 1 <= count <= 5
    ensures stored == None || stored == Some(0) ==> count == DefaultSuggestionCount
    ensures stored.Some? && 1 <= stored.value <= 5 ==> count == stored.value
    ensures stored.Some? && stored.value > 5 ==> count == 5
    ensures stored.Some? && stored.value < 0 ==> count == 1
  {
    var n := if stored == None || stored == Some(0) then DefaultSuggestionCount as int else stored.value;
    if n < 1 then 1 else if n > 5 then 5 else n
  }

  /** The trimmed context, cut to its first 5000 characters plus "..." when longer. */
  function TruncateContext(rawContext: string): (r: string)
    ensures |r| <= MaxContextLength + |ContextEllipsis|
    ensures r == "" <==> !HasContent(rawContext)
    ensures |Trim(rawContext)| <= MaxContextLength ==> r == Trim(rawContext)
    ensures |Trim(rawContext)| > MaxContextLength ==>
              && |r| == MaxContextLength + |ContextEllipsis|
              && StartsWith(Trim(rawContext), r[..MaxContextLength])
              && EndsWith(r, ContextEllipsis)
  {
    var context := Trim(rawContext);
    TrimEmptyIffBlank(rawContext);
    if |context| > MaxContextLength then context[..MaxContextLength] + ContextEllipsis else context
  }

  function LanguageLabel(language: string): string {
    if language == "ja" then "Japanese" else "English"
  }

  // The fixed pieces of the two prompts.
  const SystemOpening: string := "You are an assistant that drafts professional "
  const SystemOpeningEnd: string := " email replies."
  const JsonOnlySentence: string := "Always return a valid JSON array of strings."
  const NoOtherText: string := " Do not include any other text."
  const CountOpening: string := "Provide "
  const CountClosing: string := " distinct reply options."
  const ReplyShape: string := " Each reply must be 1-3 sentences and ready to send."
  const ToneSentence: string := "Avoid placeholders like [NAME]; keep a polite, helpful tone."
  const ContextOpening: string := "The latest email thread is below. Craft "
  const ContextClosing: string := " reply options that address it."
  const NoContextOpening: string := "There is no email context. Provide "
  const NoContextMiddle: string := " polite "
  const NoContextClosing: string := " acknowledgment replies."
  const BlankLine: string := "\n\n"

  /** `t` occurs in `a + t + b` right after `a`. */
  lemma OccursBetween(a: string, t: string, b: string)
    ensures OccursAt(a + t + b, t, |a|)
  {
    assert (a + t + b)[|a|..|a| + |t|] == t;
  }

  /** The second and third sentences occur in the four joined by spaces. */
  lemma SentencesOccur(s0: string, t1: string, b1: string, t2: string, b2: string, s3: string)
    ensures var r := s0 + " " + (t1 + b1) + " " + (t2 + b2) + " " + s3;
            && StartsWith(r, s0)
            && OccursAt(r, t1, |s0| + 1) && OccursAt(r, t2, |s0| + 1 + |t1| + |b1| + 1)
  {
    var r := s0 + " " + (t1 + b1) + " " + (t2 + b2) + " " + s3;
    assert r == (s0 + " ") + t1 + (b1 + " " + (t2 + b2) + " " + s3);
    OccursBetween(s0 + " ", t1, b1 + " " + (t2 + b2) + " " + s3);
    assert r == (s0 + " " + (t1 + b1) + " ") + t2 + (b2 + " " + s3);
    OccursBetween(s0 + " " + (t1 + b1) + " ", t2, b2 + " " + s3);
    assert r[..|s0|] == s0;
  }

  /** A prompt of the shape `a + t + (b + tail)` holds `t` after `a` and ends with `tail`. */
  lemma PromptShape(a: string, t: string, b: string, tail: string)
    ensures OccursAt(a + t + (b + tail), t, |a|)
    ensures EndsWith(a + t + (b + tail), tail)
  {
    OccursBetween(a, t, b + tail);
    var r := a + t + (b + tail);
    assert r[|r| - |tail|..] == tail;
  }

  /** "Provide N distinct reply options." */
  function CountSentence(count: nat): string {
    CountOpening + NatToString(count) + CountClosing
  }

  /** The system prompt: four sentences joined by single spaces; it asks for JSON only and for `count` replies. */
  function SystemPrompt(languageLabel: string, count: nat): (r: string)
    ensures StartsWith(r, SystemOpening + languageLabel + SystemOpeningEnd)
    ensures Contains(r, JsonOnlySentence)
    ensures Contains(r, CountSentence(count))
  {
    var s0 := SystemOpening + languageLabel + SystemOpeningEnd;
    SentencesOccur(s0, JsonOnlySentence, NoOtherText, CountSentence(count), ReplyShape, ToneSentence);
    s0 + " " + (JsonOnlySentence + NoOtherText) + " " + (CountSentence(count) + ReplyShape) + " " + ToneSentence
  }

  /**
   * The user prompt: with context it states the count right after its opening
   * and ends with a blank line and the context; without, it asks for
   * acknowledgments.
   */
  function UserPrompt(languageLabel: string, count: nat, truncatedContext: string): (r: string)
    ensures truncatedContext != "" ==>
              && OccursAt(r, NatToString(count), |ContextOpening|)
              && EndsWith(r, BlankLine + truncatedContext)
    ensures truncatedContext == "" ==>
              && OccursAt(r, NatToString(count), |NoContextOpening|)
              && EndsWith(r, NoContextClosing)
  {
    var opening := if truncatedContext != "" then ContextOpening else NoContextOpening;
    var middle := if truncatedContext != "" then " " + languageLabel + ContextClosing else NoContextMiddle + languageLabel;
    var tail := if truncatedContext != "" then BlankLine + truncatedContext else NoContextClosing;
    PromptShape(opening, NatToString(count), middle, tail);
    opening + NatToString(count) + (middle + tail)
  }

  // ---------------------------------------------------------------------------
  // The request and its outcome
  // ---------------------------------------------------------------------------

  /** The stored settings after `{ ...STORAGE_DEFAULTS, ...result }`. */
  datatype Settings = Settings(apiKey: string, apiModel: string, apiEndpoint: string, suggestionCount: Option<int>)

  datatype ChatRequest = ChatRequest(
    endpoint: string, authorization: string, model: string,
    systemPrompt: string, userPrompt: string, temperature: real, maxTokens: nat)

  /**
   * What `fetch` yields: a network failure (the promise rejects), or a
   * response with its status, its body as text (`''` if unreadable) and
   * `choices[0].message.content` when the body parses and holds a string there.
   */
  datatype FetchOutcome =
    | NetworkError(message: string)
    | Response(ok: bool, status: nat, bodyText: string, content: Option<string>)

  datatype GenerateError =
    | MissingApiKey
    | TransportFailure(message: string)
    | RequestFailed(status: nat, detail: string)
    | NoValidSuggestions

  /** The message text the caller receives for each error. */
  function ErrorMessage(e: GenerateError): string {
    match e
    case MissingApiKey => "APIキーが設定されていません。拡張機能のポップアップから設定してください。"
    case TransportFailure(message) => message
    case RequestFailed(status, detail) => "AIリクエストに失敗しました (" + NatToString(status) + "). " + detail
    case NoValidSuggestions => "AIから有効な返信案を取得できませんでした。"
  }

  /** Everything `generateSuggestionsFromAi` does before `fetch`. */
  function BuildChatRequest(settings: Settings, rawContext: string, language: string): (r: Result<ChatRequest, GenerateError>)
    ensures settings.apiKey == "" <==> r == Failure(MissingApiKey)
    ensures r.Success? ==>
              && r.value.authorization == "Bearer " + settings.apiKey
              && r.value.endpoint == (if settings.apiEndpoint == "" then DefaultEndpoint else settings.apiEndpoint)
              && r.value.model == (if settings.apiModel == "" then DefaultModel else settings.apiModel)
              && r.value.systemPrompt == SystemPrompt(LanguageLabel(language), ResolveCount(settings.suggestionCount))
              && r.value.userPrompt == UserPrompt(LanguageLabel(language), ResolveCount(settings.suggestionCount), TruncateContext(rawContext))
              && r.value.temperature == Temperature && r.value.maxTokens == MaxTokens
  {
    if settings.apiKey == "" then Failure(MissingApiKey)
    else
      var count := ResolveCount(settings.suggestionCount);
      var lang := LanguageLabel(language);
      var context := TruncateContext(rawContext);
      Success(ChatRequest(
        if settings.apiEndpoint == "" then DefaultEndpoint else settings.apiEndpoint,
        "Bearer " + settings.apiKey,
        if settings.apiModel == "" then DefaultModel else settings.apiModel,
        SystemPrompt(lang, count),
        UserPrompt(lang, count, context),
        Temperature,
        MaxTokens))
  }

  /**
   * What `generateSuggestionsFromAi` makes of the outcome of `fetch`: a
   * rejected request keeps its message, a non-2xx status becomes a
   * `RequestFailed` with the derived detail, and a reply without one usable
   * suggestion becomes `NoValidSuggestions`.
   */
  function InterpretResponse(parse: string -> Option<Json>, outcome: FetchOutcome): (r: Result<seq<string>, GenerateError>)
    ensures outcome.NetworkError? ==> r == Failure(TransportFailure(outcome.message))
    ensures outcome.Response? && !outcome.ok ==>
              r == Failure(RequestFailed(outcome.status, DeriveErrorMessage(parse, outcome.bodyText)))
    ensures outcome.Response? && outcome.ok ==>
              && (r.Success? <==> ParseSuggestions(parse, outcome.content) != [])
              && (r.Success? ==> r.value == ParseSuggestions(parse, outcome.content))
              && (r.Failure? ==> r.error == NoValidSuggestions)
    ensures r.Success? ==> r.value != [] && forall x :: x in r.value ==> x != [] && IsTrimmed(x)
  {
    match outcome
    case NetworkError(message) => Failure(TransportFailure(message))
    case Response(ok, status, bodyText, content) =>
      if !ok then Failure(RequestFailed(status, DeriveErrorMessage(parse, bodyText)))
      else
        var suggestions := ParseSuggestions(parse, content);
        if suggestions == [] then Failure(NoValidSuggestions) else Success(suggestions)
  }

  /**
   * `generateSuggestionsFromAi`, with `fetch` as the parameter `send` and
   * `JSON.parse` as `parse`.  A missing key fails without consulting `send`;
   * otherwise exactly one request is sent and its outcome interpreted.
   */
  function GenerateSuggestions(
    settings: Settings, rawContext: string, language: string,
    parse: string -> Option<Json>, send: ChatRequest -> FetchOutcome): (r: Result<seq<string>, GenerateError>)
    ensures settings.apiKey == "" ==> r == Failure(MissingApiKey)
    ensures settings.apiKey != "" ==>
              r == InterpretResponse(parse, send(BuildChatRequest(settings, rawContext, language).value))
  {
    match BuildChatRequest(settings, rawContext, language)
    case Failure(e) => Failure(e)
    case Success(request) => InterpretResponse(parse, send(request))
  }

  /** `message.payload`: its `context` and `language`, None when undefined. */
  datatype Payload = Payload(context: Option<string>, language: Option<string>)

  datatype Reply =
    | SuggestionsReply(suggestions: seq<string>, language: string)
    | ErrorReply(error: string)

  /**
   * The `chrome.runtime.onMessage` listener: only `SMART_REPLY_GENERATE` is
   * answered (None: the listener returns false).  Only `context` and
   * `language` are read from the payload.
   */
  function HandleMessage(
    messageType: string, payload: Option<Payload>, settings: Settings,
    parse: string -> Option<Json>, send: ChatRequest -> FetchOutcome): (r: Option<Reply>)
    ensures messageType != GenerateMessageType <==> r == None
    ensures r.Some? && r.value.SuggestionsReply? ==>
              && r.value.suggestions != []
              && r.value.language == (if payload.Some? && payload.value.language.Some? then payload.value.language.value else "en")
    ensures messageType == GenerateMessageType && settings.apiKey == "" ==>
              r == Some(ErrorReply(ErrorMessage(MissingApiKey)))
    ensures messageType == GenerateMessageType ==>
              var context := if payload.Some? && payload.value.context.Some? then payload.value.context.value else "";
              var language := if payload.Some? && payload.value.language.Some? then payload.value.language.value else "en";
              r == Some(match GenerateSuggestions(settings, context, language, parse, send)
                        case Success(s) => SuggestionsReply(s, language)
                        case Failure(e) => ErrorReply(ErrorMessage(e)))
  {
    if messageType != GenerateMessageType then None
    else
      var p := if payload.Some? then payload.value else Payload(None, None);
      var context := if p.context.Some? then p.context.value else "";
      var language := if p.language.Some? then p.language.value else "en";
      match GenerateSuggestions(settings, context, language, parse, send)
      case Success(suggestions) => Some(SuggestionsReply(suggestions, language))
      case Failure(e) => Some(ErrorReply(ErrorMessage(e)))
  }

  // ---------------------------------------------------------------------------
  // Error bodies
  // ---------------------------------------------------------------------------

  /** `parsed?.error?.message`, else `parsed?.message`, when truthy. */
  function ProviderMessage(parsed: Json): Option<Json> {
    var error := Field(parsed, "error");
    if error.Some? && TruthyField(error.value, "message") then Field(error.value, "message")
    else if TruthyField(parsed, "message") then Field(parsed, "message")
    else None
  }

  /**
   * `deriveErrorMessage`: "" for an empty body, the provider's message when the
   * body is JSON carrying one, otherwise the first 200 characters of the body.
   */
  function DeriveErrorMessage(parse: string -> Option<Json>, text: string): (r: string)
    ensures text == "" ==> r == ""
    ensures text != "" && parse(text).Some? && ProviderMessage(parse(text).value).Some? ==>
              r == Display(ProviderMessage(parse(text).value).value)
    ensures text != "" && (parse(text).None? || ProviderMessage(parse(text).value).None?) ==>
              r == text[..if |text| <= MaxErrorSnippet then |text| else MaxErrorSnippet]
  {
    if text == "" then ""
    else
      var parsed := parse(text);
      if parsed.Some? && ProviderMessage(parsed.value).Some? then Display(ProviderMessage(parsed.value).value)
      else if |text| <= MaxErrorSnippet then text
      else text[..MaxErrorSnippet]
  }

  // ---------------------------------------------------------------------------
  // The model's reply
  // ---------------------------------------------------------------------------

  /** `typeof entry === 'string' ? entry : String(entry || '')` */
  function EntryText(v: Json): string {
    if v.JString? then v.s else if !Truthy(v) then "" else Display(v)
  }

  /** Each array entry as text, trimmed. */
  function TrimmedEntries(items: seq<Json>): (r: seq<string>)
    ensures |r| == |items|
    ensures forall k :: 0 <= k < |items| ==> r[k] == Trim(EntryText(items[k]))
    ensures forall x :: x in r ==> IsTrimmed(x)
  {
    seq(|items|, k requires 0 <= k < |items| => Trim(EntryText(items[k])))
  }

  /** `.map(entryText).map(trim).filter(Boolean)` */
  function CleanEntries(items: seq<Json>): (r: seq<string>)
    ensures |r| == |items| - multiset(TrimmedEntries(items))[[]]
    ensures forall x :: x in r ==> x != [] && IsTrimmed(x)
    ensures IsSubsequence(r, TrimmedEntries(items))
  {
    FilterNonEmpty(TrimmedEntries(items))
  }

  /** A run of newlines at the front of `s` is dropped. */
  function SkipNewlines(s: string): (r: string)
    ensures |r| <= |s| && r == s[|s| - |r|..]
    ensures r == [] || r[0] != '\n'
    ensures forall i :: 0 <= i < |s| - |r| ==> s[i] == '\n'
  {
    if s != [] && s[0] == '\n' then SkipNewlines(s[1..]) else s
  }

  /** `s.split(/\n+/)`: the pieces between maximal runs of newlines. */
  function SplitNewlineRuns(s: string): (parts: seq<string>)
    ensures |parts| >= 1
    ensures forall p :: p in parts ==> '\n' !in p
    decreases |s|
  {
    var i := IndexOfChar(s, '\n');
    if i == |s| then [s] else [s[..i]] + SplitNewlineRuns(SkipNewlines(s[i..]))
  }

  /** A marker character of a numbered or bulleted list: `[\-\d\.\)]`. */
  predicate IsListMarker(c: char) {
    c == '-' || ('0' <= c <= '9') || c == '.' || c == ')'
  }

  /** `line.replace(/^[\-\d\.\)]\s*\/, '')`: one marker character and the whitespace after it. */
  function StripListMarker(line: string): (r: string)
    ensures |r| <= |line| && r == line[|line| - |r|..]
    ensures line == [] || !IsListMarker(line[0]) ==> r == line
    ensures line != [] && IsListMarker(line[0]) ==>
              && |r| < |line|
              && (forall i :: 1 <= i < |line| - |r| ==> IsSpace(line[i]))
              && (r == [] || !IsSpace(r[0]))
  {
    if line != [] && IsListMarker(line[0]) then TrimStart(line[1..]) else line
  }

  lemma CleanLineKeepsAbsent(line: string, c: char)
    ensures c !in line ==> c !in Trim(StripListMarker(line))
  {
    if c !in line {
      var stripped := StripListMarker(line);
      assert forall i :: 0 <= i < |stripped| ==> stripped[i] == line[|line| - |stripped| + i];
      TrimKeepsAbsent(stripped, c);
    }
  }

  /** One line of the fallback: marker stripped, then trimmed; it adds no line break. */
  function CleanLine(line: string): (r: string)
    ensures IsTrimmed(r)
    ensures '\n' !in line ==> '\n' !in r
  {
    CleanLineKeepsAbsent(line, '\n');
    Trim(StripListMarker(line))
  }

  function CleanLines(parts: seq<string>): (r: seq<string>)
    ensures |r| == |parts|
    ensures forall k :: 0 <= k < |parts| ==> r[k] == CleanLine(parts[k])
    ensures forall x :: x in r ==> IsTrimmed(x)
    ensures (forall p :: p in parts ==> '\n' !in p) ==> forall x :: x in r ==> '\n' !in x
  {
    seq(|parts|, k requires 0 <= k < |parts| => CleanLine(parts[k]))
  }

  /** The line-oriented fallback: split on newline runs, strip markers, trim, drop empties. */
  function FallbackLines(trimmed: string): (r: seq<string>)
    ensures forall x :: x in r ==> x != [] && IsTrimmed(x) && '\n' !in x
    ensures |r| == |SplitNewlineRuns(trimmed)| - multiset(CleanLines(SplitNewlineRuns(trimmed)))[[]]
    ensures IsSubsequence(r, CleanLines(SplitNewlineRuns(trimmed)))
  {
    FilterNonEmpty(CleanLines(SplitNewlineRuns(trimmed)))
  }

  /** The parsed value when it is an array, or an object whose `suggestions` is an array. */
  function SuggestionArray(parsed: Option<Json>): Option<seq<Json>> {
    if parsed.Some? && parsed.value.JArray? then Some(parsed.value.items)
    else if parsed.Some? then ArrayField(parsed.value, "suggestions")
    else None
  }

  /**
   * `parseSuggestions`: an empty or absent reply gives []; a reply that parses
   * as a JSON array (or an object with a `suggestions` array) gives its entries;
   * anything else goes through the line fallback.  No entry is ever blank.
   */
  function ParseSuggestions(parse: string -> Option<Json>, rawContent: Option<string>): (r: seq<string>)
    ensures rawContent == None || rawContent == Some("") ==> r == []
    ensures forall x :: x in r ==> x != [] && IsTrimmed(x)
  {
    if rawContent == None || rawContent.value == "" then []
    else
      var trimmed := Trim(rawContent.value);
      var entries := SuggestionArray(parse(trimmed));
      if entries.Some? then CleanEntries(entries.value) else FallbackLines(trimmed)
  }

  // ---------------------------------------------------------------------------
  // Properties of the reply parser
  // ---------------------------------------------------------------------------

  /** Entries that are already non-empty trimmed strings pass through unchanged. */
  lemma CleanEntriesOfStrings(xs: seq<string>)
    requires forall k :: 0 <= k < |xs| ==> xs[k] != [] && IsTrimmed(xs[k])
    ensures CleanEntries(StringsToJson(xs)) == xs
  {
    var items := StringsToJson(xs);
    forall k | 0 <= k < |xs| ensures TrimmedEntries(items)[k] == xs[k] {
      TrimOfTrimmed(xs[k]);
    }
    assert TrimmedEntries(items) == xs;
  }

  /** The serialized form of a list of strings is already trimmed. */
  lemma SerializedIsTrimmed(xs: seq<string>)
    ensures Trim(SerializeStrings(xs)) == SerializeStrings(xs)
  {
    TrimOfTrimmed(SerializeStrings(xs));
  }

  /**
   * A reply that is the JSON text of a list of non-empty, trimmed strings is
   * parsed back to exactly that list.
   */
  lemma ParseSuggestionsRoundTrip(parse: string -> Option<Json>, xs: seq<string>)
    requires parse(SerializeStrings(xs)) == Some(JArray(StringsToJson(xs)))
    requires forall k :: 0 <= k < |xs| ==> xs[k] != [] && IsTrimmed(xs[k])
    ensures ParseSuggestions(parse, Some(SerializeStrings(xs))) == xs
  {
    SerializedIsTrimmed(xs);
    CleanEntriesOfStrings(xs);
  }

  /** An object whose `suggestions` field is such a list gives the same result. */
  lemma ParseSuggestionsObjectRoundTrip(parse: string -> Option<Json>, text: string, xs: seq<string>)
    requires IsTrimmed(text) && text != ""
    requires parse(text) == Some(JObject(map["suggestions" := JArray(StringsToJson(xs))]))
    requires forall k :: 0 <= k < |xs| ==> xs[k] != [] && IsTrimmed(xs[k])
    ensures ParseSuggestions(parse, Some(text)) == xs
  {
    TrimOfTrimmed(text);
    assert Field(parse(text).value, "suggestions") == Some(JArray(StringsToJson(xs)));
    ParseSuggestionsOfArray(parse, text, StringsToJson(xs));
    CleanEntriesOfStrings(xs);
  }

  /** A reply whose trimmed text yields a suggestion array gives that array's cleaned entries. */
  lemma ParseSuggestionsOfArray(parse: string -> Option<Json>, raw: string, items: seq<Json>)
    requires raw != ""
    requires SuggestionArray(parse(Trim(raw))) == Some(items)
    ensures ParseSuggestions(parse, Some(raw)) == CleanEntries(items)
  {
  }

  /**
   * A reply that parses as an array gives its entries as text, trimmed, in
   * order, with exactly the empty ones dropped.
   */
  lemma ParseSuggestionsArrayOrder(parse: string -> Option<Json>, raw: string, items: seq<Json>)
    requires raw != ""
    requires parse(Trim(raw)) == Some(JArray(items))
    ensures ParseSuggestions(parse, Some(raw)) == CleanEntries(items)
    ensures IsSubsequence(ParseSuggestions(parse, Some(raw)), TrimmedEntries(items))
    ensures |ParseSuggestions(parse, Some(raw))| == |items| - multiset(TrimmedEntries(items))[[]]
  {
  }

  lemma {:induction false} JoinEmptyCons(x: string, rest: seq<string>)
    ensures JoinWith([x] + rest, "") == x + JoinWith(rest, "")
  {
    if rest == [] {
      assert [x] + rest == [x];
    } else {
      assert ([x] + rest)[1..] == rest;
    }
  }

  lemma SliceThree(s: string, i: nat, j: nat)
    requires i <= j <= |s|
    ensures s == s[..i] + (s[i..j] + s[j..])
  {
  }

  /**
   * Splitting on newline runs loses nothing but the newlines: the pieces,
   * concatenated, are the input with its newlines removed.
   */
  lemma {:induction false} SplitNewlineRunsContent(s: string)
    ensures JoinWith(SplitNewlineRuns(s), "") == Without(s, '\n')
    decreases |s|
  {
    var i := IndexOfChar(s, '\n');
    if i == |s| {
      WithoutAbsent(s, '\n');
    } else {
      var head, run, tail := NewlineRunAt(s);
      SplitNewlineRunsContent(tail);
      WithoutNewlineRun(head, run, tail);
      JoinEmptyCons(head, SplitNewlineRuns(tail));
    }
  }

  lemma WithoutNewlineRun(head: string, run: string, tail: string)
    requires '\n' !in head
    requires forall m :: 0 <= m < |run| ==> run[m] == '\n'
    ensures Without(head + (run + tail), '\n') == head + Without(tail, '\n')
  {
    WithoutAppend(head, run + tail, '\n');
    WithoutAppend(run, tail, '\n');
    WithoutAbsent(head, '\n');
    WithoutAll(run, '\n');
    assert Without(run, '\n') + Without(tail, '\n') == Without(tail, '\n');
  }

  /** One step of `SplitNewlineRuns`: the text before the first newline, the newline run, and the rest. */
  lemma NewlineRunAt(s: string) returns (head: string, run: string, tail: string)
    requires IndexOfChar(s, '\n') < |s|
    ensures s == head + (run + tail)
    ensures head == s[..IndexOfChar(s, '\n')] && '\n' !in head
    ensures run != [] && forall m :: 0 <= m < |run| ==> run[m] == '\n'
    ensures tail == SkipNewlines(s[IndexOfChar(s, '\n')..]) && |tail| < |s|
    ensures SplitNewlineRuns(s) == [head] + SplitNewlineRuns(tail)
  {
    var i := IndexOfChar(s, '\n');
    head := s[..i];
    tail := SkipNewlines(s[i..]);
    run := RunAt(s, i);
  }

  /** The newlines that start at `s[i]`, and where they end. */
  lemma RunAt(s: string, i: nat) returns (run: string)
    requires i < |s| && s[i] == '\n'
    ensures s == s[..i] + (run + SkipNewlines(s[i..]))
    ensures run != [] && forall m :: 0 <= m < |run| ==> run[m] == '\n'
    ensures |SkipNewlines(s[i..])| < |s[i..]|
  {
    var rest := s[i..];
    var tail := SkipNewlines(rest);
    assert rest[0] == '\n';
    var j := |s| - |tail|;
    assert tail == s[j..];
    run := s[i..j];
    SliceThree(s, i, j);
    assert forall m :: 0 <= m < |run| ==> run[m] == rest[m];
  }

  /** There are at most one more pieces than newline characters. */
  lemma {:induction false} SplitNewlineRunsCount(s: string)
    ensures |SplitNewlineRuns(s)| <= CountChar(s, '\n') + 1
    decreases |s|
  {
    var i := IndexOfChar(s, '\n');
    if i < |s| {
      var head, run, tail := NewlineRunAt(s);
      SplitNewlineRunsCount(tail);
      CountCharAppend(head, run + tail, '\n');
      CountCharAppend(run, tail, '\n');
      assert CountChar(run, '\n') >= 1;
    }
  }

  /** `s` with every run of newlines reduced to a single newline. */
  function SingleNewlines(s: string): string
    decreases |s|
  {
    if s == [] then []
    else if s[0] == '\n' && |s| > 1 && s[1] == '\n' then SingleNewlines(s[1..])
    else [s[0]] + SingleNewlines(s[1..])
  }

  lemma {:induction false} SingleNewlinesPlain(head: string, rest: string)
    requires '\n' !in head
    ensures SingleNewlines(head + rest) == head + SingleNewlines(rest)
    decreases |head|
  {
    if head == [] {
      EmptyConcat(head, rest);
      EmptyConcat(head, SingleNewlines(rest));
    } else {
      assert (head + rest)[0] == head[0] && (head + rest)[1..] == head[1..] + rest;
      SingleNewlinesPlain(head[1..], rest);
      assert head == [head[0]] + head[1..];
      ConcatAssoc([head[0]], head[1..], SingleNewlines(rest));
    }
  }

  lemma {:induction false} SingleNewlinesRun(run: string, tail: string)
    requires run != [] && forall m :: 0 <= m < |run| ==> run[m] == '\n'
    requires tail == [] || tail[0] != '\n'
    ensures SingleNewlines(run + tail) == "\n" + SingleNewlines(tail)
    decreases |run|
  {
    var s := run + tail;
    assert s[0] == '\n' && s[1..] == run[1..] + tail;
    if |run| > 1 {
      assert s[1] == '\n';
      SingleNewlinesRun(run[1..], tail);
    } else {
      EmptyConcat(run[1..], tail);
      assert |s| > 1 ==> s[1] == tail[0];
    }
  }

  /**
   * On any text, the pieces joined by single newlines give the text with
   * each run of newlines reduced to one. As no piece holds a newline, this
   * fixes every piece.
   */
  lemma {:induction false} SplitNewlineRunsSingle(s: string)
    ensures JoinWith(SplitNewlineRuns(s), "\n") == SingleNewlines(s)
    decreases |s|
  {
    var i := IndexOfChar(s, '\n');
    if i == |s| {
      EmptyConcat([], s);
      SingleNewlinesPlain(s, []);
      assert s + [] == s;
    } else {
      var head, run, tail := NewlineRunAt(s);
      SplitNewlineRunsSingle(tail);
      JoinCons(head, SplitNewlineRuns(tail), "\n");
      SingleNewlinesPlain(head, run + tail);
      SingleNewlinesRun(run, tail);
      ConcatAssoc(head, "\n", SingleNewlines(tail));
    }
  }

  /**
   * On text without empty lines every newline run is one newline, so
   * joining the pieces with "\n" gives the text back.
   */
  lemma {:induction false} SplitNewlineRunsJoin(s: string)
    requires NoEmptyLine(s)
    ensures JoinWith(SplitNewlineRuns(s), "\n") == s
    decreases |s|
  {
    var i := IndexOfChar(s, '\n');
    if i < |s| {
      var head, run, tail := NewlineRunAt(s);
      SingleNewlineRun(head, run, tail);
      SplitNewlineRunsJoin(tail);
      JoinLineStep(s, head, tail);
    }
  }

  lemma JoinLineStep(s: string, head: string, tail: string)
    requires s == head + ("\n" + tail)
    requires SplitNewlineRuns(s) == [head] + SplitNewlineRuns(tail)
    requires JoinWith(SplitNewlineRuns(tail), "\n") == tail
    ensures JoinWith(SplitNewlineRuns(s), "\n") == s
  {
    JoinCons(head, SplitNewlineRuns(tail), "\n");
  }

  lemma NoEmptyLineAt(s: string, i: nat)
    requires NoEmptyLine(s) && i < |s|
    ensures i + 1 < |s| ==> s[i + 1] != '\n' || s[i] != '\n'
  {
  }

  /** In text without empty lines a run of newlines is a single one, and what follows has none either. */
  lemma SingleNewlineRun(head: string, run: string, tail: string)
    requires NoEmptyLine(head + (run + tail))
    requires run != [] && forall m :: 0 <= m < |run| ==> run[m] == '\n'
    ensures run == "\n" && NoEmptyLine(tail)
  {
    var s := head + (run + tail);
    var i := |head|;
    assert s[i] == run[0] == '\n';
    NoEmptyLineAt(s, i);
    assert forall j :: 0 <= j < |tail| ==> tail[j] == s[i + 1 + j];
  }

  /**
   * A reply that is neither a JSON array nor an object with a `suggestions`
   * array is read line by line: its suggestions are exactly the fallback
   * lines of the trimmed reply.
   */
  lemma ParseSuggestionsFallback(parse: string -> Option<Json>, raw: string)
    requires raw != ""
    requires SuggestionArray(parse(Trim(raw))) == None
    ensures ParseSuggestions(parse, Some(raw)) == FallbackLines(Trim(raw))
  {
  }

  /**
   * When the reply is not JSON the result has at most one entry per line and
   * no entry spans a line break.
   */
  lemma ParseSuggestionsFallbackBound(parse: string -> Option<Json>, raw: string)
    requires raw != ""
    requires SuggestionArray(parse(Trim(raw))) == None
    ensures |ParseSuggestions(parse, Some(raw))| <= CountChar(Trim(raw), '\n') + 1
    ensures forall k :: 0 <= k < |ParseSuggestions(parse, Some(raw))| ==> '\n' !in ParseSuggestions(parse, Some(raw))[k]
  {
    SplitNewlineRunsCount(Trim(raw));
  }

  /** Two lines separated by a single newline split into exactly those two lines. */
  lemma SplitTwoLines(first: string, second: string)
    requires '\n' !in first && '\n' !in second
    ensures SplitNewlineRuns(first + "\n" + second) == [first, second]
  {
    FirstNewlineAt(first, second);
    SkipOneNewline(second);
    SplitOneLine(second);
  }

  lemma FirstNewlineAt(first: string, second: string)
    requires '\n' !in first
    ensures var s := first + "\n" + second;
            && IndexOfChar(s, '\n') == |first|
            && s[..|first|] == first
            && s[|first|..] == "\n" + second
  {
    var s := first + "\n" + second;
    assert s[|first|] == '\n';
    assert forall j :: 0 <= j < |first| ==> s[j] == first[j];
  }

  lemma SkipOneNewline(second: string)
    requires '\n' !in second
    ensures SkipNewlines("\n" + second) == second
  {
    assert ("\n" + second)[1..] == second;
  }

  lemma SplitOneLine(line: string)
    requires '\n' !in line
    ensures SplitNewlineRuns(line) == [line]
  {
    assert IndexOfChar(line, '\n') == |line|;
  }

  /** A marker character followed by trimmed text loses that character and nothing else. */
  lemma CleanMarkedLine(marker: char, rest: string)
    requires IsListMarker(marker) && IsTrimmed(rest) && rest != []
    ensures CleanLine([marker] + rest) == rest
  {
    assert ([marker] + rest)[1..] == rest;
    assert TrimStart(rest) == rest;
    TrimOfTrimmed(rest);
  }

  /**
   * Only the first of two marker characters is stripped: in "1. First." the
   * digit goes and the dot stays, giving ". First.".
   */
  lemma NumberedLineKeepsDot(digit: char, dot: char, rest: string)
    requires IsListMarker(digit) && IsListMarker(dot) && IsTrimmed([dot] + rest)
    ensures CleanLine([digit, dot] + rest) == [dot] + rest
  {
    assert [digit, dot] + rest == [digit] + ([dot] + rest);
    CleanMarkedLine(digit, [dot] + rest);
  }

  /** An empty error body gives an empty detail; a plain-text body gives its head. */
  lemma DeriveErrorMessagePlainText(parse: string -> Option<Json>, text: string)
    requires parse(text) == None
    ensures |DeriveErrorMessage(parse, text)| <= MaxErrorSnippet
    ensures DeriveErrorMessage(parse, text) == text[..if |text| <= MaxErrorSnippet then |text| else MaxErrorSnippet]
  {
  }

  /** A nested `error.message` wins over a top-level `message`. */
  lemma DeriveErrorMessagePrefersNested(parse: string -> Option<Json>, text: string, nested: string, top: string)
    requires text != "" && nested != ""
    requires parse(text) == Some(JObject(map["error" := JObject(map["message" := JString(nested)]), "message" := JString(top)]))
    ensures DeriveErrorMessage(parse, text) == nested
  {
  }
}

=== FILE: formatting.dfy ===
/**
 * HTML escaping and the text-to-HTML conversion of the content script
 * (src/content-script.js), used when a reply is inserted into the compose
 * window, with the decoder that reads the HTML back.
 */
module Formatting {
  import opened Text
  import opened Whitespace

  // ---------------------------------------------------------------------------
  // escapeHtml
  // ---------------------------------------------------------------------------

  const AmpEntity: string := "&amp;"
  const LtEntity: string := "&lt;"
  const GtEntity: string := "&gt;"
  const QuotEntity: string := "&quot;"
  const AposEntity: string := "&#39;"

  predicate IsHtmlSpecial(c: char) {
    c == '&' || c == '<' || c == '>' || c == '"' || c == '\''
  }

  /** The entity `escapeHtml` writes for one character; other characters stay as they are. */
  function EscapeHtmlChar(c: char): (r: string)
    ensures !IsHtmlSpecial(c) ==> r == [c]
    ensures IsHtmlSpecial(c) ==> |r| >= 4 && r[0] == '&' && r[|r| - 1] == ';'
    ensures '<' !in r && '>' !in r && '"' !in r && '\'' !in r
  {
    if c == '&' then AmpEntity
    else if c == '<' then LtEntity
    else if c == '>' then GtEntity
    else if c == '"' then QuotEntity
    else if c == '\'' then AposEntity
    else [c]
  }

  /** `escapeHtml`: every special character replaced by its entity. */
  function EscapeHtml(s: string): (r: string)
    ensures '<' !in r && '>' !in r && '"' !in r && '\'' !in r
    ensures |r| >= |s|
    ensures (forall i :: 0 <= i < |s| ==> !IsHtmlSpecial(s[i])) ==> r == s
  {
    if s == [] then [] else EscapeHtmlChar(s[0]) + EscapeHtml(s[1..])
  }

  /** Decodes the five entities `escapeHtml` writes, reading left to right. */
  function UnescapeHtml(s: string): string
    decreases |s|
  {
    if s == [] then []
    else if AmpEntity <= s then ['&'] + UnescapeHtml(s[|AmpEntity|..])
    else if LtEntity <= s then ['<'] + UnescapeHtml(s[|LtEntity|..])
    else if GtEntity <= s then ['>'] + UnescapeHtml(s[|GtEntity|..])
    else if QuotEntity <= s then ['"'] + UnescapeHtml(s[|QuotEntity|..])
    else if AposEntity <= s then ['\''] + UnescapeHtml(s[|AposEntity|..])
    else [s[0]] + UnescapeHtml(s[1..])
  }

  lemma UnescapeEntity(entity: string, c: char, rest: string)
    requires entity == EscapeHtmlChar(c)
    ensures UnescapeHtml(entity + rest) == [c] + UnescapeHtml(rest)
  {
    var s := entity + rest;
    if c == '&' {
      assert AmpEntity <= s;
      assert s[|AmpEntity|..] == rest;
    } else if c == '<' {
      assert s[1] == 'l';
      assert LtEntity <= s;
      assert s[|LtEntity|..] == rest;
    } else if c == '>' {
      assert s[1] == 'g';
      assert GtEntity <= s;
      assert s[|GtEntity|..] == rest;
    } else if c == '"' {
      assert s[1] == 'q';
      assert QuotEntity <= s;
      assert s[|QuotEntity|..] == rest;
    } else if c == '\'' {
      assert s[1] == '#';
      assert AposEntity <= s;
      assert s[|AposEntity|..] == rest;
    } else {
      assert s[0] == c;
      assert s[1..] == rest;
    }
  }

  /** Escaping loses nothing: decoding the entities gives the original text back. */
  lemma {:induction false} EscapeHtmlRoundTrip(s: string)
    ensures UnescapeHtml(EscapeHtml(s)) == s
    decreases |s|
  {
    if s != [] {
      EscapeHtmlRoundTrip(s[1..]);
      UnescapeEntity(EscapeHtmlChar(s[0]), s[0], EscapeHtml(s[1..]));
      assert s == [s[0]] + s[1..];
    }
  }

  // ---------------------------------------------------------------------------
  // convertTextToHtml
  // ---------------------------------------------------------------------------

  /** Two newlines start at index `i`. */
  predicate BlankLineAt(s: string, i: int) {
    0 <= i && i + 1 < |s| && s[i] == '\n' && s[i + 1] == '\n'
  }

  /** Index of the first two consecutive newlines at or after `from`, or `|s|`. */
  function BlankLineFrom(s: string, from: nat): (i: nat)
    requires from <= |s|
    ensures from <= i <= |s|
    ensures i < |s| ==> BlankLineAt(s, i)
    ensures forall j :: from <= j < i ==> !BlankLineAt(s, j)
    decreases |s| - from
  {
    if from == |s| then |s|
    else if BlankLineAt(s, from) then from
    else BlankLineFrom(s, from + 1)
  }

  /** End of the run of newlines starting at `i`. */
  function NewlineRunEnd(s: string, i: nat): (j: nat)
    requires i <= |s|
    ensures i <= j <= |s|
    ensures forall k :: i <= k < j ==> s[k] == '\n'
    ensures j == |s| || s[j] != '\n'
    decreases |s| - i
  {
    if i < |s| && s[i] == '\n' then NewlineRunEnd(s, i + 1) else i
  }

  /** `s.split(/\n{2,}/)`: the pieces between runs of two or more newlines. */
  function SplitParagraphs(s: string): (ps: seq<string>)
    ensures |ps| >= 1
    decreases |s|
  {
    var i := BlankLineFrom(s, 0);
    if i == |s| then [s]
    else [s[..i]] + SplitParagraphs(s[NewlineRunEnd(s, i)..])
  }

  /** No paragraph holds a blank line. */
  lemma {:induction false} SplitParagraphsNoBlankLine(s: string)
    ensures forall p :: p in SplitParagraphs(s) ==> NoEmptyLine(p)
    decreases |s|
  {
    var i := BlankLineFrom(s, 0);
    if i < |s| {
      SplitParagraphsNoBlankLine(s[NewlineRunEnd(s, i)..]);
      var head := s[..i];
      forall k | 0 <= k < |head| - 1 ensures !(head[k] == '\n' && head[k + 1] == '\n') {
        assert !BlankLineAt(s, k);
      }
    } else {
      forall k | 0 <= k < |s| - 1 ensures !(s[k] == '\n' && s[k + 1] == '\n') {
        assert !BlankLineAt(s, k);
      }
    }
  }

  /**
   * Where the text has no run of three newlines (as normalised text never
   * has), joining the paragraphs with a blank line gives the text back.
   */
  lemma {:induction false} SplitParagraphsRoundTrip(s: string)
    requires NoTripleNewline(s)
    ensures JoinWith(SplitParagraphs(s), "\n\n") == s
    decreases |s|
  {
    var i := BlankLineFrom(s, 0);
    if i < |s| {
      var j := NewlineRunEnd(s, i);
      assert j == i + 2 by {
        assert s[i] == '\n' && s[i + 1] == '\n';
        if i + 2 < |s| {
          assert s[i + 2] != '\n';
          assert NewlineRunEnd(s, i + 2) == i + 2;
        }
        assert NewlineRunEnd(s, i) == NewlineRunEnd(s, i + 1) == NewlineRunEnd(s, i + 2);
      }
      var rest := s[j..];
      assert NoTripleNewline(rest) by {
        forall k | 0 <= k < |rest| - 2 ensures !(rest[k] == '\n' && rest[k + 1] == '\n' && rest[k + 2] == '\n') {
          assert rest[k] == s[j + k] && rest[k + 1] == s[j + k + 1] && rest[k + 2] == s[j + k + 2];
        }
      }
      SplitParagraphsRoundTrip(rest);
      var tail := SplitParagraphs(rest);
      assert SplitParagraphs(s) == [s[..i]] + tail;
      JoinCons(s[..i], tail, "\n\n");
      assert s == s[..i] + "\n\n" + rest;
    }
  }

  /** Normalised text splits into paragraphs that a blank line joins back into it. */
  lemma NormalizedParagraphsRoundTrip(s: string)
    ensures JoinWith(SplitParagraphs(Normalize(s)), "\n\n") == Normalize(s)
  {
    SplitParagraphsRoundTrip(Normalize(s));
  }

  const ParagraphOpen: string := "<div>"
  const ParagraphClose: string := "</div>"
  const LineBreak: string := "<br>"

  /** Each line of a paragraph escaped. */
  function EscapeLines(lines: seq<string>): (r: seq<string>)
    ensures |r| == |lines|
    ensures forall k :: 0 <= k < |r| ==> r[k] == EscapeHtml(lines[k])
  {
    seq(|lines|, k requires 0 <= k < |lines| => EscapeHtml(lines[k]))
  }

  /** One paragraph: its lines escaped and joined by `<br>`, wrapped in a `<div>`. */
  function ParagraphHtml(paragraph: string): string {
    ParagraphOpen + JoinWith(EscapeLines(SplitOnChar(paragraph, '\n')), LineBreak) + ParagraphClose
  }

  function ParagraphsHtml(paragraphs: seq<string>): (r: string)
    ensures paragraphs != [] ==> |r| >= |ParagraphOpen| && r[..|ParagraphOpen|] == ParagraphOpen
  {
    if paragraphs == [] then "" else ParagraphHtml(paragraphs[0]) + ParagraphsHtml(paragraphs[1..])
  }

  /** `convertTextToHtml`: "" for "", else one `<div>` per paragraph. */
  function ConvertTextToHtml(text: string): (r: string)
    ensures r == "" <==> text == ""
    ensures text != "" ==> r == ParagraphsHtml(SplitParagraphs(text))
  {
    if text == "" then "" else ParagraphsHtml(SplitParagraphs(text))
  }

  /** Escaping works character by character, so it distributes over concatenation. */
  lemma {:induction false} EscapeHtmlAppend(a: string, b: string)
    ensures EscapeHtml(a + b) == EscapeHtml(a) + EscapeHtml(b)
    decreases |a|
  {
    if a == [] {
      assert a + b == b;
    } else {
      assert (a + b)[0] == a[0] && (a + b)[1..] == a[1..] + b;
      EscapeHtmlAppend(a[1..], b);
      assert EscapeHtml(a + b) == EscapeHtmlChar(a[0]) + (EscapeHtml(a[1..]) + EscapeHtml(b));
    }
  }

  /** Escaping each entry and joining with a plain separator is escaping the joined text. */
  lemma {:induction false} EscapeJoin(xs: seq<string>, sep: string)
    requires forall i :: 0 <= i < |sep| ==> !IsHtmlSpecial(sep[i])
    ensures JoinWith(EscapeLines(xs), sep) == EscapeHtml(JoinWith(xs, sep))
    decreases |xs|
  {
    if |xs| > 1 {
      EscapeJoin(xs[1..], sep);
      assert EscapeLines(xs)[1..] == EscapeLines(xs[1..]);
      EscapeHtmlAppend(xs[0] + sep, JoinWith(xs[1..], sep));
      EscapeHtmlAppend(xs[0], sep);
    }
  }

  /**
   * The tags `convertTextToHtml` writes read back as line breaks: `<br>` is
   * one newline, `</div><div>` between paragraphs a blank line, and the
   * outer `<div>` and `</div>` nothing; other characters are kept.
   */
  function TagsAsBreaks(s: string): string
    decreases |s|
  {
    if s == [] then []
    else if s[0] != '<' then [s[0]] + TagsAsBreaks(s[1..])
    else if ParagraphClose + ParagraphOpen <= s then "\n\n" + TagsAsBreaks(s[|ParagraphClose + ParagraphOpen|..])
    else if LineBreak <= s then "\n" + TagsAsBreaks(s[|LineBreak|..])
    else if ParagraphOpen <= s then TagsAsBreaks(s[|ParagraphOpen|..])
    else if ParagraphClose <= s then TagsAsBreaks(s[|ParagraphClose|..])
    else [s[0]] + TagsAsBreaks(s[1..])
  }

  /** The text an HTML fragment of this shape shows: tags read as line breaks, then entities decoded. */
  function HtmlToText(html: string): string {
    UnescapeHtml(TagsAsBreaks(html))
  }

  lemma {:induction false} TagsPlain(x: string, rest: string)
    requires '<' !in x
    ensures TagsAsBreaks(x + rest) == x + TagsAsBreaks(rest)
    decreases |x|
  {
    if x == [] {
      assert x + rest == rest;
    } else {
      assert (x + rest)[0] == x[0] != '<' && (x + rest)[1..] == x[1..] + rest;
      TagsPlain(x[1..], rest);
      assert x == [x[0]] + x[1..];
    }
  }

  lemma TagsLineBreak(rest: string)
    ensures TagsAsBreaks(LineBreak + rest) == "\n" + TagsAsBreaks(rest)
  {
    var s := LineBreak + rest;
    assert s[0] == '<' && s[1] == 'b';
    assert LineBreak <= s && s[|LineBreak|..] == rest;
  }

  lemma TagsOpen(rest: string)
    ensures TagsAsBreaks(ParagraphOpen + rest) == TagsAsBreaks(rest)
  {
    var s := ParagraphOpen + rest;
    assert s[0] == '<' && s[1] == 'd';
    assert ParagraphOpen <= s && s[|ParagraphOpen|..] == rest;
  }

  lemma TagsBetweenParagraphs(rest: string)
    ensures TagsAsBreaks(ParagraphClose + ParagraphOpen + rest) == "\n\n" + TagsAsBreaks(rest)
  {
    var s := ParagraphClose + ParagraphOpen + rest;
    assert s[0] == '<';
    assert ParagraphClose + ParagraphOpen <= s && s[|ParagraphClose + ParagraphOpen|..] == rest;
  }

  lemma TagsLastClose()
    ensures TagsAsBreaks(ParagraphClose) == ""
  {
    var s := ParagraphClose;
    assert s[0] == '<' && s[1] == '/' && |s| < |ParagraphClose + ParagraphOpen|;
    assert ParagraphClose <= s && s[|ParagraphClose|..] == "";
  }

  /** Escaped lines joined by `<br>` read back as the escaped lines joined by newlines. */
  lemma {:induction false} TagsOfLines(lines: seq<string>, rest: string)
    requires lines != []
    ensures TagsAsBreaks(JoinWith(EscapeLines(lines), LineBreak) + rest) == JoinWith(EscapeLines(lines), "\n") + TagsAsBreaks(rest)
    decreases |lines|
  {
    var escaped := EscapeLines(lines);
    if |lines| == 1 {
      TagsPlain(escaped[0], rest);
    } else {
      assert escaped == [escaped[0]] + escaped[1..];
      assert escaped[1..] == EscapeLines(lines[1..]);
      TagsOfLines(lines[1..], rest);
      JoinCons(escaped[0], escaped[1..], LineBreak);
      JoinCons(escaped[0], escaped[1..], "\n");
      TagsOfLineStep(escaped[0], JoinWith(escaped[1..], LineBreak), JoinWith(escaped[1..], "\n"), rest);
    }
  }

  lemma TagsOfLineStep(line: string, tail: string, tailText: string, rest: string)
    requires '<' !in line
    requires TagsAsBreaks(tail + rest) == tailText + TagsAsBreaks(rest)
    ensures TagsAsBreaks(line + LineBreak + tail + rest) == line + "\n" + tailText + TagsAsBreaks(rest)
  {
    assert line + LineBreak + tail + rest == line + (LineBreak + (tail + rest));
    TagsPlain(line, LineBreak + (tail + rest));
    TagsLineBreak(tail + rest);
  }

  /** One paragraph's `<div>` body reads back as the escaped paragraph. */
  lemma TagsOfParagraph(paragraph: string, rest: string)
    ensures TagsAsBreaks(JoinWith(EscapeLines(SplitOnChar(paragraph, '\n')), LineBreak) + rest) == EscapeHtml(paragraph) + TagsAsBreaks(rest)
  {
    var lines := SplitOnChar(paragraph, '\n');
    TagsOfLines(lines, rest);
    EscapeJoin(lines, "\n");
    JoinSplitOnChar(paragraph, '\n');
  }

  /** A paragraph's `<div>` reads back as the escaped paragraph; its closing tag is read with what follows. */
  lemma TagsOfDiv(paragraph: string, after: string)
    ensures TagsAsBreaks(ParagraphHtml(paragraph) + after) == EscapeHtml(paragraph) + TagsAsBreaks(ParagraphClose + after)
  {
    TagsOfParagraph(paragraph, ParagraphClose + after);
    TagsOfDivBody(JoinWith(EscapeLines(SplitOnChar(paragraph, '\n')), LineBreak), EscapeHtml(paragraph), after);
  }

  lemma TagsOfDivBody(body: string, bodyText: string, after: string)
    requires TagsAsBreaks(body + (ParagraphClose + after)) == bodyText + TagsAsBreaks(ParagraphClose + after)
    ensures TagsAsBreaks(ParagraphOpen + body + ParagraphClose + after) == bodyText + TagsAsBreaks(ParagraphClose + after)
  {
    assert ParagraphOpen + body + ParagraphClose + after == ParagraphOpen + (body + (ParagraphClose + after));
    TagsOpen(body + (ParagraphClose + after));
  }

  /** The paragraphs' HTML reads back as the escaped paragraphs separated by blank lines. */
  lemma {:induction false} TagsOfParagraphs(paragraphs: seq<string>)
    ensures TagsAsBreaks(ParagraphsHtml(paragraphs)) == JoinWith(EscapeLines(paragraphs), "\n\n")
    decreases |paragraphs|
  {
    if paragraphs != [] {
      var p, tail := paragraphs[0], paragraphs[1..];
      TagsOfDiv(p, ParagraphsHtml(tail));
      if tail == [] {
        TagsOfLastParagraph(p);
      } else {
        TagsOfNextParagraph(tail);
        TagsOfParagraphs(tail);
        JoinEscapedStep(paragraphs);
      }
    }
  }

  lemma TagsOfLastParagraph(p: string)
    requires TagsAsBreaks(ParagraphHtml(p) + ParagraphsHtml([])) == EscapeHtml(p) + TagsAsBreaks(ParagraphClose + ParagraphsHtml([]))
    ensures TagsAsBreaks(ParagraphsHtml([p])) == JoinWith(EscapeLines([p]), "\n\n")
  {
    assert ParagraphClose + ParagraphsHtml([]) == ParagraphClose;
    TagsLastClose();
  }

  lemma JoinEscapedStep(paragraphs: seq<string>)
    requires |paragraphs| >= 2
    ensures JoinWith(EscapeLines(paragraphs), "\n\n") == EscapeHtml(paragraphs[0]) + ("\n\n" + JoinWith(EscapeLines(paragraphs[1..]), "\n\n"))
  {
    var escaped := EscapeLines(paragraphs);
    assert escaped == [escaped[0]] + EscapeLines(paragraphs[1..]);
    JoinCons(escaped[0], EscapeLines(paragraphs[1..]), "\n\n");
  }

  /** Between two paragraphs `</div><div>` reads as a blank line. */
  lemma TagsOfNextParagraph(paragraphs: seq<string>)
    requires paragraphs != []
    ensures TagsAsBreaks(ParagraphClose + ParagraphsHtml(paragraphs)) == "\n\n" + TagsAsBreaks(ParagraphsHtml(paragraphs))
  {
    var after := ParagraphsHtml(paragraphs);
    var inner := after[|ParagraphOpen|..];
    assert after == ParagraphOpen + inner;
    assert ParagraphClose + after == ParagraphClose + ParagraphOpen + inner;
    TagsBetweenParagraphs(inner);
    TagsOpen(inner);
  }

  /**
   * Reading the HTML back gives the paragraphs separated by single blank
   * lines, with every line break inside a paragraph and every special
   * character restored.
   */
  lemma ConvertTextToHtmlRoundTrip(text: string)
    ensures HtmlToText(ConvertTextToHtml(text)) == JoinWith(SplitParagraphs(text), "\n\n")
  {
    if text != "" {
      var paragraphs := SplitParagraphs(text);
      TagsOfParagraphs(paragraphs);
      EscapeJoin(paragraphs, "\n\n");
      EscapeHtmlRoundTrip(JoinWith(paragraphs, "\n\n"));
    } else {
      assert SplitParagraphs(text) == [text];
    }
  }

  /** Text without a run of three newlines, such as normalised text, is read back exactly. */
  lemma ConvertTextToHtmlRestores(text: string)
    requires NoTripleNewline(text)
    ensures HtmlToText(ConvertTextToHtml(text)) == text
  {
    ConvertTextToHtmlRoundTrip(text);
    SplitParagraphsRoundTrip(text);
  }

  /** A text without a blank line is one paragraph: one `<div>` whose lines are separated by `<br>`. */
  lemma ConvertSingleParagraph(text: string)
    requires text != "" && NoEmptyLine(text)
    ensures ConvertTextToHtml(text) == ParagraphOpen + JoinWith(EscapeLines(SplitOnChar(text, '\n')), LineBreak) + ParagraphClose
  {
    assert BlankLineFrom(text, 0) == |text|;
    assert SplitParagraphs(text) == [text];
    assert ParagraphsHtml([text]) == ParagraphHtml(text) + ParagraphsHtml([]);
  }

  /** Lines of a paragraph are split on every newline and lose nothing: joining them with "\n" gives it back. */
  lemma ParagraphLinesRoundTrip(paragraph: string)
    ensures forall line :: line in SplitOnChar(paragraph, '\n') ==> '\n' !in line
    ensures JoinWith(SplitOnChar(paragraph, '\n'), "\n") == paragraph
  {
    JoinSplitOnChar(paragraph, '\n');
    var parts := SplitOnChar(paragraph, '\n');
    forall line | line in parts ensures '\n' !in line {
      var k :| 0 <= k < |parts| && parts[k] == line;
    }
  }
}

=== FILE: guidance.dfy ===
/**
 * The instruction presets of the compose dialog (src/content-script.js):
 * `normalizeGuidancePreset`, and `guidanceState`, the preset list with the
 * set of preset ids selected for use, as the load, render, add, checkbox,
 * delete and edit handlers update it.
 */
module Guidance {
  import opened Wrappers
  import opened Text
  import opened Json

  datatype Preset = Preset(id: string, name: string, content: string, useInLightning: bool)

  /** `typeof v === 'string' && v.trim() ? v.trim() : null`. */
  function TrimmedText(v: Option<string>): (r: Option<string>)
    ensures r.Some? <==> v.Some? && HasContent(v.value)
    ensures r.Some? ==> r.value == Trim(v.value) && r.value != "" && IsTrimmed(r.value)
  {
    if v.None? then None
    else
      TrimEmptyIffBlank(v.value);
      var t := Trim(v.value);
      if t != "" then Some(t) else None
  }

  /**
   * `normalizeGuidancePreset`: a preset needs an id and a name that are
   * strings with content; both are kept trimmed, the content is trimmed
   * (empty when it is not a string) and the flag is the truthiness of
   * `useInLightning`.
   */
  function NormalizeGuidancePreset(raw: Json): (r: Option<Preset>)
    ensures r.Some? <==> TrimmedText(StringField(raw, "id")).Some? && TrimmedText(StringField(raw, "name")).Some?
    ensures r.Some? ==>
      && r.value.id == Trim(StringField(raw, "id").value) && r.value.id != "" && IsTrimmed(r.value.id)
      && r.value.name == Trim(StringField(raw, "name").value) && r.value.name != "" && IsTrimmed(r.value.name)
      && r.value.content == (if StringField(raw, "content").Some? then Trim(StringField(raw, "content").value) else "")
      && r.value.useInLightning == TruthyField(raw, "useInLightning")
  {
    if !(raw.JObject? || raw.JArray?) then None
    else
      var id := TrimmedText(StringField(raw, "id"));
      var name := TrimmedText(StringField(raw, "name"));
      var content := match StringField(raw, "content") case Some(s) => Trim(s) case None => "";
      if id.None? || name.None? then None
      else Some(Preset(id.value, name.value, content, TruthyField(raw, "useInLightning")))
  }

  /** A preset as the dialog keeps it: id and name trimmed and not empty. */
  predicate WellFormed(p: Preset) {
    p.id != "" && IsTrimmed(p.id) && p.name != "" && IsTrimmed(p.name)
  }

  /** `entries.map(normalizeGuidancePreset)`. */
  function NormalizeEach(raws: seq<Json>): (r: seq<Option<Preset>>)
    ensures |r| == |raws|
    ensures forall k :: 0 <= k < |r| ==> r[k] == NormalizeGuidancePreset(raws[k])
  {
    seq(|raws|, k requires 0 <= k < |raws| => NormalizeGuidancePreset(raws[k]))
  }

  /** `entries.map(normalizeGuidancePreset).filter(Boolean)`. */
  function NormalizePresets(raws: seq<Json>): (r: seq<Preset>)
    ensures |r| == |raws| - multiset(NormalizeEach(raws))[None]
    ensures IsSubsequence(SomeOf(r), NormalizeEach(raws))
    ensures forall p :: p in r ==> WellFormed(p)
  {
    var normalized := NormalizeEach(raws);
    var r := KeepSome(normalized);
    assert forall p :: p in r ==> WellFormed(p) by {
      forall p | p in r ensures WellFormed(p) {
        var k :| 0 <= k < |normalized| && normalized[k] == Some(p);
      }
    }
    r
  }

  /** The stored entries that normalise are kept, and nothing else is. */
  lemma NormalizePresetsMembers(raws: seq<Json>, p: Preset)
    ensures p in NormalizePresets(raws) <==> exists k :: 0 <= k < |raws| && NormalizeGuidancePreset(raws[k]) == Some(p)
  {
    var normalized := NormalizeEach(raws);
    assert p in NormalizePresets(raws) <==> Some(p) in normalized;
    assert Some(p) in normalized <==> exists k :: 0 <= k < |raws| && normalized[k] == Some(p);
  }

  /** The ids of the presets whose flag is set (`filter(useInLightning).map(id)`). */
  function StoredSelection(presets: seq<Preset>): (ids: set<string>)
    ensures forall id :: id in ids <==> exists k :: 0 <= k < |presets| && presets[k].useInLightning && presets[k].id == id
  {
    set k | 0 <= k < |presets| && presets[k].useInLightning :: presets[k].id
  }

  /** Each preset's flag says whether its id is selected. */
  predicate Synced(presets: seq<Preset>, selected: set<string>) {
    forall k :: 0 <= k < |presets| ==> (presets[k].useInLightning <==> presets[k].id in selected)
  }

  predicate UniqueIds(presets: seq<Preset>) {
    forall i, j :: 0 <= i < j < |presets| ==> presets[i].id != presets[j].id
  }

  /** What `renderGuidancePresets` does to the presets: every flag set from the selection, nothing else touched. */
  function SyncFlags(presets: seq<Preset>, selected: set<string>): (r: seq<Preset>)
    ensures |r| == |presets|
    ensures Synced(r, selected)
    ensures forall k :: 0 <= k < |r| ==>
      r[k].id == presets[k].id && r[k].name == presets[k].name && r[k].content == presets[k].content
  {
    seq(|presets|, k requires 0 <= k < |presets| => presets[k].(useInLightning := presets[k].id in selected))
  }

  /** Rendering presets that already agree with the selection changes nothing. */
  lemma SyncFlagsOfSynced(presets: seq<Preset>, selected: set<string>)
    requires Synced(presets, selected)
    ensures SyncFlags(presets, selected) == presets
  {
    var r := SyncFlags(presets, selected);
    forall k | 0 <= k < |presets| ensures r[k] == presets[k] {
    }
  }

  /**
   * Presets loaded with distinct ids are rendered unchanged: the selection
   * read from their flags gives every flag back.
   */
  lemma LoadedPresetsSynced(presets: seq<Preset>)
    requires UniqueIds(presets)
    ensures Synced(presets, StoredSelection(presets))
  {
    var sel := StoredSelection(presets);
    forall k | 0 <= k < |presets| ensures presets[k].useInLightning <==> presets[k].id in sel {
      if presets[k].id in sel {
        var j :| 0 <= j < |presets| && presets[j].useInLightning && presets[j].id == presets[k].id;
        assert j == k;
      }
    }
  }

  /** How many presets carry the id `id`. */
  function CountWithId(presets: seq<Preset>, id: string): nat {
    if presets == [] then 0 else (if presets[0].id == id then 1 else 0) + CountWithId(presets[1..], id)
  }

  /**
   * The presets without those with id `id`, in order
   * (`filter(entry => entry.id !== id)`): every other preset is kept, as
   * often as it occurs.
   */
  function WithoutId(presets: seq<Preset>, id: string): (r: seq<Preset>)
    ensures |r| == |presets| - CountWithId(presets, id)
    ensures forall p :: p in r <==> p in presets && p.id != id
    ensures IsSubsequence(r, presets)
  {
    if presets == [] then []
    else
      var rest := WithoutId(presets[1..], id);
      if presets[0].id == id then
        assert rest == [] || rest[0] != presets[0];
        rest
      else
        assert ([presets[0]] + rest)[1..] == rest;
        [presets[0]] + rest
  }

  /** Deleting a preset and its id keeps the other flags in agreement with the selection. */
  lemma {:induction false} WithoutIdKeepsSynced(presets: seq<Preset>, selected: set<string>, id: string)
    requires Synced(presets, selected)
    ensures Synced(WithoutId(presets, id), selected - {id})
    decreases |presets|
  {
    if presets != [] {
      assert Synced(presets[1..], selected) by {
        forall k | 0 <= k < |presets[1..]|
          ensures presets[1..][k].useInLightning <==> presets[1..][k].id in selected
        {
          assert presets[1..][k] == presets[k + 1];
        }
      }
      WithoutIdKeepsSynced(presets[1..], selected, id);
    }
  }

  /** Ticking or clearing one checkbox keeps every flag in agreement with the selection when ids are distinct. */
  lemma ToggleKeepsSynced(presets: seq<Preset>, selected: set<string>, index: nat, checked: bool)
    requires index < |presets| && Synced(presets, selected) && UniqueIds(presets)
    ensures Synced(
      presets[index := presets[index].(useInLightning := checked)],
      if checked then selected + {presets[index].id} else selected - {presets[index].id})
  {
  }

  /** A preset added and rendered is selected; the other flags follow the selection. */
  lemma AddedPresetSelected(presets: seq<Preset>, selected: set<string>, added: Preset)
    requires added.id in selected
    ensures var r := SyncFlags(presets + [added], selected); r[|presets|].useInLightning && r[|presets|].id == added.id
  {
  }

  class GuidanceState {
    var presets: seq<Preset>
    var selectedIds: set<string>

    constructor()
      ensures presets == [] && selectedIds == {}
    {
      presets := [];
      selectedIds := {};
    }

    /** `renderGuidancePresets`: each rendered checkbox sets its preset's flag from the selection. */
    method Render()
      modifies this
      ensures presets == SyncFlags(old(presets), selectedIds)
      ensures selectedIds == old(selectedIds)
    {
      presets := SyncFlags(presets, selectedIds);
    }

    /**
     * `loadGuidancePresets`: without a storage API the state is left alone
     * (an empty list is drawn); otherwise the stored entries (None when the
     * read fails or holds no array) are normalised, the selection is read
     * from their flags, and the list is rendered.
     */
    method Load(storageAvailable: bool, entries: Option<seq<Json>>)
      modifies this
      ensures !storageAvailable ==> presets == old(presets) && selectedIds == old(selectedIds)
      ensures storageAvailable ==>
        var loaded := NormalizePresets(if entries.Some? then entries.value else []);
        && selectedIds == StoredSelection(loaded)
        && presets == SyncFlags(loaded, selectedIds)
    {
      if !storageAvailable {
        return;
      }
      var raws := if entries.Some? then entries.value else [];
      presets := NormalizePresets(raws);
      selectedIds := StoredSelection(presets);
      Render();
    }

    /**
     * `handleGuidanceAddClick`: a name that is missing or blank changes
     * nothing; otherwise a preset with that name trimmed is appended and
     * selected, and the list rendered when the dialog is open.
     */
    method Add(input: Option<string>, newId: string, dialogOpen: bool) returns (added: bool)
      modifies this
      ensures added <==> input.Some? && HasContent(input.value)
      ensures !added ==> presets == old(presets) && selectedIds == old(selectedIds)
      ensures added ==> selectedIds == old(selectedIds) + {newId}
      ensures added && !dialogOpen ==> presets == old(presets) + [Preset(newId, Trim(input.value), "", false)]
      ensures added && dialogOpen ==> presets == SyncFlags(old(presets) + [Preset(newId, Trim(input.value), "", false)], selectedIds)
    {
      if input.None? {
        return false;
      }
      TrimEmptyIffBlank(input.value);
      if Trim(input.value) == "" {
        return false;
      }
      var preset := Preset(newId, Trim(input.value), "", false);
      presets := presets + [preset];
      selectedIds := selectedIds + {preset.id};
      if dialogOpen {
        Render();
      }
      added := true;
    }

    /** A preset's checkbox changed: its id joins or leaves the selection and its flag follows. */
    method Toggle(index: nat, checked: bool)
      requires index < |presets|
      modifies this
      ensures presets == old(presets)[index := old(presets)[index].(useInLightning := checked)]
      ensures selectedIds == if checked then old(selectedIds) + {old(presets)[index].id} else old(selectedIds) - {old(presets)[index].id}
    {
      var preset := presets[index];
      if checked {
        selectedIds := selectedIds + {preset.id};
      } else {
        selectedIds := selectedIds - {preset.id};
      }
      presets := presets[index := preset.(useInLightning := checked)];
    }

    /** The delete button: unless confirmed nothing changes; otherwise the preset and its id go, then the list is rendered. */
    method Delete(id: string, confirmed: bool)
      modifies this
      ensures !confirmed ==> presets == old(presets) && selectedIds == old(selectedIds)
      ensures confirmed ==> selectedIds == old(selectedIds) - {id}
      ensures confirmed ==> presets == SyncFlags(WithoutId(old(presets), id), selectedIds)
    {
      if !confirmed {
        return;
      }
      presets := WithoutId(presets, id);
      selectedIds := selectedIds - {id};
      Render();
    }

    /** Typing in a preset's text area replaces its content. */
    method EditContent(index: nat, value: string)
      requires index < |presets|
      modifies this
      ensures presets == old(presets)[index := old(presets)[index].(content := value)]
      ensures selectedIds == old(selectedIds)
    {
      presets := presets[index := presets[index].(content := value)];
    }

    /** Before a request the selection is read back from the ticked checkboxes. */
    method SelectChecked(checkedIds: seq<string>)
      modifies this
      ensures selectedIds == set i | i in checkedIds
      ensures presets == old(presets)
    {
      selectedIds := set i | i in checkedIds;
    }
  }
}

=== FILE: insertion.dfy ===
/**
 * The text `prepareFormattedSuggestion` (src/content-script.js:624-657)
 * inserts at the caret: the suggestion trimmed, normalised and put one
 * sentence per line, with a blank line between it and any text around it.
 * The up to 400 characters before and after the caret are parameters here.
 */
module Insertion {
  import opened Text
  import opened Whitespace
  import opened Sentences

  const BlankLine: string := "\n\n"

  /** `n` line breaks. */
  function LineBreaks(n: nat): (r: string)
    ensures |r| == n
    ensures forall i :: 0 <= i < n ==> r[i] == '\n'
  {
    if n == 0 then "" else "\n" + LineBreaks(n - 1)
  }

  /**
   * What goes in front of the suggestion: nothing after blank text, and
   * otherwise as many line breaks as the text before needs to end with a
   * blank line.
   */
  function LeadingSeparator(before: string): (sep: string)
    ensures sep == LineBreaks(|sep|) && |sep| <= 2
    ensures !HasContent(before) ==> sep == ""
  {
    if !HasContent(before) then ""
    else if EndsWith(before, BlankLine) then ""
    else if EndsWith(before, "\n") then "\n"
    else "\n\n"
  }

  /**
   * What goes after the suggestion: nothing before blank text, and
   * otherwise as many line breaks as the text after needs to start with a
   * blank line.
   */
  function TrailingSeparator(after: string): (sep: string)
    ensures sep == LineBreaks(|sep|) && |sep| <= 2
    ensures !HasContent(after) ==> sep == ""
  {
    if !HasContent(after) then ""
    else if StartsWith(after, BlankLine) then ""
    else if StartsWith(after, "\n") then "\n"
    else "\n\n"
  }

  /** Ending with a line break, or a blank line, as a fact about the last characters. */
  lemma EndsWithBreaks(t: string)
    ensures EndsWith(t, "\n") <==> |t| >= 1 && t[|t| - 1] == '\n'
    ensures EndsWith(t, BlankLine) <==> |t| >= 2 && t[|t| - 2] == '\n' && t[|t| - 1] == '\n'
  {
    if |t| >= 1 && t[|t| - 1] == '\n' {
      assert t[|t| - 1..] == "\n";
    }
    if |t| >= 2 && t[|t| - 2] == '\n' && t[|t| - 1] == '\n' {
      assert t[|t| - 2..] == BlankLine;
    }
  }

  /** After text with content, the separator leaves a blank line at the end of it. */
  lemma LeadingSeparatorBlankLine(before: string)
    requires HasContent(before)
    ensures EndsWith(before + LeadingSeparator(before), BlankLine)
  {
    var sep := LeadingSeparator(before);
    var t := before + sep;
    EndsWithBreaks(before);
    EndsWithBreaks(t);
    if EndsWith(before, BlankLine) {
      assert t == before;
    } else if EndsWith(before, "\n") {
      assert t[|t| - 2] == before[|before| - 1];
    }
  }

  /** No shorter run of line breaks than the leading separator ends the text before with a blank line. */
  lemma LeadingSeparatorShortest(before: string, n: nat)
    requires HasContent(before) && EndsWith(before + LineBreaks(n), BlankLine)
    ensures |LeadingSeparator(before)| <= n
  {
    var u := before + LineBreaks(n);
    EndsWithBreaks(before);
    EndsWithBreaks(u);
    if n == 0 {
      assert u == before;
    } else if n == 1 {
      assert u[|u| - 2] == before[|before| - 1];
    }
  }

  /** Before text with content, the separator leaves a blank line at the start of it. */
  lemma TrailingSeparatorBlankLine(after: string)
    requires HasContent(after)
    ensures StartsWith(TrailingSeparator(after) + after, BlankLine)
  {
    var sep := TrailingSeparator(after);
    var t := sep + after;
    if StartsWith(after, BlankLine) {
      assert t == after;
    } else if StartsWith(after, "\n") {
      assert t[..2] == ['\n', after[0]];
    } else {
      assert t[..2] == sep;
    }
  }

  /** No shorter run of line breaks than the trailing separator starts the text after with a blank line. */
  lemma TrailingSeparatorShortest(after: string, n: nat)
    requires HasContent(after) && StartsWith(LineBreaks(n) + after, BlankLine)
    ensures |TrailingSeparator(after)| <= n
  {
    var u := LineBreaks(n) + after;
    if n == 0 {
      assert u == after;
    } else if n == 1 {
      assert u[1] == after[0];
    }
  }

  /** The suggestion text itself: trimmed, normalised, one sentence per line. */
  function SuggestionBody(text: string): string {
    NaturalLineBreaks(Normalize(Trim(text)))
  }

  /**
   * The suggestion body as it is inserted, by the separator rules: the
   * leading separator and the body, at most one line break, then the
   * trailing separator.
   */
  function FormattedSuggestion(body: string, before: string, after: string): (r: string)
    ensures StartsWith(r, LeadingSeparator(before))
    ensures EndsWith(r, TrailingSeparator(after))
    ensures |LeadingSeparator(before)| + |body| + |TrailingSeparator(after)| <= |r|
              <= |LeadingSeparator(before)| + |body| + 1 + |TrailingSeparator(after)|
    ensures r[..|LeadingSeparator(before)| + |body|] == LeadingSeparator(before) + body
    ensures r[|LeadingSeparator(before)| + |body|..|r| - |TrailingSeparator(after)|] in {"", "\n"}
  {
    var led := LeadingSeparator(before) + body;
    var ended := if EndsWith(led, "\n") then led else led + "\n";
    var r := ended + TrailingSeparator(after);
    ThreeParts(LeadingSeparator(before), body, if EndsWith(led, "\n") then "" else "\n", TrailingSeparator(after));
    r
  }

  /** Where the parts of `l + b + m + t` lie, for a middle `m` of at most one line break. */
  lemma ThreeParts(l: string, b: string, m: string, t: string)
    requires m == "" || m == "\n"
    ensures var r := (if m == "" then l + b else l + b + m) + t;
            && r == l + b + m + t
            && |l| + |b| + |t| <= |r| <= |l| + |b| + 1 + |t|
            && StartsWith(r, l) && EndsWith(r, t)
            && r[..|l| + |b|] == l + b && r[|l| + |b|..|r| - |t|] in {"", "\n"}
  {
    var r := l + b + m + t;
    if m == "" {
      assert l + b + m == l + b;
    }
    assert r[..|l|] == l;
    assert r[..|l| + |b|] == l + b;
    assert r[|l| + |b|..|r| - |t|] == m;
    assert r[|r| - |t|..] == t;
  }

  /** The inserted text always ends with a line break. */
  lemma FormattedEndsWithLineBreak(body: string, before: string, after: string)
    ensures EndsWith(FormattedSuggestion(body, before, after), "\n")
  {
    var led := LeadingSeparator(before) + body;
    var ended := if EndsWith(led, "\n") then led else led + "\n";
    var trail := TrailingSeparator(after);
    var r := ended + trail;
    EndsWithBreaks(led);
    EndsWithBreaks(ended);
    EndsWithBreaks(r);
    if trail != [] {
      assert r[|r| - 1] == trail[|trail| - 1];
    } else {
      assert r == ended;
    }
  }

  /** Only line breaks are added around the body. */
  lemma FormattedKeepsBody(body: string, before: string, after: string)
    ensures NonSpace(FormattedSuggestion(body, before, after)) == NonSpace(body)
  {
    var lead := LeadingSeparator(before);
    var led := lead + body;
    var ended := if EndsWith(led, "\n") then led else led + "\n";
    var trail := TrailingSeparator(after);
    assert NonSpace(led) == NonSpace(body) by {
      NonSpaceAppend(lead, body);
      NonSpaceOfBlank(lead);
    }
    assert NonSpace(ended) == NonSpace(body) by {
      if ended != led {
        NonSpaceAppend(led, "\n");
        NonSpaceOfBlank("\n");
      }
    }
    NonSpaceAppend(ended, trail);
    NonSpaceOfBlank(trail);
  }

  /** The suggestion normalised and cut into lines keeps every visible character of the text, in order. */
  lemma SuggestionBodyKeepsText(text: string)
    ensures NonSpace(SuggestionBody(text)) == NonSpace(Without(text, ZeroWidthSpace))
  {
    NormalizeKeepsContent(Trim(text));
    TrimKeepsVisible(text);
  }

  /** The inserted text holds exactly the visible characters of the suggestion, in order. */
  lemma FormattedKeepsText(text: string, before: string, after: string)
    ensures NonSpace(FormattedSuggestion(SuggestionBody(text), before, after)) == NonSpace(Without(text, ZeroWidthSpace))
  {
    FormattedKeepsBody(SuggestionBody(text), before, after);
    SuggestionBodyKeepsText(text);
  }

  /** The trimming, normalising and line-breaking steps of `prepareFormattedSuggestion`. */
  method PrepareBody(text: string) returns (body: string)
    ensures body == SuggestionBody(text)
  {
    var trimmed := Trim(text);
    var normalized := Normalize(trimmed);
    body := ApplyNaturalLineBreaks(normalized);
  }

  /** The separator steps of `prepareFormattedSuggestion`. */
  method Arrange(body: string, before: string, after: string) returns (content: string)
    ensures content == FormattedSuggestion(body, before, after)
  {
    var result := body;
    if HasContent(before) {
      if EndsWith(before, BlankLine) {
      } else if EndsWith(before, "\n") {
        result := "\n" + result;
      } else {
        result := "\n\n" + result;
      }
    }
    assert result == LeadingSeparator(before) + body;
    ghost var led := result;

    if !EndsWith(result, "\n") {
      result := result + "\n";
    }
    assert result == if EndsWith(led, "\n") then led else led + "\n";
    ghost var ended := result;

    if HasContent(after) {
      if StartsWith(after, BlankLine) {
      } else if StartsWith(after, "\n") {
        result := result + "\n";
      } else {
        result := result + "\n\n";
      }
    }
    assert result == ended + TrailingSeparator(after);
    content := result;
  }

  /** `prepareFormattedSuggestion` with the text around the caret given. */
  method PrepareFormattedSuggestion(text: string, before: string, after: string) returns (content: string)
    ensures content == FormattedSuggestion(SuggestionBody(text), before, after)
  {
    var body := PrepareBody(text);
    content := Arrange(body, before, after);
  }
}

=== FILE: json.dfy ===
/**
 * The values `JSON.parse` and `chrome.storage` hand to the extension, and the
 * two JavaScript conversions the code applies to them: truthiness and
 * `String(value)`.  The parser itself is not modelled: modules that parse
 * take it as a function parameter `string -> Option<Json>` (None: it threw).
 */
module Json {
  import opened Wrappers
  import opened Text

  datatype Json =
    | JNull
    | JBool(b: bool)
      /** A number, by its `String()` form and whether it is truthy (neither 0 nor NaN). */
    | JNumber(text: string, nonZero: bool)
    | JString(s: string)
    | JArray(items: seq<Json>)
    | JObject(fields: map<string, Json>)

  /** JavaScript truthiness (`if (v)`, `v || d`, `Boolean(v)`). */
  predicate Truthy(v: Json) {
    match v
    case JNull => false
    case JBool(b) => b
    case JNumber(_, nonZero) => nonZero
    case JString(s) => s != ""
    case JArray(_) => true
    case JObject(_) => true
  }

  /** `String(v)`; an array joins its elements with "," and shows `null` as "". */
  function Display(v: Json): string
    decreases v, 1
  {
    match v
    case JNull => "null"
    case JBool(b) => if b then "true" else "false"
    case JNumber(t, _) => t
    case JString(s) => s
    case JArray(items) => DisplayItems(v, 0)
    case JObject(_) => "[object Object]"
  }

  function DisplayItems(v: Json, from: nat): string
    requires v.JArray? && from <= |v.items|
    decreases v, 0, |v.items| - from
  {
    if from == |v.items| then ""
    else
      var item := v.items[from];
      assert item in v.items;
      (if item.JNull? then "" else Display(item))
      + (if from + 1 < |v.items| then "," else "")
      + DisplayItems(v, from + 1)
  }

  /** The field `name` of an object, if the value is an object that has it (`v?.name`). */
  function Field(v: Json, name: string): Option<Json> {
    if v.JObject? && name in v.fields then Some(v.fields[name]) else None
  }

  /** The field `name` when it holds a string (`typeof v.name === 'string'`). */
  function StringField(v: Json, name: string): Option<string> {
    match Field(v, name)
    case Some(JString(s)) => Some(s)
    case _ => None
  }

  /** The field `name` when it holds an array (`Array.isArray(v.name)`). */
  function ArrayField(v: Json, name: string): Option<seq<Json>> {
    match Field(v, name)
    case Some(JArray(items)) => Some(items)
    case _ => None
  }

  /** The field `name` when it holds a boolean (`typeof v.name === 'boolean'`). */
  function BoolField(v: Json, name: string): Option<bool> {
    match Field(v, name)
    case Some(JBool(b)) => Some(b)
    case _ => None
  }

  /** Whether the field `name` is present and truthy (`Boolean(v.name)`). */
  predicate TruthyField(v: Json, name: string) {
    Field(v, name).Some? && Truthy(Field(v, name).value)
  }

  function HexDigit(d: nat): char
    requires d < 16
  {
    "0123456789abcdef"[d]
  }

  /** One character of a string literal as `JSON.stringify` writes it. */
  function EscapeJsonChar(c: char): string {
    if c == '"' then "\\\""
    else if c == '\\' then "\\\\"
    else if c == '\n' then "\\n"
    else if c == '\r' then "\\r"
    else if c == '\t' then "\\t"
    else if c == '\U{8}' then "\\b"
    else if c == '\U{C}' then "\\f"
    else if (c as int) < 0x20 then "\\u00" + [HexDigit(c as int / 16), HexDigit(c as int % 16)]
    else [c]
  }

  function EscapeJsonString(s: string): string {
    if s == [] then "" else EscapeJsonChar(s[0]) + EscapeJsonString(s[1..])
  }

  /** `JSON.stringify(xs)` for an array of strings. */
  function SerializeStrings(xs: seq<string>): (r: string)
    ensures |r| >= 2 && r[0] == '[' && r[|r| - 1] == ']'
  {
    "[" + JoinWith(seq(|xs|, k requires 0 <= k < |xs| => "\"" + EscapeJsonString(xs[k]) + "\""), ",") + "]"
  }

  /** The array value a list of strings stands for. */
  function StringsToJson(xs: seq<string>): (r: seq<Json>)
    ensures |r| == |xs|
    ensures forall k :: 0 <= k < |xs| ==> r[k] == JString(xs[k])
  {
    seq(|xs|, k requires 0 <= k < |xs| => JString(xs[k]))
  }
}

=== FILE: nodepath.dfy ===
/**
 * How the content script remembers a caret or selection inside the compose
 * window (src/content-script.js): a node is recorded as the child indices
 * leading to it from the compose root, and found again by following them.
 * The DOM is abstract: numbered nodes, each with at most one parent and a
 * list of children, text nodes carrying their text length.
 */
module NodePaths {
  import opened Wrappers

  type Node = nat

  datatype Dom = Dom(
    parent: map<Node, Node>,
    children: map<Node, seq<Node>>,
    textLength: map<Node, nat>,
    depth: map<Node, nat>)

  /** `node.childNodes`, empty for a node the map does not list. */
  function ChildrenOf(dom: Dom, n: Node): seq<Node> {
    if n in dom.children then dom.children[n] else []
  }

  /**
   * A document: parent and child lists agree, and every parent lies
   * strictly shallower than its child, so walking up always ends.
   */
  predicate WellFormed(dom: Dom) {
    && (forall n :: n in dom.parent ==> n in dom.depth && dom.parent[n] in dom.depth && dom.depth[dom.parent[n]] < dom.depth[n])
    && (forall n :: n in dom.parent ==> n in ChildrenOf(dom, dom.parent[n]))
    && (forall p, i :: p in dom.children && 0 <= i < |dom.children[p]| ==>
          dom.children[p][i] in dom.parent && dom.parent[dom.children[p][i]] == p)
  }

  /** How far up the parent chain can still go from `n`. */
  function Height(dom: Dom, n: Node): nat {
    if n in dom.depth then dom.depth[n] + 1 else 0
  }

  /** `Array.prototype.indexOf`: the first index holding `x`, or -1. */
  function IndexOf(s: seq<Node>, x: Node): (r: int)
    ensures r == -1 <==> x !in s
    ensures 0 <= r ==> r < |s| && s[r] == x && forall j :: 0 <= j < r ==> s[j] != x
    ensures -1 <= r
  {
    if s == [] then -1
    else if s[0] == x then 0
    else
      var i := IndexOf(s[1..], x);
      if i == -1 then -1 else i + 1
  }

  /** `n` is `root` or lies below it (`isNodeWithin`). */
  predicate Within(dom: Dom, n: Node, root: Node)
    requires WellFormed(dom)
    decreases Height(dom, n)
  {
    n == root || (n in dom.parent && Within(dom, dom.parent[n], root))
  }

  /** `isNodeWithin`: walks up the parents until it meets `root` or runs out. */
  method IsNodeWithin(dom: Dom, node: Option<Node>, root: Node) returns (within: bool)
    requires WellFormed(dom)
    ensures within <==> node.Some? && Within(dom, node.value, root)
  {
    var current := node;
    while current.Some?
      invariant node.Some? && Within(dom, node.value, root) <==> current.Some? && Within(dom, current.value, root)
      decreases if current.Some? then Height(dom, current.value) + 1 else 0
    {
      var c := current.value;
      if c == root {
        return true;
      }
      if c in dom.parent {
        assert dom.depth[dom.parent[c]] < dom.depth[c];
        current := Some(dom.parent[c]);
      } else {
        current := None;
      }
    }
    return false;
  }

  /** A path extended by further indices below its end. */
  function Extend(path: Option<seq<int>>, suffix: seq<int>): Option<seq<int>> {
    if path.None? then None else Some(path.value + suffix)
  }

  /**
   * The path `buildNodePath` records: from `root` down to `n`, the index of
   * each node among its parent's children; None when `n` is not below `root`.
   */
  function PathFrom(dom: Dom, n: Node, root: Node): Option<seq<int>>
    requires WellFormed(dom)
    decreases Height(dom, n)
  {
    if n == root then Some([])
    else if n !in dom.parent then None
    else Extend(PathFrom(dom, dom.parent[n], root), [IndexOf(ChildrenOf(dom, dom.parent[n]), n)])
  }

  /** `buildNodePath` for a possibly null node. */
  function NodePath(dom: Dom, node: Option<Node>, root: Node): Option<seq<int>>
    requires WellFormed(dom)
  {
    if node.None? then None else PathFrom(dom, node.value, root)
  }

  /** One step down: `childNodes[index]` when the index is in range. */
  function Child(dom: Dom, n: Node, index: int): (r: Option<Node>)
    ensures r.Some? <==> 0 <= index < |ChildrenOf(dom, n)|
  {
    if 0 <= index < |ChildrenOf(dom, n)| then Some(ChildrenOf(dom, n)[index]) else None
  }

  /** The node a path leads to from `from`, or None when an index is out of range. */
  function Traverse(dom: Dom, from: Node, path: seq<int>): Option<Node>
    decreases |path|
  {
    if path == [] then Some(from)
    else
      match Child(dom, from, path[0])
      case None => None
      case Some(next) => Traverse(dom, next, path[1..])
  }

  /** `buildNodePath`: climbs from the node to the root, putting each index in front. */
  method BuildNodePath(dom: Dom, node: Option<Node>, root: Node) returns (path: Option<seq<int>>)
    requires WellFormed(dom)
    ensures path == NodePath(dom, node, root)
  {
    var steps: seq<int> := [];
    var current := node;
    var whole := NodePath(dom, node, root);
    assert whole.Some? ==> whole.value + [] == whole.value;
    while current.Some? && current.value != root
      invariant NodePath(dom, node, root) == Extend(NodePath(dom, current, root), steps)
      decreases if current.Some? then Height(dom, current.value) else 0
    {
      var c := current.value;
      if c !in dom.parent {
        return None;
      }
      var p := dom.parent[c];
      assert dom.depth[p] < dom.depth[c];
      var index := IndexOf(ChildrenOf(dom, p), c);
      ExtendTwice(PathFrom(dom, p, root), [index], steps);
      steps := [index] + steps;
      current := Some(p);
    }
    if current.None? {
      return None;
    }
    assert [] + steps == steps;
    return Some(steps);
  }

  lemma ExtendTwice(path: Option<seq<int>>, a: seq<int>, b: seq<int>)
    ensures Extend(Extend(path, a), b) == Extend(path, a + b)
  {
    if path.Some? {
      assert path.value + a + b == path.value + (a + b);
    }
  }

  /** `traversePath`: follows the indices from the root, stopping at the first one out of range. */
  method TraversePath(dom: Dom, root: Node, path: seq<int>) returns (node: Option<Node>)
    ensures node == Traverse(dom, root, path)
  {
    var current := root;
    for i := 0 to |path|
      invariant Traverse(dom, root, path) == Traverse(dom, current, path[i..])
    {
      var index := path[i];
      var children := ChildrenOf(dom, current);
      if index < 0 || index >= |children| {
        return None;
      }
      assert path[i..][1..] == path[i + 1..];
      current := children[index];
    }
    assert path[|path|..] == [];
    return Some(current);
  }

  /** A path exists exactly for the nodes within the root. */
  lemma {:induction false} PathIffWithin(dom: Dom, n: Node, root: Node)
    requires WellFormed(dom)
    ensures PathFrom(dom, n, root).Some? <==> Within(dom, n, root)
    decreases Height(dom, n)
  {
    if n != root && n in dom.parent {
      PathIffWithin(dom, dom.parent[n], root);
    }
  }

  /** Following a path extended by one index takes one more step from where the path led. */
  lemma {:induction false} TraverseSnoc(dom: Dom, from: Node, path: seq<int>, index: int)
    ensures Traverse(dom, from, path + [index]) ==
      (if Traverse(dom, from, path).Some? then Child(dom, Traverse(dom, from, path).value, index) else None)
    decreases |path|
  {
    if path == [] {
      assert [] + [index] == [index];
      assert [index][1..] == [];
    } else {
      assert (path + [index])[0] == path[0];
      assert (path + [index])[1..] == path[1..] + [index];
      var next := Child(dom, from, path[0]);
      if next.Some? {
        TraverseSnoc(dom, next.value, path[1..], index);
      }
    }
  }

  /** Following the recorded path from the root finds the node again. */
  lemma {:induction false} PathRoundTrip(dom: Dom, n: Node, root: Node)
    requires WellFormed(dom)
    requires PathFrom(dom, n, root).Some?
    ensures Traverse(dom, root, PathFrom(dom, n, root).value) == Some(n)
    decreases Height(dom, n)
  {
    if n != root {
      var p := dom.parent[n];
      var up := PathFrom(dom, p, root);
      var index := IndexOf(ChildrenOf(dom, p), n);
      PathRoundTrip(dom, p, root);
      TraverseSnoc(dom, root, up.value, index);
      assert index >= 0;
    }
  }

  /** A live range inside the compose window: its two boundary points. */
  datatype Boundaries = Boundaries(startNode: Node, startOffset: nat, endNode: Node, endOffset: nat)

  /** A range stored as paths from the compose root. */
  datatype SerializedRange = SerializedRange(startPath: seq<int>, startOffset: nat, endPath: seq<int>, endOffset: nat)

  /** `getNodeLength`: characters of a text node, otherwise the number of children. */
  function NodeLength(dom: Dom, n: Node): (len: nat)
    ensures n !in dom.textLength ==> len == |ChildrenOf(dom, n)|
    ensures n in dom.textLength ==> len == dom.textLength[n]
  {
    if n in dom.textLength then dom.textLength[n] else |ChildrenOf(dom, n)|
  }

  /** `serializeRange`: both boundaries as paths, or None when either lies outside the root. */
  method SerializeRange(dom: Dom, range: Boundaries, root: Node) returns (r: Option<SerializedRange>)
    requires WellFormed(dom)
    ensures r.Some? <==> Within(dom, range.startNode, root) && Within(dom, range.endNode, root)
    ensures r.Some? ==>
      && Some(r.value.startPath) == PathFrom(dom, range.startNode, root) && r.value.startOffset == range.startOffset
      && Some(r.value.endPath) == PathFrom(dom, range.endNode, root) && r.value.endOffset == range.endOffset
  {
    PathIffWithin(dom, range.startNode, root);
    PathIffWithin(dom, range.endNode, root);
    var startPath := BuildNodePath(dom, Some(range.startNode), root);
    var endPath := BuildNodePath(dom, Some(range.endNode), root);
    if startPath.None? || endPath.None? {
      return None;
    }
    return Some(SerializedRange(startPath.value, range.startOffset, endPath.value, range.endOffset));
  }

  /**
   * `deserializeRange`: both paths followed from the root, each offset
   * clamped to its node's length; None when there is nothing stored or a
   * path no longer leads anywhere.
   */
  method DeserializeRange(dom: Dom, root: Node, serialized: Option<SerializedRange>) returns (r: Option<Boundaries>)
    ensures r.Some? <==>
      && serialized.Some?
      && Traverse(dom, root, serialized.value.startPath).Some?
      && Traverse(dom, root, serialized.value.endPath).Some?
    ensures r.Some? ==>
      && Some(r.value.startNode) == Traverse(dom, root, serialized.value.startPath)
      && Some(r.value.endNode) == Traverse(dom, root, serialized.value.endPath)
      && r.value.startOffset <= NodeLength(dom, r.value.startNode)
      && r.value.endOffset <= NodeLength(dom, r.value.endNode)
      && (serialized.value.startOffset <= NodeLength(dom, r.value.startNode) ==> r.value.startOffset == serialized.value.startOffset)
      && (serialized.value.endOffset <= NodeLength(dom, r.value.endNode) ==> r.value.endOffset == serialized.value.endOffset)
      && (serialized.value.startOffset > NodeLength(dom, r.value.startNode) ==> r.value.startOffset == NodeLength(dom, r.value.startNode))
      && (serialized.value.endOffset > NodeLength(dom, r.value.endNode) ==> r.value.endOffset == NodeLength(dom, r.value.endNode))
  {
    if serialized.None? {
      return None;
    }
    var startNode := TraversePath(dom, root, serialized.value.startPath);
    var endNode := TraversePath(dom, root, serialized.value.endPath);
    if startNode.None? || endNode.None? {
      return None;
    }
    var startOffset := Min(serialized.value.startOffset, NodeLength(dom, startNode.value));
    var endOffset := Min(serialized.value.endOffset, NodeLength(dom, endNode.value));
    return Some(Boundaries(startNode.value, startOffset, endNode.value, endOffset));
  }

  function Min(a: nat, b: nat): (m: nat)
    ensures m <= a && m <= b && (m == a || m == b)
  {
    if a <= b then a else b
  }

  /**
   * Both ends of a range inside the root have a stored path, and following
   * each path from the root in the same document finds that end's node
   * again.  (The offsets travel beside the paths: SerializeRange stores
   * them as they are and DeserializeRange clamps them to the node length.)
   */
  lemma RangeRoundTrip(dom: Dom, range: Boundaries, root: Node)
    requires WellFormed(dom)
    requires Within(dom, range.startNode, root) && Within(dom, range.endNode, root)
    ensures PathFrom(dom, range.startNode, root).Some? && PathFrom(dom, range.endNode, root).Some?
    ensures Traverse(dom, root, PathFrom(dom, range.startNode, root).value) == Some(range.startNode)
    ensures Traverse(dom, root, PathFrom(dom, range.endNode, root).value) == Some(range.endNode)
  {
    PathIffWithin(dom, range.startNode, root);
    PathIffWithin(dom, range.endNode, root);
    PathRoundTrip(dom, range.startNode, root);
    PathRoundTrip(dom, range.endNode, root);
  }
}

=== FILE: popup.dfy ===
/**
 * The options page's style categories (src/popup.js): the stored value is
 * normalised into a list of named categories, legacy audience/scene data is
 * migrated into that list, and the editor adds, renames and removes entries
 * in place.  `crypto.randomUUID` is an id supply given as a parameter.
 */
module Popup {
  import opened Wrappers
  import opened Text
  import opened Json
  import Background

  const MaxCategories: nat := 12
  const DefaultSuggestionCount: nat := 3
  const ExampleSeparator: string := "\n\n---\n\n"
  const PartSeparator: string := "\n\n"

  /**
   * `clampCount`: NaN gives the default 3, anything else is clamped into
   * [1, 5].  The value is the integer `Math.round(Number(value))` makes of it.
   */
  function ClampCount(value: Option<int>): (count: nat)
    ensures 1 <= count <= 5
    ensures value == None ==> count == DefaultSuggestionCount
    ensures value.Some? && 1 <= value.value <= 5 ==> count == value.value
    ensures value.Some? && value.value < 1 ==> count == 1
    ensures value.Some? && value.value > 5 ==> count == 5
  {
    if value == None then DefaultSuggestionCount
    else if value.value < 1 then 1
    else if value.value > 5 then 5
    else value.value
  }

  /**
   * The options page and the background worker clamp the stored count the
   * same way except at 0, which the page turns into 1 and the worker into 3.
   */
  lemma ClampCountAgreesWithWorker(value: Option<int>)
    ensures value != Some(0) ==> ClampCount(value) == Background.ResolveCount(value)
    ensures ClampCount(Some(0)) == 1 && Background.ResolveCount(Some(0)) == 3
  {
  }

  // ---------------------------------------------------------------------------
  // Categories
  // ---------------------------------------------------------------------------

  datatype Category = Category(id: string, name: string, content: string, useInLightning: bool)

  /** A category name as every code path stores it: trimmed and not empty. */
  predicate GoodName(name: string) {
    name != "" && IsTrimmed(name)
  }

  predicate AllNamed(categories: seq<Category>) {
    forall c :: c in categories ==> GoodName(c.name)
  }

  /** The id of a stored category: `raw.id || crypto.randomUUID()`. */
  function StoredId(raw: Json, freshId: string): string {
    if TruthyField(raw, "id") then Display(Field(raw, "id").value) else freshId
  }

  /**
   * `normalizeCategory`: None unless the stored name is a string with
   * content; the name is trimmed, the content loses its trailing whitespace,
   * and `useInLightning` is kept only when it is a boolean.
   */
  function NormalizeCategory(raw: Json, freshId: string): (r: Option<Category>)
    ensures r.Some? <==> StringField(raw, "name").Some? && HasContent(StringField(raw, "name").value)
    ensures r.Some? ==>
              && r.value.name == Trim(StringField(raw, "name").value)
              && GoodName(r.value.name)
              && r.value.content == (if StringField(raw, "content").Some? then TrimEnd(StringField(raw, "content").value) else "")
              && r.value.useInLightning == (BoolField(raw, "useInLightning") == Some(true))
              && r.value.id == StoredId(raw, freshId)
  {
    var name := StringField(raw, "name");
    if name.None? || Trim(name.value) == "" then
      TrimEmptyIffBlank(if name.Some? then name.value else "");
      None
    else
      TrimEmptyIffBlank(name.value);
      var content := StringField(raw, "content");
      Some(Category(
        StoredId(raw, freshId),
        Trim(name.value),
        if content.Some? then TrimEnd(content.value) else "",
        BoolField(raw, "useInLightning") == Some(true)))
  }

  /** `.map(normalizeCategory)`: entry `k` draws `freshId(k)` if it needs an id. */
  function NormalizeEachCategory(raws: seq<Json>, freshId: nat -> string): (r: seq<Option<Category>>)
    ensures |r| == |raws|
    ensures forall k :: 0 <= k < |raws| ==> r[k] == NormalizeCategory(raws[k], freshId(k))
  {
    seq(|raws|, k requires 0 <= k < |raws| => NormalizeCategory(raws[k], freshId(k)))
  }

  /**
   * `.map(normalizeCategory).filter(Boolean)` from entry `from` on: the
   * valid entries in their stored order, one category for each (by
   * KeepSomeUnique this is exactly `KeepSome` of the mapped entries).
   */
  function NormalizeCategories(raws: seq<Json>, freshId: nat -> string, from: nat): (r: seq<Category>)
    requires from <= |raws|
    ensures var normalized := NormalizeEachCategory(raws, freshId)[from..];
            && IsSubsequence(SomeOf(r), normalized)
            && |r| == |normalized| - multiset(normalized)[None]
    ensures AllNamed(r)
    decreases |raws| - from
  {
    if from == |raws| then []
    else
      var rest := NormalizeCategories(raws, freshId, from + 1);
      var normalized := NormalizeEachCategory(raws, freshId);
      var here := normalized[from];
      assert normalized[from..] == [here] + normalized[from + 1..];
      KeepSomeStep(rest, here, normalized[from + 1..]);
      if here.Some? then [here.value] + rest else rest
  }

  /** Every stored entry with a usable name survives normalisation. */
  lemma {:induction false} NormalizeCategoriesKeepsValid(raws: seq<Json>, freshId: nat -> string, from: nat, k: nat)
    requires from <= k < |raws|
    requires NormalizeCategory(raws[k], freshId(k)).Some?
    ensures NormalizeCategory(raws[k], freshId(k)).value in NormalizeCategories(raws, freshId, from)
    decreases k - from
  {
    var rest := NormalizeCategories(raws, freshId, from + 1);
    var here := NormalizeCategory(raws[from], freshId(from));
    assert NormalizeCategories(raws, freshId, from) == (if here.Some? then [here.value] + rest else rest);
    if from < k {
      NormalizeCategoriesKeepsValid(raws, freshId, from + 1, k);
    }
  }

  const DefaultCategoryContent: string :=
    "○○テレビ ○○ディレクター様\n\nいつも○○（タレント名）をご厚遇いただきありがとうございます。\n来週の情報番組出演にあたり、当日の進行台本と衣装のカラー指定を事前にご共有いただけますでしょうか。\nスタジオ入りは放送開始60分前を予定しておりますので、台本の最新版を前日19時までにいただけると助かります。\n\nお忙しいところ恐れ入りますが、どうぞよろしくお願いいたします。"

  const DefaultCategoryName: string := "取引先への依頼"

  /** `createDefaultStyleExamples`: the one built-in category. */
  function DefaultCategories(): (r: seq<Category>)
    ensures |r| == 1 && AllNamed(r) && r[0].useInLightning
  {
    assert GoodName(DefaultCategoryName);
    [Category("cat-request", DefaultCategoryName, DefaultCategoryContent, true)]
  }

  // ---------------------------------------------------------------------------
  // Legacy audience/scene data
  // ---------------------------------------------------------------------------

  /** One legacy example; an absent field is None. */
  datatype LegacyExample = LegacyExample(greeting: Option<string>, body: Option<string>, closing: Option<string>)

  /** A legacy scene; `examples` is [] when the stored value is not an array. */
  datatype LegacyScene = LegacyScene(name: Option<string>, examples: seq<LegacyExample>)

  /** A legacy audience; `scenes` is [] when absent (`audience.scenes || []`). */
  datatype LegacyAudience = LegacyAudience(name: Option<string>, scenes: seq<LegacyScene>)

  /** What `chrome.storage` holds under `styleExamples`. */
  datatype StoredStyles =
    | NotAnObject
      /** `categories` and `audiences` are Some when they hold arrays. */
    | StyleObject(categories: Option<seq<Json>>, audiences: Option<seq<LegacyAudience>>)

  /** A part of an example is kept, trimmed, when it has content. */
  function TrimmedPart(part: Option<string>): string {
    if part.Some? then Trim(part.value) else ""
  }

  /** The greeting, body and closing that have content, trimmed and joined by a blank line. */
  function ExampleText(example: LegacyExample): string {
    JoinWith(FilterNonEmpty([TrimmedPart(example.greeting), TrimmedPart(example.body), TrimmedPart(example.closing)]), PartSeparator)
  }

  /** The texts of the examples that have any part, in order. */
  function ExampleTexts(examples: seq<LegacyExample>): (r: seq<string>)
    ensures |r| <= |examples|
    ensures forall x :: x in r ==> x != ""
  {
    FilterNonEmpty(seq(|examples|, k requires 0 <= k < |examples| => ExampleText(examples[k])))
  }

  /** An example's text keeps exactly its parts with content, trimmed, in order. */
  lemma ExampleTextParts(example: LegacyExample)
    ensures var parts := FilterNonEmpty([TrimmedPart(example.greeting), TrimmedPart(example.body), TrimmedPart(example.closing)]);
            && |parts| <= 3
            && (forall x :: x in parts ==> x != "" && IsTrimmed(x))
            && (ExampleText(example) == "" <==> parts == [])
  {
    var parts := FilterNonEmpty([TrimmedPart(example.greeting), TrimmedPart(example.body), TrimmedPart(example.closing)]);
    if parts != [] {
      JoinNonEmpty(parts, PartSeparator);
    }
  }

  /** Joining a non-empty list whose first entry is not empty gives a non-empty string. */
  lemma JoinNonEmpty(xs: seq<string>, sep: string)
    requires xs != [] && xs[0] != ""
    ensures JoinWith(xs, sep) != ""
  {
    if |xs| > 1 {
      assert JoinWith(xs, sep) == xs[0] + sep + JoinWith(xs[1..], sep);
    }
  }

  /**
   * The category name of a scene: its own trimmed name when that has
   * content, else the audience's name trimmed, else "".
   */
  function SceneName(audience: LegacyAudience, scene: LegacyScene): (r: string)
    ensures IsTrimmed(r)
  {
    if scene.name.Some? && Trim(scene.name.value) != "" then Trim(scene.name.value)
    else if audience.name.Some? then Trim(audience.name.value) else ""
  }

  /** The scene's own name wins whenever it has content; only then is the audience's name used. */
  lemma SceneNamePrecedence(audience: LegacyAudience, scene: LegacyScene)
    ensures scene.name.Some? && HasContent(scene.name.value) ==> SceneName(audience, scene) == Trim(scene.name.value)
    ensures !(scene.name.Some? && HasContent(scene.name.value)) ==>
              SceneName(audience, scene) == (if audience.name.Some? then Trim(audience.name.value) else "")
  {
    if scene.name.Some? {
      TrimEmptyIffBlank(scene.name.value);
    }
  }

  /** One scene as the migration sees it: its category name and its example texts. */
  datatype SceneEntry = SceneEntry(name: string, texts: seq<string>)

  /** Scene `k` of an audience as the migration sees it (an empty entry past the end). */
  function SceneEntryAt(audience: LegacyAudience, k: nat): (r: SceneEntry)
    ensures IsTrimmed(r.name)
  {
    if k < |audience.scenes| then
      SceneEntry(SceneName(audience, audience.scenes[k]), ExampleTexts(audience.scenes[k].examples))
    else SceneEntry("", [])
  }

  function SceneReader(audience: LegacyAudience): nat -> SceneEntry {
    (k: nat) => SceneEntryAt(audience, k)
  }

  /** `[f(from), ..., f(to - 1)]`. */
  function MapRange<T>(f: nat -> T, from: nat, to: nat): (r: seq<T>)
    requires from <= to
    ensures |r| == to - from
    decreases (to as int) - from
  {
    if from == to then [] else [f(from)] + MapRange(f, from + 1, to)
  }

  lemma {:induction false} MapRangeAt<T>(f: nat -> T, from: nat, to: nat, k: nat)
    requires from <= k < to
    ensures MapRange(f, from, to)[k - from] == f(k)
    decreases k - from
  {
    if from < k {
      MapRangeAt(f, from + 1, to, k);
    }
  }

  /** A property every `f(k)` has holds of every member of the range. */
  lemma {:induction false} MapRangeAll<T>(f: nat -> T, from: nat, to: nat, p: T -> bool)
    requires from <= to
    requires forall k :: from <= k < to ==> p(f(k))
    ensures forall x :: x in MapRange(f, from, to) ==> p(x)
    decreases (to as int) - from
  {
    if from < to {
      MapRangeAll(f, from + 1, to, p);
    }
  }

  /** The scenes of an audience, in order. */
  function AudienceScenes(audience: LegacyAudience): (r: seq<SceneEntry>)
    ensures |r| == |audience.scenes|
  {
    MapRange(SceneReader(audience), 0, |audience.scenes|)
  }

  lemma AudienceScenesNamesTrimmed(audience: LegacyAudience)
    ensures forall s :: s in AudienceScenes(audience) ==> IsTrimmed(s.name)
  {
    MapRangeAll(SceneReader(audience), 0, |audience.scenes|, (e: SceneEntry) => IsTrimmed(e.name));
  }

  /** All scenes of all audiences, in the order the nested `forEach` visits them. */
  function AllScenes(audiences: seq<LegacyAudience>): seq<SceneEntry> {
    if audiences == [] then []
    else AllScenes(audiences[..|audiences| - 1]) + AudienceScenes(audiences[|audiences| - 1])
  }

  lemma {:induction false} AllScenesNamesTrimmed(audiences: seq<LegacyAudience>)
    ensures forall s :: s in AllScenes(audiences) ==> IsTrimmed(s.name)
  {
    if audiences != [] {
      AllScenesNamesTrimmed(audiences[..|audiences| - 1]);
      AudienceScenesNamesTrimmed(audiences[|audiences| - 1]);
    }
  }

  /** The two fields categories are looked up by. */
  datatype CategoryKey = ByName | ById

  function KeyOf(c: Category, key: CategoryKey): string {
    match key
    case ByName => c.name
    case ById => c.id
  }

  /**
   * Index of the first category whose `key` field is `value`, or
   * `|categories|`: `categories.find(c => c.name === name)` and
   * `findIndex(c => c.id === id)`.
   */
  function IndexOfKey(categories: seq<Category>, key: CategoryKey, value: string): (i: nat)
    ensures i <= |categories|
    ensures i < |categories| ==> KeyOf(categories[i], key) == value
    ensures forall j :: 0 <= j < i ==> KeyOf(categories[j], key) != value
  {
    if categories == [] then 0
    else if KeyOf(categories[0], key) == value then 0
    else 1 + IndexOfKey(categories[1..], key, value)
  }

  /** `target.content ? `${target.content}\n\n---\n\n${block}` : block` */
  function AppendBlock(content: string, block: string): string {
    if content == "" then block else content + ExampleSeparator + block
  }

  /**
   * One scene of the migration: a scene without a name is skipped; a name
   * already present gets the scene's examples appended to its content;
   * a new name becomes a new category (with or without examples).
   */
  function ApplyScene(categories: seq<Category>, scene: SceneEntry, freshId: nat -> string): seq<Category>
  {
    if scene.name == "" then categories
    else
      var i := IndexOfKey(categories, ByName, scene.name);
      if i < |categories| then
        if scene.texts == [] then categories
        else categories[i := categories[i].(content := AppendBlock(categories[i].content, JoinWith(scene.texts, ExampleSeparator)))]
      else
        categories + [Category(freshId(|categories|), scene.name,
                               if scene.texts == [] then "" else JoinWith(scene.texts, ExampleSeparator), false)]
  }

  /** The migration as a left fold of `ApplyScene` over the scenes, starting from `start`. */
  function Migrate(start: seq<Category>, scenes: seq<SceneEntry>, freshId: nat -> string): seq<Category> {
    if scenes == [] then start
    else ApplyScene(Migrate(start, scenes[..|scenes| - 1], freshId), scenes[|scenes| - 1], freshId)
  }

  lemma MigrateSnoc(start: seq<Category>, scenes: seq<SceneEntry>, scene: SceneEntry, freshId: nat -> string)
    ensures Migrate(start, scenes + [scene], freshId) == ApplyScene(Migrate(start, scenes, freshId), scene, freshId)
  {
    assert (scenes + [scene])[..|scenes|] == scenes;
  }

  /** Folding over two runs of scenes is folding over the second from where the first left off. */
  lemma {:induction false} MigrateAppend(start: seq<Category>, xs: seq<SceneEntry>, ys: seq<SceneEntry>, freshId: nat -> string)
    ensures Migrate(start, xs + ys, freshId) == Migrate(Migrate(start, xs, freshId), ys, freshId)
    decreases |ys|
  {
    if ys == [] {
      assert xs + ys == xs;
    } else {
      var front := ys[..|ys| - 1];
      var last := ys[|ys| - 1];
      assert ys == front + [last];
      assert xs + ys == (xs + front) + [last];
      MigrateAppend(start, xs, front, freshId);
      MigrateSnoc(start, xs + front, last, freshId);
      MigrateSnoc(Migrate(start, xs, freshId), front, last, freshId);
    }
  }

  /**
   * One more scene: a scene without a name changes nothing; a name already
   * present keeps every category in place and appends the scene's examples
   * to that one's content, after the separator unless the content was empty
   * (then the examples become the content); a new name adds one category
   * at the end, not used for lightning replies.
   */
  lemma MigrateMergesByName(start: seq<Category>, scenes: seq<SceneEntry>, scene: SceneEntry, freshId: nat -> string)
    ensures var before := Migrate(start, scenes, freshId);
            var after := Migrate(start, scenes + [scene], freshId);
            var i := IndexOfKey(before, ByName, scene.name);
            && (scene.name == "" ==> after == before)
            && (scene.name != "" && i < |before| ==>
                  && |after| == |before|
                  && (forall j :: 0 <= j < |after| && j != i ==> after[j] == before[j])
                  && after[i].id == before[i].id && after[i].name == scene.name
                  && after[i].useInLightning == before[i].useInLightning
                  && (scene.texts == [] ==> after[i].content == before[i].content)
                  && (scene.texts != [] && before[i].content != "" ==>
                        after[i].content == before[i].content + ExampleSeparator + JoinWith(scene.texts, ExampleSeparator))
                  && (scene.texts != [] && before[i].content == "" ==>
                        after[i].content == JoinWith(scene.texts, ExampleSeparator)))
            && (scene.name != "" && i == |before| ==>
                  after == before + [Category(freshId(|before|), scene.name,
                                              if scene.texts == [] then "" else JoinWith(scene.texts, ExampleSeparator), false)])
  {
    MigrateSnoc(start, scenes, scene, freshId);
  }

  /** Every scene with a name is represented by a category of that name. */
  lemma {:induction false} MigrateCoversScenes(start: seq<Category>, scenes: seq<SceneEntry>, freshId: nat -> string)
    ensures forall s :: s in scenes && s.name != "" ==> exists c :: c in Migrate(start, scenes, freshId) && c.name == s.name
  {
    if scenes != [] {
      var front := scenes[..|scenes| - 1];
      var last := scenes[|scenes| - 1];
      MigrateCoversScenes(start, front, freshId);
      MigrateSnoc(start, front, last, freshId);
      assert front + [last] == scenes;
      var before := Migrate(start, front, freshId);
      var after := Migrate(start, scenes, freshId);
      forall s | s in scenes && s.name != ""
        ensures exists c :: c in after && c.name == s.name
      {
        if s == last {
          var i := IndexOfKey(before, ByName, s.name);
          if i < |before| {
            assert after[i].name == s.name;
          } else {
            assert after[|before|].name == s.name;
          }
        } else {
          assert s in front;
          var c :| c in before && c.name == s.name;
          var j :| 0 <= j < |before| && before[j] == c;
          assert after[j].name == c.name;
        }
      }
    }
  }

  /** Category names are pairwise distinct. */
  predicate DistinctNames(categories: seq<Category>) {
    forall i, j :: 0 <= i < j < |categories| ==> categories[i].name != categories[j].name
  }

  /** Each scene step keeps the names good and distinct, and never enables lightning use. */
  lemma ApplySceneKeepsNames(categories: seq<Category>, scene: SceneEntry, freshId: nat -> string)
    requires DistinctNames(categories) && AllNamed(categories)
    requires IsTrimmed(scene.name)
    requires forall c :: c in categories ==> !c.useInLightning
    ensures var r := ApplyScene(categories, scene, freshId);
            DistinctNames(r) && AllNamed(r) && forall c :: c in r ==> !c.useInLightning
  {
    var r := ApplyScene(categories, scene, freshId);
    if scene.name != "" && IndexOfKey(categories, ByName, scene.name) < |categories| {
      assert forall j :: 0 <= j < |r| ==> r[j].name == categories[j].name;
      forall c | c in r ensures GoodName(c.name) && !c.useInLightning {
        var j :| 0 <= j < |r| && r[j] == c;
        assert categories[j] in categories;
      }
    }
  }

  /**
   * Migrating from an empty list gives categories with pairwise distinct,
   * trimmed, non-empty names, none used for lightning replies, and no more
   * of them than scenes.
   */
  lemma {:induction false} MigrateNames(scenes: seq<SceneEntry>, freshId: nat -> string)
    requires forall s :: s in scenes ==> IsTrimmed(s.name)
    ensures var r := Migrate([], scenes, freshId);
            && DistinctNames(r) && AllNamed(r)
            && (forall c :: c in r ==> !c.useInLightning)
            && |r| <= |scenes|
  {
    if scenes != [] {
      var front := scenes[..|scenes| - 1];
      assert forall s :: s in front ==> s in scenes;
      MigrateNames(front, freshId);
      ApplySceneKeepsNames(Migrate([], front, freshId), scenes[|scenes| - 1], freshId);
    }
  }

  /** The body of the inner `forEach` for one scene: merges it into the list built so far. */
  method MergeScene(categories: seq<Category>, scene: SceneEntry, freshId: nat -> string) returns (r: seq<Category>)
    ensures r == ApplyScene(categories, scene, freshId)
  {
    r := categories;
    if scene.name == "" {
      return;
    }
    var existing := IndexOfKey(r, ByName, scene.name);
    if existing < |r| {
      if scene.texts != [] {
        var block := JoinWith(scene.texts, ExampleSeparator);
        r := r[existing := r[existing].(content := AppendBlock(r[existing].content, block))];
      }
    } else {
      var content := if scene.texts != [] then JoinWith(scene.texts, ExampleSeparator) else "";
      r := r + [Category(freshId(|r|), scene.name, content, false)];
    }
  }

  /** The start of the inner `forEach` callback: the scene's name and example texts. */
  method ReadScene(audience: LegacyAudience, j: nat) returns (entry: SceneEntry)
    requires j < |audience.scenes|
    ensures entry == AudienceScenes(audience)[j]
  {
    var scene := audience.scenes[j];
    entry := SceneEntry(SceneName(audience, scene), ExampleTexts(scene.examples));
    MapRangeAt(SceneReader(audience), 0, |audience.scenes|, j);
  }

  lemma PrefixSnoc<T>(xs: seq<T>, j: nat)
    requires j < |xs|
    ensures xs[..j + 1] == xs[..j] + [xs[j]]
  {
  }

  /** One turn of the inner `forEach`: merging the next scene extends the fold by it. */
  lemma MergeSceneStep(categories: seq<Category>, scenes: seq<SceneEntry>, j: nat, r: seq<Category>, freshId: nat -> string)
    requires j < |scenes|
    requires r == Migrate(categories, scenes[..j], freshId)
    ensures ApplyScene(r, scenes[j], freshId) == Migrate(categories, scenes[..j + 1], freshId)
  {
    PrefixSnoc(scenes, j);
    MigrateSnoc(categories, scenes[..j], scenes[j], freshId);
  }

  /** The inner `forEach`: merges the scenes of one audience, in order. */
  method MergeAudience(categories: seq<Category>, audience: LegacyAudience, freshId: nat -> string)
    returns (r: seq<Category>)
    ensures r == Migrate(categories, AudienceScenes(audience), freshId)
  {
    ghost var scenes := AudienceScenes(audience);
    r := categories;
    var j := 0;
    while j < |audience.scenes|
      invariant 0 <= j <= |audience.scenes|
      invariant r == Migrate(categories, scenes[..j], freshId)
    {
      var entry := ReadScene(audience, j);
      var merged := MergeScene(r, entry, freshId);
      MergeSceneStep(categories, scenes, j, r, freshId);
      r := merged;
      j := j + 1;
    }
    assert scenes[..j] == scenes;
  }

  /** One turn of the outer `forEach`. */
  lemma MergeAudienceStep(audiences: seq<LegacyAudience>, i: nat, freshId: nat -> string)
    requires i < |audiences|
    ensures Migrate(Migrate([], AllScenes(audiences[..i]), freshId), AudienceScenes(audiences[i]), freshId)
            == Migrate([], AllScenes(audiences[..i + 1]), freshId)
  {
    MigrateAppend([], AllScenes(audiences[..i]), AudienceScenes(audiences[i]), freshId);
    assert audiences[..i + 1][..i] == audiences[..i];
  }

  /**
   * `convertLegacyStyleExamples`: the nested `forEach` over audiences and
   * their scenes, building the category list in place.
   */
  method ConvertLegacyStyleExamples(audiences: seq<LegacyAudience>, freshId: nat -> string) returns (categories: seq<Category>)
    ensures categories == Migrate([], AllScenes(audiences), freshId)
    ensures DistinctNames(categories) && AllNamed(categories)
  {
    categories := [];
    var i := 0;
    while i < |audiences|
      invariant 0 <= i <= |audiences|
      invariant categories == Migrate([], AllScenes(audiences[..i]), freshId)
    {
      var merged := MergeAudience(categories, audiences[i], freshId);
      MergeAudienceStep(audiences, i, freshId);
      categories := merged;
      i := i + 1;
    }
    assert audiences[..i] == audiences;
    AllScenesNamesTrimmed(audiences);
    MigrateNames(AllScenes(audiences), freshId);
  }

  /**
   * `normalizeStyleExamples`: a `categories` array yields its valid entries,
   * at most 12; otherwise an `audiences` array is migrated; whenever that
   * leaves nothing, the default list is used.
   */
  function NormalizeStyleExamples(stored: StoredStyles, freshId: nat -> string): (r: seq<Category>)
    ensures r != [] && AllNamed(r)
    ensures stored.StyleObject? && stored.categories.Some? ==> |r| <= MaxCategories
    ensures stored.NotAnObject? ==> r == DefaultCategories()
    ensures stored.StyleObject? && stored.categories.Some? && NormalizeCategories(stored.categories.value, freshId, 0) == [] ==>
              r == DefaultCategories()
    ensures stored.StyleObject? && stored.categories.Some? && |NormalizeCategories(stored.categories.value, freshId, 0)| > MaxCategories ==>
              r == NormalizeCategories(stored.categories.value, freshId, 0)[..MaxCategories]
    ensures stored.StyleObject? && stored.categories.None? && stored.audiences.None? ==> r == DefaultCategories()
    ensures stored.StyleObject? && stored.categories.None? && stored.audiences.Some? ==>
              var migrated := Migrate([], AllScenes(stored.audiences.value), freshId);
              r == if migrated == [] then DefaultCategories() else migrated
  {
    match stored
    case NotAnObject => DefaultCategories()
    case StyleObject(categories, audiences) =>
      if categories.Some? then
        var valid := NormalizeCategories(categories.value, freshId, 0);
        if valid == [] then DefaultCategories()
        else if |valid| <= MaxCategories then valid
        else valid[..MaxCategories]
      else if audiences.Some? then
        AllScenesNamesTrimmed(audiences.value);
        MigrateNames(AllScenes(audiences.value), freshId);
        var migrated := Migrate([], AllScenes(audiences.value), freshId);
        if migrated == [] then DefaultCategories() else migrated
      else DefaultCategories()
  }

  /**
   * Stored categories keep their order: the result is the first 12 valid
   * entries, or all of them when there are fewer.
   */
  lemma NormalizeStyleExamplesKeepsOrder(raws: seq<Json>, audiences: Option<seq<LegacyAudience>>, freshId: nat -> string)
    requires NormalizeCategories(raws, freshId, 0) != []
    ensures var r := NormalizeStyleExamples(StyleObject(Some(raws), audiences), freshId);
            var valid := NormalizeCategories(raws, freshId, 0);
            r <= valid && r == valid[..if |valid| <= MaxCategories then |valid| else MaxCategories]
  {
  }

  // ---------------------------------------------------------------------------
  // The category editor
  // ---------------------------------------------------------------------------

  /** `uiState.styleExamples.categories` and the operations of the options page on it. */
  class StyleEditor {
    var categories: seq<Category>

    /** Every category carries a trimmed, non-empty name. */
    ghost predicate Valid()
      reads this
    {
      AllNamed(categories)
    }

    /** The page starts from the default list. */
    constructor()
      ensures Valid() && categories == DefaultCategories()
    {
      categories := DefaultCategories();
    }

    /** Loading replaces the list with the normalised stored value. */
    method Load(stored: StoredStyles, freshId: nat -> string)
      modifies this
      ensures Valid() && categories == NormalizeStyleExamples(stored, freshId)
    {
      categories := NormalizeStyleExamples(stored, freshId);
    }

    /** `findCategory`: the first category with this id, if any. */
    function FindCategory(id: string): (r: Option<Category>)
      reads this
      ensures r.Some? <==> exists c :: c in categories && c.id == id
      ensures r.Some? ==> r.value.id == id && r.value in categories
      ensures r.Some? ==> var i := IndexOfKey(categories, ById, id);
                          i < |categories| && r.value == categories[i] && forall j :: 0 <= j < i ==> categories[j].id != id
    {
      var i := IndexOfKey(categories, ById, id);
      if i < |categories| then Some(categories[i]) else None
    }

    /**
     * The add button: refused at 12 categories; `input` is what `prompt`
     * returned (None when cancelled).  A name with content is appended,
     * trimmed, with empty content and lightning use off.
     */
    method AddCategory(input: Option<string>, newId: string) returns (added: bool)
      requires Valid()
      modifies this
      ensures Valid()
      ensures added <==> old(|categories|) < MaxCategories && input.Some? && HasContent(input.value)
      ensures added ==> categories == old(categories) + [Category(newId, Trim(input.value), "", false)]
      ensures !added ==> categories == old(categories)
    {
      if |categories| >= MaxCategories {
        return false;
      }
      if input.None? || Trim(input.value) == "" {
        if input.Some? { TrimEmptyIffBlank(input.value); }
        return false;
      }
      TrimEmptyIffBlank(input.value);
      categories := categories + [Category(newId, Trim(input.value), "", false)];
      added := true;
    }

    /**
     * `renameCategory`: an unknown id or a blank answer changes nothing;
     * otherwise only the first category with that id is renamed, to the
     * trimmed answer.
     */
    method RenameCategory(id: string, input: Option<string>) returns (renamed: bool)
      requires Valid()
      modifies this
      ensures Valid()
      ensures var i := IndexOfKey(old(categories), ById, id);
              renamed <==> i < |old(categories)| && input.Some? && HasContent(input.value)
      ensures renamed ==>
                var i := IndexOfKey(old(categories), ById, id);
                categories == old(categories)[i := old(categories)[i].(name := Trim(input.value))]
      ensures !renamed ==> categories == old(categories)
    {
      var i := IndexOfKey(categories, ById, id);
      if i == |categories| {
        return false;
      }
      if input.None? || Trim(input.value) == "" {
        if input.Some? { TrimEmptyIffBlank(input.value); }
        return false;
      }
      TrimEmptyIffBlank(input.value);
      categories := categories[i := categories[i].(name := Trim(input.value))];
      renamed := true;
    }

    /**
     * `removeCategory`: an unknown id or a declined confirmation changes
     * nothing; otherwise the first category with that id is spliced out.
     */
    method RemoveCategory(id: string, confirmed: bool) returns (removed: bool)
      requires Valid()
      modifies this
      ensures Valid()
      ensures removed <==> IndexOfKey(old(categories), ById, id) < |old(categories)| && confirmed
      ensures removed ==>
                var i := IndexOfKey(old(categories), ById, id);
                categories == old(categories)[..i] + old(categories)[i + 1..]
      ensures !removed ==> categories == old(categories)
    {
      var i := IndexOfKey(categories, ById, id);
      if i == |categories| || !confirmed {
        return false;
      }
      categories := categories[..i] + categories[i + 1..];
      removed := true;
    }

    /** The textarea of category `index` sets its content. */
    method EditContent(index: nat, text: string)
      requires Valid() && index < |categories|
      modifies this
      ensures Valid()
      ensures categories == old(categories)[index := old(categories)[index].(content := text)]
    {
      categories := categories[index := categories[index].(content := text)];
    }

    /** The lightning checkbox of category `index`. */
    method SetLightning(index: nat, checked: bool)
      requires Valid() && index < |categories|
      modifies this
      ensures Valid()
      ensures categories == old(categories)[index := old(categories)[index].(useInLightning := checked)]
    {
      categories := categories[index := categories[index].(useInLightning := checked)];
    }
  }

  /** Removing the first entry with an id keeps every other entry, in order. */
  lemma RemoveKeepsOthers(categories: seq<Category>, id: string)
    requires IndexOfKey(categories, ById, id) < |categories|
    ensures var i := IndexOfKey(categories, ById, id);
            var r := categories[..i] + categories[i + 1..];
            && |r| == |categories| - 1
            && (forall j :: 0 <= j < i ==> r[j] == categories[j])
            && (forall j :: i <= j < |r| ==> r[j] == categories[j + 1])
            && multiset(r) + multiset{categories[i]} == multiset(categories)
  {
    SpliceOut(categories, IndexOfKey(categories, ById, id));
  }

  /** Removing the element at `i` shifts the ones after it down by one and loses only that element. */
  lemma SpliceOut<T>(xs: seq<T>, i: nat)
    requires i < |xs|
    ensures var r := xs[..i] + xs[i + 1..];
            && |r| == |xs| - 1
            && (forall j :: 0 <= j < i ==> r[j] == xs[j])
            && (forall j :: i <= j < |r| ==> r[j] == xs[j + 1])
            && multiset(r) + multiset{xs[i]} == multiset(xs)
  {
    var front, back := xs[..i], xs[i + 1..];
    assert xs == front + [xs[i]] + back;
    assert multiset(xs) == multiset(front) + multiset{xs[i]} + multiset(back);
  }
}

=== FILE: requests.dfy ===
/**
 * The last-writer-wins request tokens of the content script
 * (src/content-script.js): each request kind (reply generation, proofread,
 * one-click reply) keeps the newest id it handed out and an in-progress
 * flag; a response is acted on only while its id is still the newest.
 */
module Requests {
  import opened Wrappers
  import opened Text

  /** One request kind: the newest id handed out and whether a request is running. */
  datatype Channel = Channel(active: nat, inProgress: bool)

  /** A response carrying `id` is still wanted. */
  predicate IsCurrent(c: Channel, id: nat) {
    id == c.active
  }

  /** `++activeRequestId`: a new request whose id beats every id handed out before. */
  function Claim(c: Channel): (r: Channel)
    ensures IsCurrent(r, r.active) && r.inProgress == c.inProgress
    ensures forall id: nat :: id <= c.active ==> !IsCurrent(r, id)
  {
    c.(active := c.active + 1)
  }

  /** `isXInProgress = true`. */
  function MarkBusy(c: Channel): (r: Channel)
    ensures r.inProgress && r.active == c.active
  {
    c.(inProgress := true)
  }

  /** `isXInProgress = false`, the id kept. */
  function Stop(c: Channel): (r: Channel)
    ensures !r.inProgress && r.active == c.active
  {
    c.(inProgress := false)
  }

  /** `hideProofreadModal`: nothing runs any more and every response already asked for is stale. */
  function Cancel(c: Channel): (r: Channel)
    ensures !r.inProgress
    ensures forall id: nat :: id <= c.active ==> !IsCurrent(r, id)
  {
    Claim(Stop(c))
  }

  /**
   * The `finally` of a request: the flag is cleared either always
   * (`guarded` false) or only when the response is still current.
   */
  function Release(c: Channel, id: nat, guarded: bool): (r: Channel)
    ensures r.active == c.active
    ensures !guarded || IsCurrent(c, id) ==> !r.inProgress
    ensures guarded && !IsCurrent(c, id) ==> r == c
  {
    if !guarded || IsCurrent(c, id) then Stop(c) else c
  }

  /** What can happen to a channel between a request and its response. */
  datatype Event = NewRequest | Busy | Cancelled | Stopped | Settled(id: nat, guarded: bool)

  /** An event that hands out a newer id. */
  predicate Supersedes(e: Event) {
    e.NewRequest? || e.Cancelled?
  }

  function Step(c: Channel, e: Event): Channel {
    match e
    case NewRequest => Claim(c)
    case Busy => MarkBusy(c)
    case Cancelled => Cancel(c)
    case Stopped => Stop(c)
    case Settled(id, guarded) => Release(c, id, guarded)
  }

  function Run(c: Channel, events: seq<Event>): Channel
    decreases |events|
  {
    if events == [] then c else Run(Step(c, events[0]), events[1..])
  }

  /** Ids only grow, and they grow exactly when a newer request or a cancel happens. */
  lemma {:induction false} RunActive(c: Channel, events: seq<Event>)
    ensures Run(c, events).active >= c.active
    ensures Run(c, events).active == c.active <==> forall e :: e in events ==> !Supersedes(e)
    decreases |events|
  {
    if events != [] {
      var next := Step(c, events[0]);
      assert Supersedes(events[0]) ==> next.active > c.active;
      assert !Supersedes(events[0]) ==> next.active == c.active;
      RunActive(next, events[1..]);
      assert forall e :: e in events <==> e == events[0] || e in events[1..] by {
        assert events == [events[0]] + events[1..];
      }
    }
  }

  /**
   * The request that took id `c.active` has its response applied exactly
   * when no newer request and no cancel came after it, whatever else
   * (busy flags, other responses settling) happened meanwhile.
   */
  lemma ResponseAppliedIffNotSuperseded(c: Channel, events: seq<Event>)
    ensures IsCurrent(Run(c, events), c.active) <==> forall e :: e in events ==> !Supersedes(e)
  {
    RunActive(c, events);
  }

  /** A proofread still running when its dialog is closed never applies its result. */
  lemma HideDiscardsProofread(c: Channel, before: seq<Event>, after: seq<Event>)
    ensures !IsCurrent(Run(c, before + [Cancelled] + after), c.active)
  {
    ResponseAppliedIffNotSuperseded(c, before + [Cancelled] + after);
    assert Cancelled in before + [Cancelled] + after;
  }

  /**
   * Generation clears its flag in an unguarded `finally`: two clicks that
   * both pass the busy check before either marks itself busy, then the
   * stale first response, leave the second request running with the flag
   * already cleared.
   */
  lemma StaleGenerateClearsBusy(c: Channel)
    ensures var r := Run(c, [NewRequest, NewRequest, Busy, Busy, Settled(c.active + 1, false)]);
      !r.inProgress && IsCurrent(r, c.active + 2)
  {
    var tail := [Busy, Busy, Settled(c.active + 1, false)];
    var c2 := Claim(Claim(c));
    SettleUnguarded(c2, c.active + 1);
    RunCons(Claim(c), NewRequest, tail);
    RunCons(c, NewRequest, [NewRequest] + tail);
    assert [NewRequest, NewRequest, Busy, Busy, Settled(c.active + 1, false)] == [NewRequest] + ([NewRequest] + tail);
  }

  /** Two busy marks and an unguarded settle leave the id as it was and the flag clear. */
  lemma SettleUnguarded(c: Channel, id: nat)
    ensures Run(c, [Busy, Busy, Settled(id, false)]) == Stop(c)
  {
    var settle := Settled(id, false);
    RunCons(MarkBusy(MarkBusy(c)), settle, []);
    RunCons(MarkBusy(c), Busy, [settle]);
    RunCons(c, Busy, [Busy, settle]);
    assert [Busy, Busy, settle] == [Busy] + [Busy, settle];
    assert [Busy, settle] == [Busy] + [settle];
    assert [settle] == [settle] + [];
  }

  lemma RunCons(c: Channel, e: Event, rest: seq<Event>)
    ensures Run(c, [e] + rest) == Run(Step(c, e), rest)
  {
    assert ([e] + rest)[1..] == rest;
  }

  /** The open proofread: `proofreadState`'s source text and result. */
  datatype ProofreadSession = ProofreadSession(originalText: string, resultText: string)

  /** What a proofread response does to the dialog. */
  datatype ProofreadOutcome = Stale | ShowResult(text: string) | ShowError | Closed

  class RequestState {
    var activeRequestId: nat
    var isRequestInProgress: bool
    var activeProofreadRequestId: nat
    var isProofreadInProgress: bool
    var proofreadState: Option<ProofreadSession>
    var activeLightningRequestId: nat
    var isLightningInProgress: bool

    function Generate(): Channel
      reads this
    {
      Channel(activeRequestId, isRequestInProgress)
    }

    function Proofread(): Channel
      reads this
    {
      Channel(activeProofreadRequestId, isProofreadInProgress)
    }

    function Lightning(): Channel
      reads this
    {
      Channel(activeLightningRequestId, isLightningInProgress)
    }

    constructor()
      ensures Generate() == Channel(0, false) && Proofread() == Channel(0, false) && Lightning() == Channel(0, false)
      ensures proofreadState == None
    {
      activeRequestId := 0;
      isRequestInProgress := false;
      activeProofreadRequestId := 0;
      isProofreadInProgress := false;
      proofreadState := None;
      activeLightningRequestId := 0;
      isLightningInProgress := false;
    }

    /**
     * `handleGenerateClick` up to the flush of pending presets: refused while
     * a request runs or without the dialog, otherwise a new id.
     */
    method GenerateClicked(dialogOpen: bool) returns (id: Option<nat>)
      modifies this
      ensures id.None? <==> old(isRequestInProgress) || !dialogOpen
      ensures id.None? ==> Generate() == old(Generate())
      ensures id.Some? ==> Generate() == Claim(old(Generate())) && IsCurrent(Generate(), id.value)
      ensures Proofread() == old(Proofread()) && Lightning() == old(Lightning()) && proofreadState == old(proofreadState)
    {
      if isRequestInProgress || !dialogOpen {
        return None;
      }
      activeRequestId := activeRequestId + 1;
      id := Some(activeRequestId);
    }

    /** `handleGenerateClick` after the flush: the request is marked running and sent. */
    method GenerateSent()
      modifies this
      ensures Generate() == MarkBusy(old(Generate()))
      ensures Proofread() == old(Proofread()) && Lightning() == old(Lightning()) && proofreadState == old(proofreadState)
    {
      isRequestInProgress := true;
    }

    /** The generation response (or failure) for `id`: shown only when current; the flag is cleared either way. */
    method GenerateSettled(id: nat) returns (applied: bool)
      modifies this
      ensures applied <==> IsCurrent(old(Generate()), id)
      ensures Generate() == Release(old(Generate()), id, false)
      ensures Proofread() == old(Proofread()) && Lightning() == old(Lightning()) && proofreadState == old(proofreadState)
    {
      applied := id == activeRequestId;
      isRequestInProgress := false;
    }

    /** `hideModal`: the flag is cleared but the id is not advanced. */
    method HideModal()
      modifies this
      ensures Generate() == Stop(old(Generate()))
      ensures Proofread() == old(Proofread()) && Lightning() == old(Lightning()) && proofreadState == old(proofreadState)
    {
      isRequestInProgress := false;
    }

    /** `startProofread` up to sending: refused without a session, while one runs, or with no text. */
    method StartProofread() returns (id: Option<nat>)
      modifies this
      ensures id.None? <==> old(proofreadState).None? || old(isProofreadInProgress) || old(proofreadState).value.originalText == ""
      ensures id.None? ==> Proofread() == old(Proofread()) && proofreadState == old(proofreadState)
      ensures id.Some? ==>
        && Proofread() == Claim(MarkBusy(old(Proofread())))
        && IsCurrent(Proofread(), id.value)
        && proofreadState == Some(old(proofreadState).value.(resultText := ""))
      ensures Generate() == old(Generate()) && Lightning() == old(Lightning())
    {
      if proofreadState.None? || isProofreadInProgress {
        return None;
      }
      if proofreadState.value.originalText == "" {
        return None;
      }
      proofreadState := Some(proofreadState.value.(resultText := ""));
      isProofreadInProgress := true;
      activeProofreadRequestId := activeProofreadRequestId + 1;
      id := Some(activeProofreadRequestId);
    }

    /** `openProofreadModal`: a session for the selected text, then `startProofread`. */
    method OpenProofread(text: string, composeAttached: bool) returns (id: Option<nat>)
      modifies this
      ensures text == "" || !composeAttached ==> id.None? && Proofread() == old(Proofread()) && proofreadState == old(proofreadState)
      ensures text != "" && composeAttached && !old(isProofreadInProgress) ==>
        && id.Some?
        && Proofread() == Claim(MarkBusy(old(Proofread())))
        && IsCurrent(Proofread(), id.value)
        && proofreadState == Some(ProofreadSession(text, ""))
      ensures text != "" && composeAttached && old(isProofreadInProgress) ==>
        && id.None?
        && Proofread() == old(Proofread())
        && proofreadState == Some(ProofreadSession(text, ""))
      ensures Generate() == old(Generate()) && Lightning() == old(Lightning())
    {
      if text == "" || !composeAttached {
        return None;
      }
      proofreadState := Some(ProofreadSession(text, ""));
      id := StartProofread();
    }

    /**
     * The proofread response for `id` (None when the request failed): stale
     * responses are dropped, an empty suggestion is an error, and a result
     * is stored only while the session is open; the flag is cleared only by
     * the current request.
     */
    method ProofreadSettled(id: nat, suggestion: Option<string>) returns (outcome: ProofreadOutcome)
      modifies this
      ensures !IsCurrent(old(Proofread()), id) ==> outcome == Stale
      ensures IsCurrent(old(Proofread()), id) && (suggestion.None? || !HasContent(suggestion.value)) ==> outcome == ShowError
      ensures IsCurrent(old(Proofread()), id) && suggestion.Some? && HasContent(suggestion.value) ==>
        outcome == (if old(proofreadState).Some? then ShowResult(Trim(suggestion.value)) else Closed)
      ensures outcome.ShowResult? ==> proofreadState == Some(old(proofreadState).value.(resultText := outcome.text))
      ensures !outcome.ShowResult? ==> proofreadState == old(proofreadState)
      ensures Proofread() == Release(old(Proofread()), id, true)
      ensures Generate() == old(Generate()) && Lightning() == old(Lightning())
    {
      if id != activeProofreadRequestId {
        return Stale;
      }
      var text := if suggestion.Some? then Trim(suggestion.value) else "";
      if suggestion.Some? {
        TrimEmptyIffBlank(suggestion.value);
      }
      if text == "" {
        outcome := ShowError;
      } else if proofreadState.None? {
        outcome := Closed;
      } else {
        proofreadState := Some(proofreadState.value.(resultText := text));
        outcome := ShowResult(text);
      }
      isProofreadInProgress := false;
    }

    /** `hideProofreadModal`: the session ends and any proofread still running is made stale. */
    method HideProofread()
      modifies this
      ensures Proofread() == Cancel(old(Proofread()))
      ensures proofreadState == None
      ensures Generate() == old(Generate()) && Lightning() == old(Lightning())
    {
      isProofreadInProgress := false;
      activeProofreadRequestId := activeProofreadRequestId + 1;
      proofreadState := None;
    }

    /**
     * `handleProofreadApply`: without a result nothing happens; with one, the
     * dialog is closed, and the result is inserted only when the session's
     * compose window is still in the page and its range still exists
     * (`composeAttached`).
     */
    method ApplyProofread(composeAttached: bool) returns (applied: Option<string>)
      modifies this
      ensures applied.Some? <==> old(proofreadState).Some? && old(proofreadState).value.resultText != "" && composeAttached
      ensures applied.Some? ==> applied.value == old(proofreadState).value.resultText
      ensures old(proofreadState).Some? && old(proofreadState).value.resultText != "" ==>
        Proofread() == Cancel(old(Proofread())) && proofreadState == None
      ensures old(proofreadState).None? || old(proofreadState).value.resultText == "" ==>
        Proofread() == old(Proofread()) && proofreadState == old(proofreadState)
      ensures Generate() == old(Generate()) && Lightning() == old(Lightning())
    {
      if proofreadState.None? || proofreadState.value.resultText == "" {
        return None;
      }
      var resultText := proofreadState.value.resultText;
      if !composeAttached {
        HideProofread();
        return None;
      }
      applied := Some(resultText);
      proofreadState := None;
      HideProofread();
    }

    /**
     * `triggerLightningReply` up to sending: refused while one runs or with
     * no compose window; when no placeholder can be placed the new id is
     * spent and the flag cleared again.
     */
    method TriggerLightning(composeFound: bool, placeholderInserted: bool) returns (id: Option<nat>)
      modifies this
      ensures id.Some? <==> !old(isLightningInProgress) && composeFound && placeholderInserted
      ensures old(isLightningInProgress) || !composeFound ==> Lightning() == old(Lightning())
      ensures !old(isLightningInProgress) && composeFound && !placeholderInserted ==>
        Lightning() == Stop(Claim(MarkBusy(old(Lightning()))))
      ensures id.Some? ==> Lightning() == Claim(MarkBusy(old(Lightning()))) && IsCurrent(Lightning(), id.value)
      ensures Generate() == old(Generate()) && Proofread() == old(Proofread()) && proofreadState == old(proofreadState)
    {
      if isLightningInProgress || !composeFound {
        return None;
      }
      isLightningInProgress := true;
      activeLightningRequestId := activeLightningRequestId + 1;
      var requestId := activeLightningRequestId;
      if !placeholderInserted {
        if activeLightningRequestId == requestId {
          isLightningInProgress := false;
        }
        return None;
      }
      id := Some(requestId);
    }

    /**
     * The one-click reply response for `id` (None when it failed or was
     * empty): the trimmed suggestion is inserted only when current and not
     * blank; the flag is cleared only by the current request.
     */
    method LightningSettled(id: nat, suggestion: Option<string>) returns (inserted: Option<string>)
      modifies this
      ensures inserted.Some? <==> IsCurrent(old(Lightning()), id) && suggestion.Some? && HasContent(suggestion.value)
      ensures inserted.Some? ==> inserted.value == Trim(suggestion.value)
      ensures Lightning() == Release(old(Lightning()), id, true)
      ensures Generate() == old(Generate()) && Proofread() == old(Proofread()) && proofreadState == old(proofreadState)
    {
      inserted := None;
      if suggestion.Some? && id == activeLightningRequestId {
        TrimEmptyIffBlank(suggestion.value);
        var text := Trim(suggestion.value);
        if text != "" {
          inserted := Some(text);
        }
      }
      if activeLightningRequestId == id {
        isLightningInProgress := false;
      }
    }
  }
}

=== FILE: sentences.dfy ===
/**
 * `splitSentences` and `applyNaturalLineBreaks` (src/content-script.js:662-706):
 * a suggestion is cut into sentences after sentence-final punctuation and at
 * every line break, and the sentences are put on lines of their own.
 */
module Sentences {
  import opened Text

  /** `[。！？]`. */
  predicate IsFullWidthStop(c: char) {
    c == '。' || c == '！' || c == '？'
  }

  /** `[。！？、,.\s\n]`: what may follow a full-width stop without ending the sentence. */
  predicate ContinuesFullWidth(c: char) {
    IsFullWidthStop(c) || c == '、' || c == ',' || c == '.' || IsSpace(c)
  }

  /** `[.!?]`. */
  predicate IsStop(c: char) {
    c == '.' || c == '!' || c == '?'
  }

  /** `[A-Z\s\n]`: what must follow a stop for it to end the sentence. */
  predicate OpensSentence(c: char) {
    ('A' <= c <= 'Z') || IsSpace(c)
  }

  /**
   * The sentence is cut after `text[i]`: after a full-width stop unless a
   * stop, comma or whitespace follows; after `.`, `!` or `?` at the end of
   * the text or before a capital or whitespace; always after a line break.
   */
  predicate BreaksAfter(text: string, i: nat)
    requires i < |text|
  {
    var atEnd := i + 1 == |text|;
    || (IsFullWidthStop(text[i]) && (atEnd || !ContinuesFullWidth(text[i + 1])))
    || (IsStop(text[i]) && (atEnd || OpensSentence(text[i + 1])))
    || text[i] == '\n'
  }

  /**
   * The buffers the loop fills: `text[start..]` cut after every break at
   * index `i` or later (there is none in `text[start..i]`), the last one
   * being whatever is left at the end.
   */
  function Segments(text: string, start: nat, i: nat): (segs: seq<string>)
    requires start <= i <= |text|
    ensures |segs| >= 1
    decreases |text| - i
  {
    if i == |text| then [text[start..]]
    else if BreaksAfter(text, i) then [text[start..i + 1]] + Segments(text, i + 1, i + 1)
    else Segments(text, start, i + 1)
  }

  /** Every entry trimmed (`map(s => s.trim())`). */
  function TrimAll(xs: seq<string>): (r: seq<string>)
    ensures |r| == |xs|
    ensures forall k :: 0 <= k < |r| ==> IsTrimmed(r[k])
  {
    if xs == [] then [] else [Trim(xs[0])] + TrimAll(xs[1..])
  }

  /** The sentences of a text: its segments trimmed, the empty ones dropped. */
  function Sentences(text: string): (r: seq<string>)
    ensures forall k :: 0 <= k < |r| ==> r[k] != [] && IsTrimmed(r[k])
  {
    var r := FilterNonEmpty(TrimAll(Segments(text, 0, 0)));
    assert forall k :: 0 <= k < |r| ==> r[k] in TrimAll(Segments(text, 0, 0));
    r
  }

  lemma TrimAllSnoc(xs: seq<string>, x: string)
    ensures TrimAll(xs + [x]) == TrimAll(xs) + [Trim(x)]
  {
    if xs != [] {
      assert (xs + [x])[1..] == xs[1..] + [x];
      TrimAllSnoc(xs[1..], x);
    }
  }

  lemma {:induction false} FilterNonEmptySnoc(xs: seq<string>, x: string)
    ensures FilterNonEmpty(xs + [x]) == FilterNonEmpty(xs) + (if x == [] then [] else [x])
    decreases |xs|
  {
    if xs == [] {
      assert [x][1..] == [];
    } else {
      assert (xs + [x])[0] == xs[0];
      assert (xs + [x])[1..] == xs[1..] + [x];
      FilterNonEmptySnoc(xs[1..], x);
    }
  }

  /** Cutting at a break: the buffer becomes a segment of its own. */
  lemma SegmentsBreak(text: string, start: nat, i: nat)
    requires start <= i < |text| && BreaksAfter(text, i)
    ensures Segments(text, start, i) == [text[start..i + 1]] + Segments(text, i + 1, i + 1)
  {
  }

  /** The tests the loop makes on `text[i]` and the character after it. */
  method CutAfter(text: string, i: nat) returns (cut: bool)
    requires i < |text|
    ensures cut == BreaksAfter(text, i)
  {
    var c := text[i];
    cut := false;
    if IsFullWidthStop(c) {
      if i + 1 == |text| || !ContinuesFullWidth(text[i + 1]) {
        cut := true;
      }
    } else if IsStop(c) {
      if i + 1 == |text| || OpensSentence(text[i + 1]) {
        cut := true;
      }
    }
    if c == '\n' {
      cut := true;
    }
  }

  /** No cut after `text[i]`: the buffer grows. */
  lemma SegmentsSkip(text: string, start: nat, i: nat)
    requires start <= i < |text| && !BreaksAfter(text, i)
    ensures Segments(text, start, i) == Segments(text, start, i + 1)
  {
  }

  /** `splitSentences`: the loop that fills a buffer and pushes it, trimmed, at every break. */
  method SplitSentences(text: string) returns (result: seq<string>)
    ensures result == Sentences(text)
  {
    var pieces: seq<string> := [];
    var buffer := "";
    ghost var start := 0;
    ghost var done: seq<string> := [];
    for i := 0 to |text|
      invariant start <= i
      invariant buffer == text[start..i]
      invariant pieces == TrimAll(done)
      invariant done + Segments(text, start, i) == Segments(text, 0, 0)
    {
      var c := text[i];
      buffer := buffer + [c];
      assert buffer == text[start..i + 1];
      var cut := CutAfter(text, i);
      assert cut == BreaksAfter(text, i);
      if cut {
        SegmentsBreak(text, start, i);
        assert (done + [buffer]) + Segments(text, i + 1, i + 1) == done + Segments(text, start, i);
        pieces := PushTrimmed(pieces, done, buffer);
        done := done + [buffer];
        buffer := "";
        start := i + 1;
      } else {
        SegmentsSkip(text, start, i);
      }
    }
    assert buffer == text[start..];
    result := FlushTrimmed(pieces, done, buffer);
  }

  /** `result.push(buffer.trim())`. */
  method PushTrimmed(pieces: seq<string>, ghost done: seq<string>, buffer: string) returns (r: seq<string>)
    requires pieces == TrimAll(done)
    ensures r == TrimAll(done + [buffer])
  {
    TrimAllSnoc(done, buffer);
    r := pieces + [Trim(buffer)];
  }

  /** The end of `splitSentences`: the rest of the buffer pushed when it has content, then `filter(Boolean)`. */
  method FlushTrimmed(pieces: seq<string>, ghost done: seq<string>, buffer: string) returns (r: seq<string>)
    requires pieces == TrimAll(done)
    ensures r == FilterNonEmpty(TrimAll(done + [buffer]))
  {
    TrimAllSnoc(done, buffer);
    FilterNonEmptySnoc(TrimAll(done), Trim(buffer));
    var all := pieces;
    var last := Trim(buffer);
    if last != "" {
      all := all + [last];
    }
    r := FilterNonEmpty(all);
  }

  // ---------------------------------------------------------------------------
  // The segments are the text cut exactly at its breaks
  // ---------------------------------------------------------------------------

  /**
   * `segs` cuts `text[from..]` into consecutive pieces, each of which but
   * the last ends with a break and holds no other; the last holds none.
   */
  predicate CutAtBreaks(text: string, from: nat, segs: seq<string>)
    decreases |segs|
  {
    && from <= |text|
    && |segs| >= 1
    && if |segs| == 1 then
         && segs[0] == text[from..]
         && (forall j :: from <= j < |text| ==> !BreaksAfter(text, j))
       else
         var e := from + |segs[0]|;
         && from < e <= |text|
         && segs[0] == text[from..e]
         && BreaksAfter(text, e - 1)
         && (forall j :: from <= j < e - 1 ==> !BreaksAfter(text, j))
         && CutAtBreaks(text, e, segs[1..])
  }

  lemma {:induction false} SegmentsCutAtBreaks(text: string, start: nat, i: nat)
    requires start <= i <= |text|
    requires forall j :: start <= j < i ==> !BreaksAfter(text, j)
    ensures CutAtBreaks(text, start, Segments(text, start, i))
    decreases |text| - i
  {
    if i < |text| {
      if BreaksAfter(text, i) {
        SegmentsCutAtBreaks(text, i + 1, i + 1);
        var segs := Segments(text, start, i);
        assert segs[1..] == Segments(text, i + 1, i + 1);
      } else {
        SegmentsCutAtBreaks(text, start, i + 1);
      }
    }
  }

  /** The buffers of `splitSentences` are the text cut after each of its breaks and nowhere else. */
  lemma SegmentsAreTheCuts(text: string)
    ensures CutAtBreaks(text, 0, Segments(text, 0, 0))
  {
    SegmentsCutAtBreaks(text, 0, 0);
  }

  /** There is only one way to cut a text exactly at its breaks. */
  lemma {:induction false} CutAtBreaksUnique(text: string, from: nat, a: seq<string>, b: seq<string>)
    requires CutAtBreaks(text, from, a) && CutAtBreaks(text, from, b)
    ensures a == b
    decreases |a|
  {
    if |a| > 1 && |b| > 1 {
      var e := from + |a[0]|;
      // each first segment ends at a break, and neither has a break before its end
      assert BreaksAfter(text, e - 1) && BreaksAfter(text, from + |b[0]| - 1);
      assert e == from + |b[0]|;
      CutAtBreaksUnique(text, e, a[1..], b[1..]);
      assert a == [a[0]] + a[1..] && b == [b[0]] + b[1..];
    }
  }

  // ---------------------------------------------------------------------------
  // What the sentences keep
  // ---------------------------------------------------------------------------

  /** The strings one after the other (`join('')`). */
  function Concat(xs: seq<string>): string {
    if xs == [] then "" else xs[0] + Concat(xs[1..])
  }

  lemma {:induction false} SegmentsConcat(text: string, start: nat, i: nat)
    requires start <= i <= |text|
    ensures Concat(Segments(text, start, i)) == text[start..]
    decreases |text| - i
  {
    if i < |text| {
      if BreaksAfter(text, i) {
        SegmentsConcat(text, i + 1, i + 1);
        assert text[start..] == text[start..i + 1] + text[i + 1..];
        var segs := Segments(text, start, i);
        assert segs[1..] == Segments(text, i + 1, i + 1);
      } else {
        SegmentsConcat(text, start, i + 1);
      }
    } else {
      assert Concat([text[start..]]) == text[start..] + Concat([]);
    }
  }

  lemma {:induction false} TrimAllKeepsContent(xs: seq<string>)
    ensures NonSpace(Concat(TrimAll(xs))) == NonSpace(Concat(xs))
    decreases |xs|
  {
    if xs != [] {
      TrimAllKeepsContent(xs[1..]);
      TrimKeepsContent(xs[0]);
      NonSpaceAppend(Trim(xs[0]), Concat(TrimAll(xs[1..])));
      NonSpaceAppend(xs[0], Concat(xs[1..]));
    }
  }

  lemma {:induction false} FilterNonEmptyKeepsConcat(xs: seq<string>)
    ensures Concat(FilterNonEmpty(xs)) == Concat(xs)
    decreases |xs|
  {
    if xs != [] {
      FilterNonEmptyKeepsConcat(xs[1..]);
      var rest := FilterNonEmpty(xs[1..]);
      if xs[0] != [] {
        assert ([xs[0]] + rest)[1..] == rest;
      }
    }
  }

  /** Every non-whitespace character of the text appears, in order, in the sentences. */
  lemma SentencesKeepContent(text: string)
    ensures NonSpace(Concat(Sentences(text))) == NonSpace(text)
  {
    var segs := Segments(text, 0, 0);
    SegmentsConcat(text, 0, 0);
    TrimAllKeepsContent(segs);
    FilterNonEmptyKeepsConcat(TrimAll(segs));
  }

  /** A text has sentences exactly when it has a non-whitespace character. */
  lemma SentencesEmptyIffBlank(text: string)
    ensures Sentences(text) == [] <==> !HasContent(text)
  {
    var ss := Sentences(text);
    SentencesKeepContent(text);
    HasContentNonSpace(text);
    if ss != [] {
      var first := ss[0];
      assert !IsSpace(first[0]);
      assert NonSpace(first) == [first[0]] + NonSpace(first[1..]);
      NonSpaceAppend(first, Concat(ss[1..]));
    }
  }

  /** A line break can only be the last character of a segment. */
  predicate LineBreakOnlyAtEnd(seg: string) {
    forall j :: 0 <= j < |seg| - 1 ==> seg[j] != '\n'
  }

  lemma {:induction false} SegmentsLineBreakOnlyAtEnd(text: string, start: nat, i: nat)
    requires start <= i <= |text|
    requires forall j :: start <= j < i ==> text[j] != '\n'
    ensures forall seg :: seg in Segments(text, start, i) ==> LineBreakOnlyAtEnd(seg)
    decreases |text| - i
  {
    if i < |text| {
      if BreaksAfter(text, i) {
        SegmentsLineBreakOnlyAtEnd(text, i + 1, i + 1);
        assert LineBreakOnlyAtEnd(text[start..i + 1]);
      } else {
        assert text[i] != '\n';
        SegmentsLineBreakOnlyAtEnd(text, start, i + 1);
      }
    } else {
      assert LineBreakOnlyAtEnd(text[start..]);
    }
  }

  lemma TrimDropsFinalLineBreak(seg: string)
    requires LineBreakOnlyAtEnd(seg)
    ensures '\n' !in Trim(seg)
  {
    var r := Trim(seg);
    var k := LeadingSpaces(seg);
    forall p | 0 <= p < |r| ensures r[p] != '\n' {
      assert r[p] == seg[k + p];
      if p == |r| - 1 {
        assert !IsSpace(r[p]);
      }
    }
  }

  /** No sentence holds a line break: every line break ends a sentence. */
  lemma SentencesOneLine(text: string)
    ensures forall p :: p in Sentences(text) ==> '\n' !in p
  {
    var segs := Segments(text, 0, 0);
    SegmentsLineBreakOnlyAtEnd(text, 0, 0);
    TrimAllOneLine(segs);
  }

  lemma {:induction false} TrimAllOneLine(xs: seq<string>)
    requires forall x :: x in xs ==> LineBreakOnlyAtEnd(x)
    ensures forall y :: y in TrimAll(xs) ==> '\n' !in y
    decreases |xs|
  {
    if xs != [] {
      assert xs[0] in xs;
      TrimDropsFinalLineBreak(xs[0]);
      assert forall x :: x in xs[1..] ==> x in xs;
      TrimAllOneLine(xs[1..]);
    }
  }

  // ---------------------------------------------------------------------------
  // applyNaturalLineBreaks
  // ---------------------------------------------------------------------------

  lemma {:induction false} NonSpaceJoinLines(xs: seq<string>)
    ensures NonSpace(JoinWith(xs, "\n")) == NonSpace(Concat(xs))
    decreases |xs|
  {
    if |xs| == 1 {
      assert xs[1..] == [];
      assert Concat(xs) == xs[0] + Concat([]);
      assert xs[0] + Concat([]) == xs[0];
    } else if |xs| > 1 {
      NonSpaceJoinLines(xs[1..]);
      NonSpaceAppend(xs[0] + "\n", JoinWith(xs[1..], "\n"));
      NonSpaceAppend(xs[0], "\n");
      NonSpaceAppend(xs[0], Concat(xs[1..]));
      assert NonSpace("\n") == [];
    }
  }

  /** Lines joined by a character that none of them holds split back into the same lines. */
  lemma {:induction false} SplitJoinLines(xs: seq<string>, c: char)
    requires xs != []
    requires forall x :: x in xs ==> c !in x
    ensures SplitOnChar(JoinWith(xs, [c]), c) == xs
    decreases |xs|
  {
    var j := JoinWith(xs, [c]);
    assert xs[0] in xs;
    if |xs| == 1 {
      assert j == xs[0];
      assert IndexOfChar(j, c) == |j|;
    } else {
      var rest := JoinWith(xs[1..], [c]);
      assert j == xs[0] + [c] + rest;
      assert IndexOfChar(j, c) == |xs[0]| by {
        assert j[|xs[0]|] == c;
        assert forall i :: 0 <= i < |xs[0]| ==> j[i] == xs[0][i];
      }
      assert j[..|xs[0]|] == xs[0];
      assert j[|xs[0]| + 1..] == rest;
      SplitJoinLines(xs[1..], c);
    }
  }

  /**
   * `applyNaturalLineBreaks`: a text with content becomes its sentences,
   * one per line; an empty or blank text is returned as it is.
   */
  function NaturalLineBreaks(text: string): (r: string)
    ensures NonSpace(r) == NonSpace(text)
    ensures !HasContent(text) ==> r == text
    ensures HasContent(text) ==> SplitOnChar(r, '\n') == Sentences(text)
  {
    SentencesEmptyIffBlank(text);
    SentencesKeepContent(text);
    SentencesOneLine(text);
    if text == "" then text
    else
      var sentences := Sentences(text);
      if sentences == [] then text
      else
        NonSpaceJoinLines(sentences);
        SplitJoinLines(sentences, '\n');
        JoinWith(sentences, "\n")
  }

  /** `applyNaturalLineBreaks`, calling the `splitSentences` loop. */
  method ApplyNaturalLineBreaks(text: string) returns (r: string)
    ensures r == NaturalLineBreaks(text)
  {
    if text == "" {
      return text;
    }
    var sentences := SplitSentences(text);
    if |sentences| == 0 {
      return text;
    }
    r := JoinWith(sentences, "\n");
  }
}

=== FILE: text.dfy ===
/**
 * String helpers with the semantics of the JavaScript built-ins the extension
 * relies on (`trim`, `split`, `join`, `/\S/`, `String(n)`).  Strings are
 * sequences of characters; lengths are counted in characters.
 */
module Text {
  import opened Wrappers

  /** JavaScript `\s`: the WhiteSpace and LineTerminator code points of ECMAScript. */
  const Whitespace: set<char> := {
    '\t', '\n', '\U{B}', '\U{C}', '\r', ' ', '\U{A0}', '\U{1680}',
    '\U{2000}', '\U{2001}', '\U{2002}', '\U{2003}', '\U{2004}', '\U{2005}',
    '\U{2006}', '\U{2007}', '\U{2008}', '\U{2009}', '\U{200A}',
    '\U{2028}', '\U{2029}', '\U{202F}', '\U{205F}', '\U{3000}', '\U{FEFF}'
  }

  predicate IsSpace(c: char) {
    c in Whitespace
  }

  /** `/\S/.test(s)`: the string holds a character that is not whitespace. */
  predicate HasContent(s: string) {
    exists i :: 0 <= i < |s| && !IsSpace(s[i])
  }

  /** Neither end of the string is whitespace. */
  predicate IsTrimmed(s: string) {
    s == [] || (!IsSpace(s[0]) && !IsSpace(s[|s| - 1]))
  }

  predicate StartsWith(s: string, prefix: string) {
    prefix <= s
  }

  predicate EndsWith(s: string, suffix: string) {
    |suffix| <= |s| && s[|s| - |suffix|..] == suffix
  }

  /** `t` occurs in `s` starting at index `i`. */
  predicate OccursAt(s: string, t: string, i: int) {
    0 <= i <= |s| - |t| && s[i..i + |t|] == t
  }

  /** `t` occurs in `s` as a contiguous piece. */
  ghost predicate Contains(s: string, t: string) {
    exists i :: OccursAt(s, t, i)
  }

  /** The number of whitespace characters `s` starts with. */
  function LeadingSpaces(s: string): (n: nat)
    ensures n <= |s|
    ensures forall i :: 0 <= i < n ==> IsSpace(s[i])
    ensures n < |s| ==> !IsSpace(s[n])
  {
    if s != [] && IsSpace(s[0]) then 1 + LeadingSpaces(s[1..]) else 0
  }

  /** The number of whitespace characters `s` ends with. */
  function TrailingSpaces(s: string): (n: nat)
    ensures n <= |s|
    ensures forall i :: |s| - n <= i < |s| ==> IsSpace(s[i])
    ensures n < |s| ==> !IsSpace(s[|s| - n - 1])
  {
    if s != [] && IsSpace(s[|s| - 1]) then 1 + TrailingSpaces(s[..|s| - 1]) else 0
  }

  /** `s.replace(/^\s+/, '')`: drops the leading whitespace. */
  function TrimStart(s: string): (r: string)
    ensures |r| <= |s| && r == s[|s| - |r|..]
    ensures r == [] || !IsSpace(r[0])
    ensures forall i :: 0 <= i < |s| - |r| ==> IsSpace(s[i])
  {
    s[LeadingSpaces(s)..]
  }

  /** `s.replace(/\s+$/u, '')`: drops the trailing whitespace. */
  function TrimEnd(s: string): (r: string)
    ensures |r| <= |s| && r == s[..|r|]
    ensures r == [] || !IsSpace(r[|r| - 1])
    ensures forall i :: |r| <= i < |s| ==> IsSpace(s[i])
  {
    s[..|s| - TrailingSpaces(s)]
  }

  /** `s` is `r` with only whitespace before it (`k` characters) and after it. */
  predicate IsBlankPadding(s: string, r: string, k: int) {
    && 0 <= k <= |s| - |r| && r == s[k..k + |r|]
    && (forall i :: 0 <= i < k ==> IsSpace(s[i]))
    && (forall i :: k + |r| <= i < |s| ==> IsSpace(s[i]))
  }

  /**
   * `s.trim()`: the result is the slice of `s` left once the whitespace at
   * both ends is removed, and no more.
   */
  function Trim(s: string): (r: string)
    ensures IsTrimmed(r)
    ensures IsBlankPadding(s, r, LeadingSpaces(s))
  {
    var k := LeadingSpaces(s);
    if k == |s| then []
    else
      var n := TrailingSpaces(s);
      // s[k] is not whitespace while the last n characters are
      assert k < |s| - n;
      s[k..|s| - n]
  }

  /** The characters of `s` that are not whitespace, in order. */
  function NonSpace(s: string): string {
    if s == [] then [] else (if IsSpace(s[0]) then [] else [s[0]]) + NonSpace(s[1..])
  }

  lemma EmptyConcat<T>(a: seq<T>, b: seq<T>)
    requires a == []
    ensures a + b == b
  {
  }

  lemma ConcatAssoc<T>(a: seq<T>, b: seq<T>, c: seq<T>)
    ensures a + (b + c) == a + b + c
  {
  }

  /** The characters of `s` other than `c`, in order. */
  function Without(s: string, c: char): (r: string)
    ensures c !in r
  {
    if s == [] then [] else (if s[0] == c then [] else [s[0]]) + Without(s[1..], c)
  }

  lemma {:induction false} WithoutAppend(a: string, b: string, c: char)
    ensures Without(a + b, c) == Without(a, c) + Without(b, c)
    decreases |a|
  {
    if a == [] {
      EmptyConcat(a, b);
      EmptyConcat(Without(a, c), Without(b, c));
    } else {
      var head := if a[0] == c then [] else [a[0]];
      assert (a + b)[0] == a[0] && (a + b)[1..] == a[1..] + b;
      WithoutAppend(a[1..], b, c);
      ConcatAssoc(head, Without(a[1..], c), Without(b, c));
    }
  }

  lemma {:induction false} WithoutAbsent(s: string, c: char)
    requires c !in s
    ensures Without(s, c) == s
    decreases |s|
  {
    if s != [] {
      WithoutAbsent(s[1..], c);
    }
  }

  lemma {:induction false} WithoutAll(s: string, c: char)
    requires forall i :: 0 <= i < |s| ==> s[i] == c
    ensures Without(s, c) == []
    decreases |s|
  {
    if s != [] {
      WithoutAll(s[1..], c);
    }
  }

  /** No two line breaks in a row. */
  predicate NoEmptyLine(s: string) {
    forall i :: 0 <= i < |s| - 1 ==> !(s[i] == '\n' && s[i + 1] == '\n')
  }

  /** `n` line breaks. */
  function LineBreaks(n: nat): (r: string)
    ensures |r| == n
    ensures forall i :: 0 <= i < n ==> r[i] == '\n'
  {
    if n == 0 then "" else "\n" + LineBreaks(n - 1)
  }

  /** How many times `c` occurs in `s`. */
  function CountChar(s: string, c: char): nat {
    if s == [] then 0 else (if s[0] == c then 1 else 0) + CountChar(s[1..], c)
  }

  lemma {:induction false} CountCharAppend(a: string, b: string, c: char)
    ensures CountChar(a + b, c) == CountChar(a, c) + CountChar(b, c)
    decreases |a|
  {
    if a == [] {
      assert a + b == b;
    } else {
      assert (a + b)[1..] == a[1..] + b;
      CountCharAppend(a[1..], b, c);
    }
  }

  lemma {:induction false} NonSpaceAppend(a: string, b: string)
    ensures NonSpace(a + b) == NonSpace(a) + NonSpace(b)
    decreases |a|
  {
    if a != [] {
      assert (a + b)[0] == a[0];
      assert (a + b)[1..] == a[1..] + b;
      NonSpaceAppend(a[1..], b);
    } else {
      assert a + b == b;
    }
  }

  lemma {:induction false} NonSpaceOfBlank(s: string)
    requires forall i :: 0 <= i < |s| ==> IsSpace(s[i])
    ensures NonSpace(s) == []
    decreases |s|
  {
    if s != [] {
      NonSpaceOfBlank(s[1..]);
    }
  }

  /** A string has content exactly when it has a non-whitespace character. */
  lemma {:induction false} HasContentNonSpace(s: string)
    ensures HasContent(s) <==> NonSpace(s) != []
    decreases |s|
  {
    if s != [] {
      HasContentNonSpace(s[1..]);
      if HasContent(s) && IsSpace(s[0]) {
        var i :| 0 <= i < |s| && !IsSpace(s[i]);
        assert !IsSpace(s[1..][i - 1]);
      }
      if HasContent(s[1..]) {
        var i :| 0 <= i < |s[1..]| && !IsSpace(s[1..][i]);
        assert !IsSpace(s[i + 1]);
      }
    }
  }

  /** Whitespace around a string adds no non-whitespace character. */
  lemma NonSpaceOfPadded(a: string, r: string, b: string)
    requires forall i :: 0 <= i < |a| ==> IsSpace(a[i])
    requires forall i :: 0 <= i < |b| ==> IsSpace(b[i])
    ensures NonSpace(a + r + b) == NonSpace(r)
  {
    NonSpaceAppend(a + r, b);
    NonSpaceAppend(a, r);
    NonSpaceOfBlank(a);
    NonSpaceOfBlank(b);
  }

  /** Trimming keeps every non-whitespace character, in order. */
  lemma TrimKeepsContent(s: string)
    ensures NonSpace(Trim(s)) == NonSpace(s)
  {
    var r := Trim(s);
    var k := LeadingSpaces(s);
    var before, after := s[..k], s[k + |r|..];
    assert s == before + r + after;
    NonSpaceOfPadded(before, r, after);
  }

  /** Trimming leaves an empty string exactly when the input was blank. */
  lemma TrimEmptyIffBlank(s: string)
    ensures Trim(s) == [] <==> !HasContent(s)
  {
    TrimKeepsContent(s);
    HasContentNonSpace(s);
    var r := Trim(s);
    if r != [] {
      assert !IsSpace(r[0]);
      assert NonSpace(r) == [r[0]] + NonSpace(r[1..]);
    }
  }

  /** Trimming a string that is already trimmed changes nothing. */
  lemma TrimOfTrimmed(s: string)
    requires IsTrimmed(s)
    ensures Trim(s) == s
  {
    var r := Trim(s);
    var k := LeadingSpaces(s);
    if s != [] {
      assert k == 0;
      assert k + |r| == |s|;
    }
  }

  /** Trimming only removes characters. */
  lemma TrimKeepsAbsent(s: string, c: char)
    requires c !in s
    ensures c !in Trim(s)
  {
    var r := Trim(s);
    var k := LeadingSpaces(s);
    assert forall i :: 0 <= i < |r| ==> r[i] == s[k + i];
  }

  /** `xs.join(sep)`. */
  function JoinWith(xs: seq<string>, sep: string): string {
    if |xs| == 0 then "" else if |xs| == 1 then xs[0] else xs[0] + sep + JoinWith(xs[1..], sep)
  }

  /** Joining a list with at least two entries puts the separator after the first. */
  lemma JoinCons(head: string, tail: seq<string>, sep: string)
    requires |tail| >= 1
    ensures JoinWith([head] + tail, sep) == head + sep + JoinWith(tail, sep)
  {
    assert ([head] + tail)[1..] == tail;
  }

  /** Index of the first `c` in `s`, or `|s|` when there is none. */
  function IndexOfChar(s: string, c: char): (i: nat)
    ensures i <= |s|
    ensures i < |s| ==> s[i] == c
    ensures forall j :: 0 <= j < i ==> s[j] != c
  {
    if s == [] then 0 else if s[0] == c then 0 else 1 + IndexOfChar(s[1..], c)
  }

  /** `s.split(c)` for a one-character separator. */
  function SplitOnChar(s: string, c: char): (parts: seq<string>)
    ensures |parts| >= 1
    ensures forall k :: 0 <= k < |parts| ==> c !in parts[k]
    decreases |s|
  {
    var i := IndexOfChar(s, c);
    if i == |s| then [s] else [s[..i]] + SplitOnChar(s[i + 1..], c)
  }

  /** Splitting on a character and joining with it again gives the input back. */
  lemma {:induction false} JoinSplitOnChar(s: string, c: char)
    ensures JoinWith(SplitOnChar(s, c), [c]) == s
    decreases |s|
  {
    var i := IndexOfChar(s, c);
    if i < |s| {
      JoinSplitOnChar(s[i + 1..], c);
      var rest := SplitOnChar(s[i + 1..], c);
      assert SplitOnChar(s, c) == [s[..i]] + rest;
      assert ([s[..i]] + rest)[1..] == rest;
      assert s == s[..i] + [c] + s[i + 1..];
    }
  }

  /** `xs` can be obtained from `ys` by deleting elements: it keeps their order. */
  predicate IsSubsequence<T(==)>(xs: seq<T>, ys: seq<T>)
    decreases |ys|
  {
    if xs == [] then true
    else if ys == [] then false
    else if xs[0] == ys[0] then IsSubsequence(xs[1..], ys[1..])
    else IsSubsequence(xs, ys[1..])
  }

  /**
   * A subsequence of `xs` that never holds `d` has at most one entry for
   * each entry of `xs` other than `d`.
   */
  lemma {:induction false} AvoidingSubsequenceBound<T>(r: seq<T>, xs: seq<T>, d: T)
    requires IsSubsequence(r, xs) && d !in r
    ensures |r| <= |xs| - multiset(xs)[d]
    decreases |xs|
  {
    if xs != [] {
      assert xs == [xs[0]] + xs[1..];
      if r != [] && r[0] == xs[0] {
        AvoidingSubsequenceBound(r[1..], xs[1..], d);
      } else {
        AvoidingSubsequenceBound(r, xs[1..], d);
      }
    }
  }

  /**
   * There is only one way to keep every entry of `xs` other than `d`, in
   * order: two subsequences that avoid `d` and have that many entries are
   * equal.
   */
  lemma {:induction false} AvoidingSubsequenceUnique<T>(r1: seq<T>, r2: seq<T>, xs: seq<T>, d: T)
    requires IsSubsequence(r1, xs) && d !in r1 && |r1| == |xs| - multiset(xs)[d]
    requires IsSubsequence(r2, xs) && d !in r2 && |r2| == |xs| - multiset(xs)[d]
    ensures r1 == r2
    decreases |xs|
  {
    if xs != [] {
      assert xs == [xs[0]] + xs[1..];
      if xs[0] == d {
        AvoidingSubsequenceUnique(r1, r2, xs[1..], d);
      } else {
        KeepsHead(r1, xs, d);
        KeepsHead(r2, xs, d);
        AvoidingSubsequenceUnique(r1[1..], r2[1..], xs[1..], d);
        assert r1 == [r1[0]] + r1[1..] && r2 == [r2[0]] + r2[1..];
      }
    }
  }

  /** Such a subsequence starts with the first entry of `xs` when that entry is not `d`. */
  lemma KeepsHead<T>(r: seq<T>, xs: seq<T>, d: T)
    requires xs != [] && xs[0] != d
    requires IsSubsequence(r, xs) && d !in r && |r| == |xs| - multiset(xs)[d]
    ensures r != [] && r[0] == xs[0] && IsSubsequence(r[1..], xs[1..]) && d !in r[1..]
    ensures |r[1..]| == |xs[1..]| - multiset(xs[1..])[d]
  {
    assert xs == [xs[0]] + xs[1..];
    if r == [] || r[0] != xs[0] {
      AvoidingSubsequenceBound(r, xs[1..], d);
    }
  }

  /**
   * `xs.filter(Boolean)` on strings: every non-empty entry, in order, as
   * many times as it occurs (with IsSubsequence the count leaves no choice,
   * see FilterNonEmptyUnique).
   */
  function FilterNonEmpty(xs: seq<string>): (r: seq<string>)
    ensures |r| == |xs| - multiset(xs)[[]]
    ensures forall k :: 0 <= k < |r| ==> r[k] != []
    ensures IsSubsequence(r, xs)
    ensures forall x :: x in r ==> x in xs
    ensures forall x :: x in xs && x != [] ==> x in r
    ensures (forall k :: 0 <= k < |xs| ==> xs[k] != []) ==> r == xs
  {
    if xs == [] then []
    else
      var rest := FilterNonEmpty(xs[1..]);
      assert xs == [xs[0]] + xs[1..];
      if xs[0] == [] then
        assert rest == [] || rest[0] != xs[0];
        rest
      else
        assert ([xs[0]] + rest)[1..] == rest;
        [xs[0]] + rest
  }

  /** Any order-keeping selection of all the non-empty entries is the filter's result. */
  lemma FilterNonEmptyUnique(r: seq<string>, xs: seq<string>)
    requires IsSubsequence(r, xs) && [] !in r && |r| == |xs| - multiset(xs)[[]]
    ensures r == FilterNonEmpty(xs)
  {
    AvoidingSubsequenceUnique(r, FilterNonEmpty(xs), xs, []);
  }

  /** Each value wrapped as present. */
  function SomeOf<T>(xs: seq<T>): (r: seq<Option<T>>)
    ensures |r| == |xs| && None !in r
    ensures forall k :: 0 <= k < |xs| ==> r[k] == Some(xs[k])
  {
    seq(|xs|, k requires 0 <= k < |xs| => Some(xs[k]))
  }

  /**
   * The values present, in order (`filter(Boolean)` after a map that yields
   * null for rejects): one for every present entry.
   */
  function KeepSome<T(!new)>(xs: seq<Option<T>>): (r: seq<T>)
    ensures |r| == |xs| - multiset(xs)[None]
    ensures IsSubsequence(SomeOf(r), xs)
    ensures forall x :: x in r <==> Some(x) in xs
  {
    if xs == [] then []
    else
      var rest := KeepSome(xs[1..]);
      assert xs == [xs[0]] + xs[1..];
      KeepSomeStep(rest, xs[0], xs[1..]);
      KeepSomeMembers(rest, xs[0], xs[1..]);
      if xs[0].Some? then [xs[0].value] + rest else rest
  }

  lemma KeepSomeMembers<T>(rest: seq<T>, x: Option<T>, tail: seq<Option<T>>)
    requires forall y :: y in rest <==> Some(y) in tail
    ensures var r := if x.Some? then [x.value] + rest else rest;
            forall y :: y in r <==> Some(y) in [x] + tail
  {
    assert forall y :: Some(y) in [x] + tail <==> x == Some(y) || Some(y) in tail;
  }

  /** Putting one more entry in front keeps a result that selects every present value. */
  lemma KeepSomeStep<T>(rest: seq<T>, x: Option<T>, tail: seq<Option<T>>)
    requires IsSubsequence(SomeOf(rest), tail) && |rest| == |tail| - multiset(tail)[None]
    ensures var r := if x.Some? then [x.value] + rest else rest;
            IsSubsequence(SomeOf(r), [x] + tail) && |r| == |[x] + tail| - multiset([x] + tail)[None]
  {
    KeepSomeStepOrder(rest, x, tail);
    assert multiset([x] + tail) == multiset([x]) + multiset(tail);
  }

  lemma KeepSomeStepOrder<T>(rest: seq<T>, x: Option<T>, tail: seq<Option<T>>)
    requires IsSubsequence(SomeOf(rest), tail)
    ensures IsSubsequence(SomeOf(if x.Some? then [x.value] + rest else rest), [x] + tail)
  {
    assert ([x] + tail)[1..] == tail;
    if x.Some? {
      assert SomeOf([x.value] + rest)[1..] == SomeOf(rest);
    } else {
      assert SomeOf(rest) == [] || SomeOf(rest)[0] != None;
    }
  }

  /** Any order-keeping selection of all the present values is KeepSome's result. */
  lemma KeepSomeUnique<T(!new)>(r: seq<T>, xs: seq<Option<T>>)
    requires IsSubsequence(SomeOf(r), xs) && |r| == |xs| - multiset(xs)[None]
    ensures r == KeepSome(xs)
  {
    var k := KeepSome(xs);
    AvoidingSubsequenceUnique(SomeOf(r), SomeOf(k), xs, None);
    assert forall i :: 0 <= i < |r| ==> Some(r[i]) == SomeOf(r)[i] == SomeOf(k)[i] == Some(k[i]);
  }

  function DigitChar(d: nat): char
    requires d < 10
  {
    "0123456789"[d]
  }

  /** `String(n)` for a non-negative integer: its decimal digits. */
  function NatToString(n: nat): (r: string)
    ensures |r| >= 1
    ensures forall k :: 0 <= k < |r| ==> '0' <= r[k] <= '9'
    ensures n < 10 ==> r == [DigitChar(n)]
  {
    if n < 10 then [DigitChar(n)] else NatToString(n / 10) + [DigitChar(n % 10)]
  }
}

=== FILE: whitespace.dfy ===
/**
 * `normalizeWhitespacePreservingParagraphs` (src/content-script.js:708-716):
 * five global regular-expression replacements followed by `trim()`.  Each
 * replacement is written as a recursion that looks at the first character(s)
 * and either keeps, rewrites or drops one character; the comments say which
 * regular expression each one stands for.
 */
module Whitespace {
  import opened Text

  const NoBreakSpace: char := '\U{A0}'
  const ZeroWidthSpace: char := '\U{200B}'

  /** `[ \t]`. */
  predicate IsBlank(c: char) {
    c == ' ' || c == '\t'
  }

  /** No two neighbouring characters are both spaces or tabs. */
  predicate NoBlankRun(s: string) {
    forall i :: 0 <= i < |s| - 1 ==> !(IsBlank(s[i]) && IsBlank(s[i + 1]))
  }

  /** No space stands directly before or after a line break. */
  predicate NoSpaceBesideNewline(s: string) {
    forall i :: 0 <= i < |s| - 1 ==> !(s[i] == ' ' && s[i + 1] == '\n') && !(s[i] == '\n' && s[i + 1] == ' ')
  }

  /** No three consecutive line breaks. */
  predicate NoTripleNewline(s: string) {
    forall i :: 0 <= i < |s| - 2 ==> !(s[i] == '\n' && s[i + 1] == '\n' && s[i + 2] == '\n')
  }

  // ---------------------------------------------------------------------------
  // The five replacements
  // ---------------------------------------------------------------------------

  /** `replace(/\r\n?/g, '\n')`: a `\r` directly before `\n` is dropped, any other `\r` becomes `\n`. */
  function UnifyLineEnds(s: string): (r: string)
    ensures '\r' !in r
    ensures forall c :: c in r ==> c in s || c == '\n'
  {
    if s == [] then []
    else if s[0] == '\r' && |s| > 1 && s[1] == '\n' then UnifyLineEnds(s[1..])
    else if s[0] == '\r' then "\n" + UnifyLineEnds(s[1..])
    else [s[0]] + UnifyLineEnds(s[1..])
  }

  /** `replace(/[\u00A0\u200B]/g, ' ')`: no-break and zero-width spaces become plain spaces. */
  function ReplaceWideSpaces(s: string): (r: string)
    ensures |r| == |s|
    ensures forall c :: c in r ==> c in s || c == ' '
    ensures NoBreakSpace !in r && ZeroWidthSpace !in r
  {
    if s == [] then []
    else [if s[0] == NoBreakSpace || s[0] == ZeroWidthSpace then ' ' else s[0]] + ReplaceWideSpaces(s[1..])
  }

  /** `replace(/[ \t]+/g, ' ')`: of two neighbouring blanks the first is dropped, a blank left alone becomes a space. */
  function CollapseBlanks(s: string): (r: string)
    ensures '\t' !in r
    ensures forall c :: c in r ==> c in s || c == ' '
    ensures s != [] ==> r != [] && r[0] == (if IsBlank(s[0]) then ' ' else s[0])
  {
    if s == [] then []
    else if IsBlank(s[0]) && |s| > 1 && IsBlank(s[1]) then CollapseBlanks(s[1..])
    else if IsBlank(s[0]) then " " + CollapseBlanks(s[1..])
    else [s[0]] + CollapseBlanks(s[1..])
  }

  /** The spaces at the start of `s` (maybe none) are followed by a line break. */
  predicate LineBreakAhead(s: string) {
    s != [] && (s[0] == '\n' || (s[0] == ' ' && LineBreakAhead(s[1..])))
  }

  /** `s` without its leading spaces. */
  function DropSpaces(s: string): (r: string)
    ensures r == [] || r[0] != ' '
    ensures |r| <= |s| && r == s[|s| - |r|..]
    ensures forall i :: 0 <= i < |s| - |r| ==> s[i] == ' '
  {
    if s != [] && s[0] == ' ' then DropSpaces(s[1..]) else s
  }

  /**
   * Every match of `( )*\n( )*` replaced by `\n`: a space that a line break follows (after
   * more spaces, maybe) is dropped, and so are the spaces after a line break.
   */
  function TightenLineBreaks(s: string): (r: string)
    ensures forall c :: c in r ==> c in s
    ensures s != [] ==> r != [] && r[0] == (if LineBreakAhead(s) then '\n' else s[0])
  {
    if s == [] then []
    else if s[0] == '\n' then "\n" + TightenLineBreaks(DropSpaces(s[1..]))
    else if s[0] == ' ' && LineBreakAhead(s) then
      assert LineBreakAhead(s[1..]);
      TightenLineBreaks(s[1..])
    else [s[0]] + TightenLineBreaks(s[1..])
  }

  /** `replace(/\n{3,}/g, '\n\n')`: a line break that two more follow is dropped. */
  function CapLineBreaks(s: string): (r: string)
    ensures |r| <= |s|
    ensures forall c :: c in r ==> c in s
    ensures s != [] ==> r != [] && r[0] == s[0]
    ensures |s| >= 2 ==> |r| >= 2 && r[1] == s[1]
  {
    if s == [] then []
    else if |s| >= 3 && s[0] == '\n' && s[1] == '\n' && s[2] == '\n' then CapLineBreaks(s[1..])
    else [s[0]] + CapLineBreaks(s[1..])
  }

  /** The five replacements in order, before the final `trim()`. */
  function Squeeze(s: string): (r: string)
    ensures '\r' !in r && '\t' !in r
    ensures NoBreakSpace !in r && ZeroWidthSpace !in r
    ensures NoBlankRun(r)
    ensures NoSpaceBesideNewline(r)
    ensures NoTripleNewline(r)
  {
    var plain := ReplaceWideSpaces(UnifyLineEnds(s));
    var collapsed := CollapseBlanks(plain);
    var tightened := TightenLineBreaks(collapsed);
    CollapseNoBlankRun(plain);
    TightenKeepsNoBlankRun(collapsed);
    TightenNoSpaceBesideNewline(collapsed);
    CapKeepsSpacing(tightened);
    CapNoTripleNewline(tightened);
    CapLineBreaks(tightened)
  }

  /**
   * `normalizeWhitespacePreservingParagraphs`: line ends unified, wide
   * spaces made plain, blank runs collapsed, spaces around line breaks
   * removed, blank-line runs capped at one blank line, then trimmed.
   */
  function Normalize(s: string): (r: string)
    ensures '\r' !in r && '\t' !in r
    ensures NoBreakSpace !in r && ZeroWidthSpace !in r
    ensures NoBlankRun(r)
    ensures NoSpaceBesideNewline(r)
    ensures NoTripleNewline(r)
    ensures IsTrimmed(r)
  {
    var squeezed := Squeeze(s);
    TrimKeepsSpacing(squeezed);
    TrimKeepsAbsent(squeezed, '\r');
    TrimKeepsAbsent(squeezed, '\t');
    TrimKeepsAbsent(squeezed, NoBreakSpace);
    TrimKeepsAbsent(squeezed, ZeroWidthSpace);
    Trim(squeezed)
  }

  // ---------------------------------------------------------------------------
  // Spacing properties of each replacement
  // ---------------------------------------------------------------------------

  lemma {:induction false} CollapseNoBlankRun(s: string)
    ensures NoBlankRun(CollapseBlanks(s))
    decreases |s|
  {
    if s != [] {
      CollapseNoBlankRun(s[1..]);
    }
  }

  lemma {:induction false} TightenKeepsNoBlankRun(s: string)
    requires NoBlankRun(s)
    ensures NoBlankRun(TightenLineBreaks(s))
    decreases |s|
  {
    if s != [] {
      var rest := if s[0] == '\n' then DropSpaces(s[1..]) else s[1..];
      assert NoBlankRun(rest) by {
        forall i | 0 <= i < |rest| - 1 ensures !(IsBlank(rest[i]) && IsBlank(rest[i + 1])) {
          var off := |s| - |rest|;
          assert rest[i] == s[off + i] && rest[i + 1] == s[off + i + 1];
        }
      }
      TightenKeepsNoBlankRun(rest);
      if s[0] != '\n' && !(s[0] == ' ' && LineBreakAhead(s)) && IsBlank(s[0]) && |s| > 1 {
        assert !IsBlank(s[1]);
        if LineBreakAhead(s[1..]) {
          assert s[1] == '\n';
        }
      }
    }
  }

  lemma {:induction false} TightenNoSpaceBesideNewline(s: string)
    ensures NoSpaceBesideNewline(TightenLineBreaks(s))
    decreases |s|
  {
    if s != [] {
      if s[0] == '\n' {
        TightenNoSpaceBesideNewline(DropSpaces(s[1..]));
      } else {
        TightenNoSpaceBesideNewline(s[1..]);
      }
    }
  }

  lemma {:induction false} CapKeepsSpacing(s: string)
    ensures NoBlankRun(s) ==> NoBlankRun(CapLineBreaks(s))
    ensures NoSpaceBesideNewline(s) ==> NoSpaceBesideNewline(CapLineBreaks(s))
    decreases |s|
  {
    if s != [] {
      CapKeepsSpacing(s[1..]);
      assert NoBlankRun(s) ==> NoBlankRun(s[1..]) by {
        if NoBlankRun(s) {
          forall i | 0 <= i < |s[1..]| - 1 ensures !(IsBlank(s[1..][i]) && IsBlank(s[1..][i + 1])) {
            assert s[1..][i] == s[i + 1];
          }
        }
      }
      assert NoSpaceBesideNewline(s) ==> NoSpaceBesideNewline(s[1..]) by {
        if NoSpaceBesideNewline(s) {
          forall i | 0 <= i < |s[1..]| - 1
            ensures !(s[1..][i] == ' ' && s[1..][i + 1] == '\n') && !(s[1..][i] == '\n' && s[1..][i + 1] == ' ')
          {
            assert s[1..][i] == s[i + 1];
          }
        }
      }
    }
  }

  lemma {:induction false} CapNoTripleNewline(s: string)
    ensures NoTripleNewline(CapLineBreaks(s))
    decreases |s|
  {
    if s != [] {
      CapNoTripleNewline(s[1..]);
      var r := CapLineBreaks(s);
      if !(|s| >= 3 && s[0] == '\n' && s[1] == '\n' && s[2] == '\n') && |s| >= 3 {
        var t := CapLineBreaks(s[1..]);
        assert r == [s[0]] + t;
        assert t[0] == s[1] && t[1] == s[2];
      }
    }
  }

  /** A slice keeps the spacing properties. */
  lemma SliceKeepsSpacing(s: string, a: nat, b: nat)
    requires a <= b <= |s|
    ensures NoBlankRun(s) ==> NoBlankRun(s[a..b])
    ensures NoSpaceBesideNewline(s) ==> NoSpaceBesideNewline(s[a..b])
    ensures NoTripleNewline(s) ==> NoTripleNewline(s[a..b])
  {
    var t := s[a..b];
    assert forall i :: 0 <= i < |t| ==> t[i] == s[a + i];
  }

  lemma TrimKeepsSpacing(s: string)
    requires NoBlankRun(s) && NoSpaceBesideNewline(s) && NoTripleNewline(s)
    ensures NoBlankRun(Trim(s)) && NoSpaceBesideNewline(Trim(s)) && NoTripleNewline(Trim(s))
  {
    var t, k := Trim(s), LeadingSpaces(s);
    assert IsBlankPadding(s, t, k);
    SliceKeepsSpacing(s, k, k + |t|);
  }

  // ---------------------------------------------------------------------------
  // Normal text is left as it is
  // ---------------------------------------------------------------------------

  /** Text as `Normalize` leaves it: every property its contract promises. */
  predicate IsNormal(s: string) {
    && '\r' !in s && '\t' !in s && NoBreakSpace !in s && ZeroWidthSpace !in s
    && NoBlankRun(s) && NoSpaceBesideNewline(s) && NoTripleNewline(s)
    && IsTrimmed(s)
  }

  lemma {:induction false} UnifyFixesPlain(s: string)
    requires '\r' !in s
    ensures UnifyLineEnds(s) == s
    decreases |s|
  {
    if s != [] {
      UnifyFixesPlain(s[1..]);
    }
  }

  lemma {:induction false} WideFixesPlain(s: string)
    requires NoBreakSpace !in s && ZeroWidthSpace !in s
    ensures ReplaceWideSpaces(s) == s
    decreases |s|
  {
    if s != [] {
      WideFixesPlain(s[1..]);
    }
  }

  lemma {:induction false} CollapseFixesSingle(s: string)
    requires '\t' !in s && NoBlankRun(s)
    ensures CollapseBlanks(s) == s
    decreases |s|
  {
    if s != [] {
      SliceKeepsSpacing(s, 1, |s|);
      CollapseFixesSingle(s[1..]);
      CollapseStep(s);
    }
  }

  /** One step of the collapsing pass on text without blank runs: the first character is kept. */
  lemma CollapseStep(s: string)
    requires s != [] && '\t' !in s && NoBlankRun(s)
    ensures CollapseBlanks(s) == [s[0]] + CollapseBlanks(s[1..])
  {
    if IsBlank(s[0]) {
      assert s[0] == ' ';
      assert |s| > 1 ==> !IsBlank(s[1]);
    }
  }

  /** Without a space beside a line break and without blank runs, no space has a line break ahead. */
  lemma NoLineBreakAhead(s: string)
    requires s != [] && s[0] != '\n' && NoBlankRun(s) && NoSpaceBesideNewline(s)
    ensures !LineBreakAhead(s)
  {
    if s[0] == ' ' && |s| > 1 {
      assert s[1] != '\n' && s[1] != ' ';
    }
  }

  lemma {:induction false} TightenFixesTight(s: string)
    requires NoBlankRun(s) && NoSpaceBesideNewline(s)
    ensures TightenLineBreaks(s) == s
    decreases |s|
  {
    if s != [] {
      SliceKeepsSpacing(s, 1, |s|);
      TightenFixesTight(s[1..]);
      TightenStep(s);
    }
  }

  /** One step of the tightening pass on tight text: the first character is kept as it is. */
  lemma TightenStep(s: string)
    requires s != [] && NoBlankRun(s) && NoSpaceBesideNewline(s)
    ensures TightenLineBreaks(s) == [s[0]] + TightenLineBreaks(s[1..])
  {
    if s[0] == '\n' {
      assert |s| > 1 ==> s[1] != ' ';
      assert DropSpaces(s[1..]) == s[1..];
    } else {
      NoLineBreakAhead(s);
    }
  }

  lemma {:induction false} CapFixesCapped(s: string)
    requires NoTripleNewline(s)
    ensures CapLineBreaks(s) == s
    decreases |s|
  {
    if s != [] {
      SliceKeepsSpacing(s, 1, |s|);
      CapFixesCapped(s[1..]);
    }
  }

  /**
   * Text that is already normal (single spaces between words, at most one
   * blank line between paragraphs, trimmed) comes back unchanged: no line
   * break and no word space that normal text holds is removed.
   */
  lemma NormalizeFixesNormal(s: string)
    requires IsNormal(s)
    ensures Normalize(s) == s
  {
    UnifyFixesPlain(s);
    WideFixesPlain(s);
    CollapseFixesSingle(s);
    TightenFixesTight(s);
    CapFixesCapped(s);
    assert Squeeze(s) == s;
    TrimOfTrimmed(s);
  }

  /** Character `i` of `a + sep + b`, by the piece it falls in. */
  lemma CharOfJoin(a: string, sep: string, b: string, i: nat)
    requires i < |a| + |sep| + |b|
    ensures (a + sep + b)[i] == if i < |a| then a[i] else if i < |a| + |sep| then sep[i - |a|] else b[i - |a| - |sep|]
  {
  }

  /** The separators a paragraph or a sentence can be joined with: neither end is a space. */
  predicate IsJoint(sep: string) {
    sep == "\n\n" || sep == "\n" || sep == " "
  }

  lemma JoinNoBlankRun(a: string, sep: string, b: string)
    requires NoBlankRun(a) && NoBlankRun(b) && a != [] && b != [] && IsJoint(sep)
    requires !IsSpace(a[|a| - 1]) && !IsSpace(b[0])
    ensures NoBlankRun(a + sep + b)
  {
    var t := a + sep + b;
    forall i | 0 <= i < |t| - 1 ensures !(IsBlank(t[i]) && IsBlank(t[i + 1])) {
      CharOfJoin(a, sep, b, i);
      CharOfJoin(a, sep, b, i + 1);
    }
  }

  lemma JoinNoSpaceBesideNewline(a: string, sep: string, b: string)
    requires NoSpaceBesideNewline(a) && NoSpaceBesideNewline(b) && a != [] && b != [] && IsJoint(sep)
    requires !IsSpace(a[|a| - 1]) && !IsSpace(b[0])
    ensures NoSpaceBesideNewline(a + sep + b)
  {
    var t := a + sep + b;
    forall i | 0 <= i < |t| - 1 ensures !(t[i] == ' ' && t[i + 1] == '\n') && !(t[i] == '\n' && t[i + 1] == ' ') {
      CharOfJoin(a, sep, b, i);
      CharOfJoin(a, sep, b, i + 1);
    }
  }

  lemma JoinNoTripleNewline(a: string, sep: string, b: string)
    requires NoTripleNewline(a) && NoTripleNewline(b) && a != [] && b != [] && IsJoint(sep)
    requires !IsSpace(a[|a| - 1]) && !IsSpace(b[0])
    ensures NoTripleNewline(a + sep + b)
  {
    var t := a + sep + b;
    forall i | 0 <= i < |t| - 2 ensures !(t[i] == '\n' && t[i + 1] == '\n' && t[i + 2] == '\n') {
      CharOfJoin(a, sep, b, i);
      CharOfJoin(a, sep, b, i + 1);
      CharOfJoin(a, sep, b, i + 2);
    }
  }

  /**
   * Two pieces of normal text joined by a blank line, a line break or a
   * space are normal text.
   */
  lemma JoinKeepsNormal(a: string, sep: string, b: string)
    requires IsNormal(a) && IsNormal(b) && a != [] && b != [] && IsJoint(sep)
    ensures IsNormal(a + sep + b)
  {
    var t := a + sep + b;
    JoinNoBlankRun(a, sep, b);
    JoinNoSpaceBesideNewline(a, sep, b);
    JoinNoTripleNewline(a, sep, b);
    CharOfJoin(a, sep, b, 0);
    CharOfJoin(a, sep, b, |t| - 1);
    assert forall c :: c in t ==> c in a || c in sep || c in b;
  }

  /**
   * A blank line between two normalised paragraphs survives normalisation,
   * and so does a single line break or a single space between them.
   */
  lemma NormalizeKeepsSeparator(x: string, sep: string, y: string)
    requires Normalize(x) != [] && Normalize(y) != [] && IsJoint(sep)
    ensures Normalize(Normalize(x) + sep + Normalize(y)) == Normalize(x) + sep + Normalize(y)
  {
    JoinKeepsNormal(Normalize(x), sep, Normalize(y));
    NormalizeFixesNormal(Normalize(x) + sep + Normalize(y));
  }

  /** Normalising twice is normalising once. */
  lemma NormalizeIdempotent(s: string)
    ensures Normalize(Normalize(s)) == Normalize(s)
  {
    NormalizeFixesNormal(Normalize(s));
  }

  // ---------------------------------------------------------------------------
  // Whitespace between two pieces of normal text
  // ---------------------------------------------------------------------------

  /** A character no pass rewrites or looks past: neither whitespace nor a zero-width space. */
  predicate Solid(c: char) {
    !IsSpace(c) && c != ZeroWidthSpace
  }

  /** `x` ends, or `y` starts, with a solid character: no pass matches across the seam. */
  predicate Seam(x: string, y: string) {
    (x != [] && Solid(x[|x| - 1])) || (y != [] && Solid(y[0]))
  }

  lemma SeamRest(x: string, y: string)
    requires x != [] && Seam(x, y)
    ensures |x| == 1 ==> Solid(x[0]) || (y != [] && Solid(y[0]))
    ensures |x| > 1 ==> Seam(x[1..], y)
    ensures (x + y)[0] == x[0] && (x + y)[1..] == x[1..] + y
  {
  }

  lemma {:induction false} UnifyAppend(x: string, y: string)
    requires Seam(x, y)
    ensures UnifyLineEnds(x + y) == UnifyLineEnds(x) + UnifyLineEnds(y)
    decreases |x|
  {
    if x == [] {
      EmptyConcat(x, y);
      EmptyConcat(UnifyLineEnds(x), UnifyLineEnds(y));
    } else {
      var head := UnifyHeadStep(x, y);
      if |x| > 1 {
        SeamRest(x, y);
        UnifyAppend(x[1..], y);
      } else {
        EmptyConcat(x[1..], y);
        EmptyConcat(UnifyLineEnds(x[1..]), UnifyLineEnds(y));
      }
      ConcatAssoc(head, UnifyLineEnds(x[1..]), UnifyLineEnds(y));
    }
  }

  lemma UnifyHeadStep(x: string, y: string) returns (head: string)
    requires x != [] && Seam(x, y)
    ensures UnifyLineEnds(x + y) == head + UnifyLineEnds(x[1..] + y)
    ensures UnifyLineEnds(x) == head + UnifyLineEnds(x[1..])
  {
    SeamRest(x, y);
    UnifyCons(x + y);
    UnifyCons(x);
    if |x| > 1 {
      assert (x + y)[1] == x[1];
    }
    assert UnifyHead(x + y) == UnifyHead(x);
    head := UnifyHead(x);
  }

  /** What the line-end pass writes for the first character of `s`. */
  function UnifyHead(s: string): string
    requires s != []
  {
    if s[0] == '\r' && |s| > 1 && s[1] == '\n' then [] else if s[0] == '\r' then "\n" else [s[0]]
  }

  lemma UnifyCons(s: string)
    requires s != []
    ensures UnifyLineEnds(s) == UnifyHead(s) + UnifyLineEnds(s[1..])
  {
  }

  lemma {:induction false} WideAppend(x: string, y: string)
    ensures ReplaceWideSpaces(x + y) == ReplaceWideSpaces(x) + ReplaceWideSpaces(y)
    decreases |x|
  {
    if x == [] {
      assert x + y == y;
    } else {
      assert (x + y)[0] == x[0] && (x + y)[1..] == x[1..] + y;
      WideAppend(x[1..], y);
    }
  }

  lemma {:induction false} CollapseAppend(x: string, y: string)
    requires Seam(x, y)
    ensures CollapseBlanks(x + y) == CollapseBlanks(x) + CollapseBlanks(y)
    decreases |x|
  {
    if x == [] {
      EmptyConcat(x, y);
      EmptyConcat(CollapseBlanks(x), CollapseBlanks(y));
    } else {
      var head := CollapseHeadStep(x, y);
      if |x| > 1 {
        SeamRest(x, y);
        CollapseAppend(x[1..], y);
      } else {
        EmptyConcat(x[1..], y);
        EmptyConcat(CollapseBlanks(x[1..]), CollapseBlanks(y));
      }
      ConcatAssoc(head, CollapseBlanks(x[1..]), CollapseBlanks(y));
    }
  }

  lemma CollapseHeadStep(x: string, y: string) returns (head: string)
    requires x != [] && Seam(x, y)
    ensures CollapseBlanks(x + y) == head + CollapseBlanks(x[1..] + y)
    ensures CollapseBlanks(x) == head + CollapseBlanks(x[1..])
  {
    SeamRest(x, y);
    CollapseCons(x + y);
    CollapseCons(x);
    if |x| > 1 {
      assert (x + y)[1] == x[1];
    }
    assert CollapseHead(x + y) == CollapseHead(x);
    head := CollapseHead(x);
  }

  /** What the blank-collapsing pass writes for the first character of `s`. */
  function CollapseHead(s: string): string
    requires s != []
  {
    if IsBlank(s[0]) && |s| > 1 && IsBlank(s[1]) then [] else if IsBlank(s[0]) then " " else [s[0]]
  }

  lemma CollapseCons(s: string)
    requires s != []
    ensures CollapseBlanks(s) == CollapseHead(s) + CollapseBlanks(s[1..])
  {
  }

  lemma {:induction false} LineBreakAheadAppend(x: string, y: string)
    requires Seam(x, y)
    ensures LineBreakAhead(x + y) == LineBreakAhead(x)
    decreases |x|
  {
    if x == [] {
      assert x + y == y;
    } else {
      SeamRest(x, y);
      if |x| > 1 {
        LineBreakAheadAppend(x[1..], y);
      } else {
        assert x[1..] + y == y;
      }
    }
  }

  lemma {:induction false} DropSpacesAppend(x: string, y: string)
    requires Seam(x, y)
    ensures DropSpaces(x + y) == DropSpaces(x) + y
    ensures Seam(DropSpaces(x), y)
    decreases |x|
  {
    if x == [] {
      EmptyConcat(x, y);
      EmptyConcat(DropSpaces(x), y);
    } else if x[0] == ' ' {
      SeamRest(x, y);
      DropSpacesStep(x, y);
      if |x| > 1 {
        DropSpacesAppend(x[1..], y);
      } else {
        EmptyConcat(x[1..], y);
        EmptyConcat(DropSpaces(x[1..]), y);
      }
    } else {
      DropSpacesKeep(x, y);
    }
  }

  lemma DropSpacesStep(x: string, y: string)
    requires x != [] && x[0] == ' '
    ensures DropSpaces(x + y) == DropSpaces(x[1..] + y) && DropSpaces(x) == DropSpaces(x[1..])
  {
    assert (x + y)[0] == ' ' && (x + y)[1..] == x[1..] + y;
  }

  lemma DropSpacesKeep(x: string, y: string)
    requires x != [] && x[0] != ' '
    ensures DropSpaces(x + y) == x + y && DropSpaces(x) == x
  {
    assert (x + y)[0] == x[0];
  }

  lemma {:induction false} TightenAppend(x: string, y: string)
    requires Seam(x, y)
    ensures TightenLineBreaks(x + y) == TightenLineBreaks(x) + TightenLineBreaks(y)
    decreases |x|, 1
  {
    if x == [] {
      EmptyConcat(x, y);
      EmptyConcat(TightenLineBreaks(x), TightenLineBreaks(y));
    } else if x[0] == '\n' {
      TightenAppendBreak(x, y);
    } else {
      TightenAppendHead(x, y);
    }
  }

  lemma {:induction false} TightenAppendBreak(x: string, y: string)
    requires x != [] && x[0] == '\n' && Seam(x, y)
    ensures TightenLineBreaks(x + y) == TightenLineBreaks(x) + TightenLineBreaks(y)
    decreases |x|, 0
  {
    var d := TightenBreakStep(x, y);
    TightenAppend(d, y);
    ConcatAssoc("\n", TightenLineBreaks(d), TightenLineBreaks(y));
  }

  lemma {:induction false} TightenAppendHead(x: string, y: string)
    requires x != [] && x[0] != '\n' && Seam(x, y)
    ensures TightenLineBreaks(x + y) == TightenLineBreaks(x) + TightenLineBreaks(y)
    decreases |x|, 0
  {
    var head := TightenHeadStep(x, y);
    if |x| > 1 {
      SeamRest(x, y);
      TightenAppend(x[1..], y);
    } else {
      assert x[1..] + y == y;
    }
    ConcatAssoc(head, TightenLineBreaks(x[1..]), TightenLineBreaks(y));
  }

  /** A leading line break: the spaces after it are dropped on both sides of the seam alike. */
  lemma TightenBreakStep(x: string, y: string) returns (d: string)
    requires x != [] && x[0] == '\n' && Seam(x, y)
    ensures |d| < |x| && Seam(d, y)
    ensures TightenLineBreaks(x + y) == "\n" + TightenLineBreaks(d + y)
    ensures TightenLineBreaks(x) == "\n" + TightenLineBreaks(d)
  {
    SeamRest(x, y);
    d := DropSpaces(x[1..]);
    DropSpacesAppend(x[1..], y);
  }

  /** Any other first character is kept or dropped on both sides of the seam alike. */
  lemma TightenHeadStep(x: string, y: string) returns (head: string)
    requires x != [] && x[0] != '\n' && Seam(x, y)
    ensures TightenLineBreaks(x + y) == head + TightenLineBreaks(x[1..] + y)
    ensures TightenLineBreaks(x) == head + TightenLineBreaks(x[1..])
  {
    SeamRest(x, y);
    LineBreakAheadAppend(x, y);
    head := if x[0] == ' ' && LineBreakAhead(x) then [] else [x[0]];
    if x[0] == ' ' && LineBreakAhead(x) {
      assert LineBreakAhead(x[1..]);
    }
  }

  lemma {:induction false} CapAppend(x: string, y: string)
    requires Seam(x, y)
    ensures CapLineBreaks(x + y) == CapLineBreaks(x) + CapLineBreaks(y)
    decreases |x|
  {
    if x == [] {
      EmptyConcat(x, y);
      EmptyConcat(CapLineBreaks(x), CapLineBreaks(y));
    } else {
      var head := CapHeadStep(x, y);
      if |x| > 1 {
        SeamRest(x, y);
        CapAppend(x[1..], y);
      } else {
        EmptyConcat(x[1..], y);
        EmptyConcat(CapLineBreaks(x[1..]), CapLineBreaks(y));
      }
      ConcatAssoc(head, CapLineBreaks(x[1..]), CapLineBreaks(y));
    }
  }

  lemma CapHeadStep(x: string, y: string) returns (head: string)
    requires x != [] && Seam(x, y)
    ensures CapLineBreaks(x + y) == head + CapLineBreaks(x[1..] + y)
    ensures CapLineBreaks(x) == head + CapLineBreaks(x[1..])
  {
    SeamRest(x, y);
    CapCons(x + y);
    CapCons(x);
    if |x| > 1 {
      assert (x + y)[1] == x[1];
      assert |x| > 2 ==> (x + y)[2] == x[2];
      assert |x| == 2 && y != [] ==> (x + y)[2] == y[0];
    }
    assert CapHead(x + y) == CapHead(x);
    head := CapHead(x);
  }

  /** What the line-break cap writes for the first character of `s`. */
  function CapHead(s: string): string
    requires s != []
  {
    if |s| >= 3 && s[0] == '\n' && s[1] == '\n' && s[2] == '\n' then [] else [s[0]]
  }

  lemma CapCons(s: string)
    requires s != []
    ensures CapLineBreaks(s) == CapHead(s) + CapLineBreaks(s[1..])
  {
  }

  /** Spaces, tabs and line breaks only. */
  predicate IsGap(w: string) {
    forall i :: 0 <= i < |w| ==> w[i] == ' ' || w[i] == '\t' || w[i] == '\n'
  }

  /** Spaces and line breaks only. */
  predicate IsSpacesAndBreaks(v: string) {
    forall i :: 0 <= i < |v| ==> v[i] == ' ' || v[i] == '\n'
  }

  lemma {:induction false} CollapseGap(w: string)
    requires IsGap(w)
    ensures IsSpacesAndBreaks(CollapseBlanks(w))
    ensures CountChar(CollapseBlanks(w), '\n') == CountChar(w, '\n')
    ensures w != [] && CountChar(w, '\n') == 0 ==> CollapseBlanks(w) == " "
    decreases |w|
  {
    if w != [] {
      CollapseGap(w[1..]);
      if w[0] != '\n' && |w| > 1 && CountChar(w, '\n') == 0 {
        assert CountChar(w[1..], '\n') == (if w[1] == '\n' then 1 else 0) + CountChar(w[2..], '\n');
        assert IsBlank(w[1]);
      }
    }
  }

  lemma {:induction false} DropSpacesCount(u: string)
    ensures CountChar(DropSpaces(u), '\n') == CountChar(u, '\n')
    decreases |u|
  {
    if u != [] && u[0] == ' ' {
      DropSpacesCount(u[1..]);
    }
  }

  lemma {:induction false} LineBreakAheadCount(u: string)
    requires IsSpacesAndBreaks(u)
    ensures LineBreakAhead(u) <==> CountChar(u, '\n') > 0
    decreases |u|
  {
    if u != [] {
      LineBreakAheadCount(u[1..]);
    }
  }

  /** Tightening spaces and line breaks: with a line break only the line breaks are left, without one nothing changes. */
  lemma {:induction false} TightenGap(v: string)
    requires IsSpacesAndBreaks(v)
    ensures TightenLineBreaks(v) == if CountChar(v, '\n') == 0 then v else LineBreaks(CountChar(v, '\n'))
    decreases |v|
  {
    if v != [] {
      if v[0] == '\n' {
        var d := DropSpaces(v[1..]);
        DropSpacesGap(v[1..]);
        TightenGap(d);
        TightenGapBreak(v, d);
      } else {
        TightenGap(v[1..]);
        TightenGapSpace(v);
      }
    }
  }

  lemma DropSpacesGap(u: string)
    requires IsSpacesAndBreaks(u)
    ensures IsSpacesAndBreaks(DropSpaces(u))
    ensures CountChar(DropSpaces(u), '\n') == CountChar(u, '\n')
  {
    var d := DropSpaces(u);
    DropSpacesCount(u);
    forall i | 0 <= i < |d| ensures d[i] == ' ' || d[i] == '\n' {
      assert d[i] == u[|u| - |d| + i];
    }
  }

  /** A leading line break is kept and the spaces after it are dropped. */
  lemma TightenGapBreak(v: string, d: string)
    requires v != [] && v[0] == '\n' && d == DropSpaces(v[1..])
    requires IsSpacesAndBreaks(d) && CountChar(d, '\n') == CountChar(v[1..], '\n')
    requires TightenLineBreaks(d) == if CountChar(d, '\n') == 0 then d else LineBreaks(CountChar(d, '\n'))
    ensures TightenLineBreaks(v) == LineBreaks(CountChar(v, '\n'))
  {
    TightenBreakCons(v);
    TightenGapDone(d);
    assert CountChar(v, '\n') == 1 + CountChar(d, '\n');
    assert LineBreaks(1 + CountChar(d, '\n')) == "\n" + LineBreaks(CountChar(d, '\n'));
  }

  /** Spaces and line breaks that do not start with a space are tightened to their line breaks. */
  lemma TightenGapDone(d: string)
    requires IsSpacesAndBreaks(d) && (d == [] || d[0] != ' ')
    requires TightenLineBreaks(d) == if CountChar(d, '\n') == 0 then d else LineBreaks(CountChar(d, '\n'))
    ensures TightenLineBreaks(d) == LineBreaks(CountChar(d, '\n'))
  {
    if d != [] {
      assert CountChar(d, '\n') > 0;
    }
  }

  lemma TightenBreakCons(v: string)
    requires v != [] && v[0] == '\n'
    ensures TightenLineBreaks(v) == "\n" + TightenLineBreaks(DropSpaces(v[1..]))
  {
  }

  /** A leading space is dropped before a line break and kept otherwise. */
  lemma TightenGapSpace(v: string)
    requires v != [] && v[0] != '\n' && IsSpacesAndBreaks(v)
    requires TightenLineBreaks(v[1..]) == if CountChar(v[1..], '\n') == 0 then v[1..] else LineBreaks(CountChar(v[1..], '\n'))
    ensures TightenLineBreaks(v) == if CountChar(v, '\n') == 0 then v else LineBreaks(CountChar(v, '\n'))
  {
    assert IsSpacesAndBreaks(v[1..]);
    LineBreakAheadCount(v);
    LineBreakAheadCount(v[1..]);
    if !LineBreakAhead(v) {
      assert v == [v[0]] + v[1..];
    }
  }

  lemma {:induction false} CapBreaks(n: nat)
    ensures CapLineBreaks(LineBreaks(n)) == LineBreaks(if n <= 2 then n else 2)
    decreases n
  {
    if n > 2 {
      CapBreaks(n - 1);
      assert LineBreaks(n)[1..] == LineBreaks(n - 1);
    } else {
      CapFixesCapped(LineBreaks(n));
    }
  }

  /** What the five replacements make of a gap: one space, one line break, or one blank line. */
  lemma GapSeparator(w: string)
    requires w != [] && IsGap(w)
    ensures CapLineBreaks(TightenLineBreaks(CollapseBlanks(w)))
      == if CountChar(w, '\n') == 0 then " " else if CountChar(w, '\n') == 1 then "\n" else "\n\n"
  {
    CollapseGap(w);
    var v := CollapseBlanks(w);
    TightenGap(v);
    if CountChar(w, '\n') == 0 {
      CapFixesCapped(" ");
    } else {
      CapBreaks(CountChar(w, '\n'));
      assert LineBreaks(1) == "\n" && LineBreaks(2) == "\n\n";
    }
  }

  lemma CountCharAbsent(w: string, c: char)
    ensures CountChar(w, c) == 0 <==> c !in w
  {
    if w != [] {
      CountCharAbsent(w[1..], c);
    }
  }

  /** Each replacement splits at the two seams around a middle piece. */
  lemma PassesSplit(a: string, m: string, b: string)
    requires a != [] && Solid(a[|a| - 1]) && b != [] && Solid(b[0])
    ensures UnifyLineEnds(a + m + b) == UnifyLineEnds(a) + UnifyLineEnds(m) + UnifyLineEnds(b)
    ensures ReplaceWideSpaces(a + m + b) == ReplaceWideSpaces(a) + ReplaceWideSpaces(m) + ReplaceWideSpaces(b)
    ensures CollapseBlanks(a + m + b) == CollapseBlanks(a) + CollapseBlanks(m) + CollapseBlanks(b)
    ensures TightenLineBreaks(a + m + b) == TightenLineBreaks(a) + TightenLineBreaks(m) + TightenLineBreaks(b)
    ensures CapLineBreaks(a + m + b) == CapLineBreaks(a) + CapLineBreaks(m) + CapLineBreaks(b)
  {
    UnifyAppend(a + m, b);
    UnifyAppend(a, m);
    WideAppend(a + m, b);
    WideAppend(a, m);
    CollapseAppend(a + m, b);
    CollapseAppend(a, m);
    TightenAppend(a + m, b);
    TightenAppend(a, m);
    CapAppend(a + m, b);
    CapAppend(a, m);
  }

  /** Normal text is a fixed point of each replacement. */
  lemma PassesFixNormal(s: string)
    requires IsNormal(s)
    ensures UnifyLineEnds(s) == s && ReplaceWideSpaces(s) == s && CollapseBlanks(s) == s
    ensures TightenLineBreaks(s) == s && CapLineBreaks(s) == s
  {
    UnifyFixesPlain(s);
    WideFixesPlain(s);
    CollapseFixesSingle(s);
    TightenFixesTight(s);
    CapFixesCapped(s);
  }

  /**
   * Between two pieces of normal text, a run of spaces, tabs and line
   * breaks becomes one space when it holds no line break, one line break
   * when it holds one, and one blank line when it holds more.
   */
  lemma NormalizeGap(a: string, w: string, b: string)
    requires IsNormal(a) && IsNormal(b) && a != [] && b != []
    requires w != [] && IsGap(w)
    ensures Normalize(a + w + b) == a + (if '\n' !in w then " " else if CountChar(w, '\n') == 1 then "\n" else "\n\n") + b
  {
    assert Solid(a[|a| - 1]) && Solid(b[0]);
    PassesFixNormal(a);
    PassesFixNormal(b);
    assert '\r' !in w && NoBreakSpace !in w && ZeroWidthSpace !in w;
    UnifyFixesPlain(w);
    WideFixesPlain(w);
    PassesSplit(a, w, b);
    var v := CollapseBlanks(w);
    PassesSplit(a, v, b);
    var t := TightenLineBreaks(v);
    PassesSplit(a, t, b);
    GapSeparator(w);
    CountCharAbsent(w, '\n');
    var sep := CapLineBreaks(t);
    assert Squeeze(a + w + b) == a + sep + b;
    assert IsTrimmed(a + sep + b) by {
      CharOfJoin(a, sep, b, 0);
      CharOfJoin(a, sep, b, |a| + |sep| + |b| - 1);
    }
    TrimOfTrimmed(a + sep + b);
  }

  // ---------------------------------------------------------------------------
  // Normalising changes only whitespace
  // ---------------------------------------------------------------------------

  lemma NonSpaceConsSpace(c: char, s: string)
    requires IsSpace(c)
    ensures NonSpace([c] + s) == NonSpace(s)
  {
    assert ([c] + s)[1..] == s;
  }

  lemma NonSpaceCons(c: char, s: string)
    ensures NonSpace([c] + s) == (if IsSpace(c) then [] else [c]) + NonSpace(s)
  {
    assert ([c] + s)[1..] == s;
  }

  lemma {:induction false} UnifyKeepsContent(s: string)
    ensures NonSpace(UnifyLineEnds(s)) == NonSpace(s)
    decreases |s|
  {
    if s != [] {
      UnifyKeepsContent(s[1..]);
      NonSpaceCons(s[0], UnifyLineEnds(s[1..]));
    }
  }

  lemma {:induction false} WideKeepsContent(s: string)
    ensures NonSpace(ReplaceWideSpaces(s)) == NonSpace(Without(s, ZeroWidthSpace))
    decreases |s|
  {
    if s != [] {
      WideKeepsContent(s[1..]);
      var c := if s[0] == NoBreakSpace || s[0] == ZeroWidthSpace then ' ' else s[0];
      NonSpaceCons(c, ReplaceWideSpaces(s[1..]));
      NonSpaceCons(s[0], Without(s[1..], ZeroWidthSpace));
      if s[0] == ZeroWidthSpace {
        assert Without(s, ZeroWidthSpace) == Without(s[1..], ZeroWidthSpace);
      }
    }
  }

  lemma {:induction false} CollapseKeepsContent(s: string)
    ensures NonSpace(CollapseBlanks(s)) == NonSpace(s)
    decreases |s|
  {
    if s != [] {
      CollapseKeepsContent(s[1..]);
      NonSpaceCons(if IsBlank(s[0]) then ' ' else s[0], CollapseBlanks(s[1..]));
    }
  }

  lemma {:induction false} DropSpacesKeepsContent(s: string)
    ensures NonSpace(DropSpaces(s)) == NonSpace(s)
    decreases |s|
  {
    if s != [] && s[0] == ' ' {
      DropSpacesKeepsContent(s[1..]);
    }
  }

  lemma {:induction false} TightenKeepsContent(s: string)
    ensures NonSpace(TightenLineBreaks(s)) == NonSpace(s)
    decreases |s|
  {
    if s != [] {
      if s[0] == '\n' {
        TightenKeepsContent(DropSpaces(s[1..]));
        DropSpacesKeepsContent(s[1..]);
        NonSpaceCons('\n', TightenLineBreaks(DropSpaces(s[1..])));
      } else {
        TightenKeepsContent(s[1..]);
        NonSpaceCons(s[0], TightenLineBreaks(s[1..]));
      }
    }
  }

  lemma {:induction false} CapKeepsContent(s: string)
    ensures NonSpace(CapLineBreaks(s)) == NonSpace(s)
    decreases |s|
  {
    if s != [] {
      CapKeepsContent(s[1..]);
      NonSpaceCons(s[0], CapLineBreaks(s[1..]));
    }
  }

  /**
   * Normalising keeps every visible character, in order; only zero-width
   * spaces, which it turns into plain spaces, go with the whitespace.
   */
  lemma NormalizeKeepsContent(s: string)
    ensures NonSpace(Normalize(s)) == NonSpace(Without(s, ZeroWidthSpace))
  {
    var unified := UnifyLineEnds(s);
    var plain := ReplaceWideSpaces(unified);
    var collapsed := CollapseBlanks(plain);
    var tightened := TightenLineBreaks(collapsed);
    var capped := CapLineBreaks(tightened);
    assert Squeeze(s) == capped;
    TrimKeepsContent(capped);
    CapKeepsContent(tightened);
    TightenKeepsContent(collapsed);
    CollapseKeepsContent(plain);
    WideKeepsContent(unified);
    UnifyKeepsZeroWidth(s);
  }

  lemma {:induction false} UnifyKeepsZeroWidth(s: string)
    ensures NonSpace(Without(UnifyLineEnds(s), ZeroWidthSpace)) == NonSpace(Without(s, ZeroWidthSpace))
    decreases |s|
  {
    if s != [] {
      UnifyKeepsZeroWidth(s[1..]);
      var u := UnifyLineEnds(s[1..]);
      if s[0] == '\r' && |s| > 1 && s[1] == '\n' {
      } else if s[0] == '\r' {
        assert ("\n" + u)[1..] == u;
        NonSpaceCons('\n', Without(u, ZeroWidthSpace));
        NonSpaceCons('\r', Without(s[1..], ZeroWidthSpace));
      } else {
        var x := [s[0]] + u;
        assert x[0] == s[0] && x[1..] == u;
        if s[0] == ZeroWidthSpace {
          assert Without(x, ZeroWidthSpace) == Without(u, ZeroWidthSpace);
          assert Without(s, ZeroWidthSpace) == Without(s[1..], ZeroWidthSpace);
        } else {
          assert Without(x, ZeroWidthSpace) == [s[0]] + Without(u, ZeroWidthSpace);
          assert Without(s, ZeroWidthSpace) == [s[0]] + Without(s[1..], ZeroWidthSpace);
          NonSpaceCons(s[0], Without(u, ZeroWidthSpace));
          NonSpaceCons(s[0], Without(s[1..], ZeroWidthSpace));
        }
      }
    }
  }

  lemma {:induction false} WithoutZeroWidthOfBlank(s: string)
    requires forall i :: 0 <= i < |s| ==> IsSpace(s[i])
    ensures Without(s, ZeroWidthSpace) == s
    decreases |s|
  {
    if s != [] {
      assert !IsSpace(ZeroWidthSpace);
      WithoutZeroWidthOfBlank(s[1..]);
    }
  }

  /** Trimming keeps the visible characters (neither whitespace nor zero-width spaces), in order. */
  lemma TrimKeepsVisible(s: string)
    ensures NonSpace(Without(Trim(s), ZeroWidthSpace)) == NonSpace(Without(s, ZeroWidthSpace))
  {
    var r := Trim(s);
    var k := LeadingSpaces(s);
    var head := s[..k];
    var tail := s[k + |r|..];
    assert s == head + r + tail;
    VisibleBetweenBlanks(head, r, tail);
  }

  /** Blank text around `m` adds no visible character. */
  lemma VisibleBetweenBlanks(head: string, m: string, tail: string)
    requires forall i :: 0 <= i < |head| ==> IsSpace(head[i])
    requires forall i :: 0 <= i < |tail| ==> IsSpace(tail[i])
    ensures NonSpace(Without(head + m + tail, ZeroWidthSpace)) == NonSpace(Without(m, ZeroWidthSpace))
  {
    WithoutAppend(head + m, tail, ZeroWidthSpace);
    WithoutAppend(head, m, ZeroWidthSpace);
    WithoutZeroWidthOfBlank(head);
    WithoutZeroWidthOfBlank(tail);
    NonSpaceAppend(head + Without(m, ZeroWidthSpace), tail);
    NonSpaceAppend(head, Without(m, ZeroWidthSpace));
    NonSpaceOfBlank(head);
    NonSpaceOfBlank(tail);
  }
}

=== FILE: wrappers.dfy ===
/** The optional-value and outcome datatypes shared by every module of the model. */
module Wrappers {

  /** A value that may be absent (JavaScript `null` / `undefined`). */
  datatype Option<+T> = None | Some(value: T)

  /** An outcome of an operation that may fail with a classified error. */
  datatype Result<+T, +E> = Success(value: T) | Failure(error: E)
}
